=== FILE: README.md ===
# GivePulse core, modelled in Dafny

GivePulse is a Django application that connects blood donors with hospitals.
This project models its decision-making core as pure Dafny functions over
immutable data, and proves what each part promises:

- the field validators (`validators.py`): person names, phone numbers,
  password strength, and the profile-image gates;
- the password helpers and the model managers (`managers.py`): bcrypt-prefix
  detection, user creation and authentication, and donor, staff and
  blood-request creation;
- the choice enums and the integrity constraints of the models
  (`models.py`): unique pairs, one-to-one links, and cascading or protecting
  deletes;
- the login and registration forms (`forms.py`), including the staff form's
  hospital choices;
- the avatar storage path (`uploads.py`);
- the `verify_entities` management command, as a state update over maps;
- three browser scripts: the success-stories carousel, the top-donor chart,
  and the "match blood request" button.

One module per source file, in one `.dfy` file each:

| module | file | models |
|---|---|---|
| `Wrappers` | wrappers.dfy | `Option`, `Result`, `Outcome` |
| `Text` | text.dfy | ASCII character classes, `lower`, `strip`/`trim`, `split`/`join`, `in`/`includes`, decimal and hex numerals, string order |
| `Validators` | validators.dfy | `give_pulse_app/validators.py` |
| `Passwords` | passwords.dfy | `_hash_password_if_needed`, `check_password` |
| `Schema` | schema.dfy | `give_pulse_app/models.py` |
| `Accounts` | accounts.dfy | the managers of `give_pulse_app/managers.py` |
| `Forms` | forms.dfy | `give_pulse_app/forms.py` |
| `Uploads` | uploads.dfy | `give_pulse_app/uploads.py` |
| `VerifyEntities` | verify_entities.dfy | `give_pulse_app/management/commands/verify_entities.py` |
| `Carousel` | carousel.dfy | `give_pulse_app/static/js/success-stories-slider.js` |
| `Leaderboard` | leaderboard.dfy | `give_pulse_app/static/js/charts.js` |
| `Matching` | matching.dfy | `give_pulse_app/static/js/blood_request_matching.js` |

The database is a value: `Schema.Db` holds the users as a sequence in
insertion order (primary keys are parameters), and the other tables as maps
from primary key to row. `Schema.Valid` states the constraints the models
declare: primary keys, unique columns and `unique_together`, one-to-one
links, every foreign key (including a request's creating staff member and
a donation's confirming staff member), and non-negative unit counts.
Every write operation keeps `Valid`. Its result depends on the layer:
- the table operations of `Schema` and the profile managers of `Accounts`
  return `Result<Db, _>`;
- `Accounts.CreateUser` and `Accounts.SetPassword` work on the users
  table alone and return `Result<seq<User>, _>`;
- the registration forms' `save` returns the database it leaves behind
  together with the error of the step that failed, if one did;
- the passes of `verify_entities` return the database with a
  `PassReport`, and `VerifyEntities.Run` returns no reports when a prompt
  was interrupted.

Foreign calls are parameters:
- bcrypt's `hashpw`/`checkpw` are the functions of a `Passwords.Bcrypt`
  value. `checkpw` may raise, which `Option<bool>` represents.
- PIL's decoding is the `Validators.Decoded` result: the image size, or
  `None` when decoding raised.
- `uuid4().hex` is any number below 16^32.
- The console answer of `verify_entities` is a string argument, or `None`
  when `input()` raises instead of answering.
- `fetch` and `JSON.parse` are the `Matching.Reply` and `Matching.Body` values.
- The window width, touch coordinates and DOM lookups are arguments of the
  carousel's events.

Python's and JavaScript's Unicode-aware string operations are restricted to
ASCII:
- Python's `str.isspace` (what `str.strip` removes) is tab, newline,
  vertical tab, form feed, carriage return, the separators 0x1C-0x1F, and
  space;
- the blanks `int()` skips around a numeral are the same set without
  0x1C-0x1F;
- JavaScript's `trim` whitespace is the same set without 0x1C-0x1F;
- `\w` and `\d` are ASCII letters, digits and `_`;
- `lower()` folds A-Z only.

The model follows `models.py` where `forms.py` and `managers.py` disagree
with it, except for cities:
- Cities are integer ids. `forms.py` and `managers.py` use `city_id` and a
  `City` model, but `models.py` declares no `City` model and gives each
  row a text `city` column.
- `models.py` attaches none of the managers of `managers.py` to a model, so
  the forms' `User.objects.authenticate`, `User.objects.create_user`,
  `Donor.objects.create_donor` and `Staff.objects.create_staff` do not
  exist as written, and neither does `City`. Because `forms.py` imports
  `City` from `models.py` on its first lines, the whole forms module,
  the login form included, fails to import as written. The model gives the
  behaviour these calls evidently intend: each manager method as
  `managers.py` writes it (see "## Left out").
- Nothing in the application changes a match's status after it is created,
  so the match lifecycle is limited to what `models.py` declares.

## Model

| member | source | states |
|---|---|---|
| Validators.ValidatePersonName | give_pulse_app/validators.py:7-13 | a name passes iff it is non-empty and its stripped form is an ASCII letter followed by 1..149 letters, whitespace, apostrophes or hyphens; an accepted stripped name has length 2..150 and starts with a letter |
| Validators.ValidatePhone | give_pulse_app/validators.py:15-17 | the empty phone passes; a non-empty phone passes iff its stripped form is an optional '+' and 7..15 ASCII digits; a phone of only whitespace fails |
| Validators.ValidatePasswordStrength | give_pulse_app/validators.py:19-22 | a password passes iff it is 8..128 characters without a newline and has a lower-case letter, an upper-case letter, a digit, and a character that is neither a word character nor whitespace |
| Validators.PasswordCheck | give_pulse_app/validators.py:9 | an accepted password is non-empty, 8..128 long and has no newline (the `.` of the pattern) |
| Validators.PasswordBlanksCount | give_pulse_app/validators.py:9 | a leading space counts toward the minimum length: "Ab1!xyz" fails and " Ab1!xyz" passes |
| Validators.PreDecodeGates | give_pulse_app/validators.py:24-30 | the size limit is checked before the content type; a file passes iff it is at most maxMb MiB and its content type is absent, empty or one of JPEG, PNG and WEBP; a file over the limit gets "Image too large", and a file within it gets "Only JPEG, PNG, or WEBP images are allowed." exactly when its non-empty content type is another one |
| Validators.ValidateProfileImageAsWritten | give_pulse_app/validators.py:24-44 | the function as written: the size and type gates come first; an upload passes iff the gates pass, it decodes and both sides lie within min_px..max_px; after the gates every failure is "Invalid image file." (the dimension errors are caught by `except Exception`) |
| Validators.ValidateProfileImage | give_pulse_app/validators.py:24-44 | the evidently intended function: after the gates, an undecodable image is "Invalid image file.", one below min_px on a side is "too small", one at least min_px on both sides and above max_px on a side is "too large", and anything else passes; each message is stated as an iff |
| Validators.ImageVerdictsAgree | give_pulse_app/validators.py:32-44 | the written and the intended function accept exactly the same uploads; only the error message differs |
| Validators.SmallImageMessageLost | give_pulse_app/validators.py:39-44 | a decodable 100x100 PNG gets "Invalid image file." as written and "too small" as intended |
| Passwords.HashIfNeeded | give_pulse_app/managers.py:7-12 | a value with a `$2a$`/`$2b$`/`$2y$` prefix is stored unchanged; any other value is replaced by bcrypt's hash of exactly that value, which carries the prefix |
| Passwords.CheckPassword | give_pulse_app/managers.py:14-20 | true iff the stored value has a bcrypt prefix and `checkpw` returns true; false when `checkpw` raises |
| Passwords.HashIfNeededIdempotent | give_pulse_app/managers.py:9-12 | hashing a stored password again leaves it unchanged |
| Passwords.HashIfNeededKeepsIff | give_pulse_app/managers.py:9-12 | the value is kept exactly when it already has a bcrypt prefix |
| Passwords.StoredPasswordChecks | give_pulse_app/managers.py:9-20 | a plain password checks against its own stored hash |
| Schema.ParseRole | give_pulse_app/models.py:5-9 | exactly the codes "guest", "donor", "staff" and "admin" are roles, each the code of the role it parses to |
| Schema.ParseBloodType | give_pulse_app/models.py:11-15 | exactly "O", "A", "B" and "AB" are blood types |
| Schema.ParseRh | give_pulse_app/models.py:17-19 | exactly "+" and "-" are Rh types |
| Schema.ParseRequestStatus | give_pulse_app/models.py:21-25 | exactly "open", "partial", "fulfilled" and "expired" are request statuses |
| Schema.ParseMatchStatus | give_pulse_app/models.py:27-32 | exactly "pending", "accepted", "declined", "checked_in" and "donated" are match statuses |
| Schema.CodesRoundTrip | give_pulse_app/models.py:5-32 | every enum value is read back from its stored code |
| Schema.CompletedIsNotAMatchStatus | give_pulse_app/models.py:27-32 | "completed" is not a declared match status |
| Schema.InsertMatch | give_pulse_app/models.py:135-147 | a match is created iff its id is new and the request and the donor exist; a taken (request, donor) pair is refused; the new match is pending with no timestamps; the constraints are kept |
| Schema.InsertAppointment | give_pulse_app/models.py:155-156 | an appointment is stored iff its match exists and has no appointment yet |
| Schema.InsertDonation | give_pulse_app/models.py:165-168 | a donation is stored iff its match exists, has no donation yet, its confirming staff member (if any) exists, and the unit count is not negative; nothing else changes |
| Schema.DeleteMatch | give_pulse_app/models.py:156-166 | a match with a donation cannot be deleted (PROTECT); otherwise it is deleted along with its appointment (CASCADE) |
| Schema.MatchesOf | give_pulse_app/models.py:136 | the matches of a request are exactly those whose request id is it |
| Schema.DeleteRequest | give_pulse_app/models.py:111-136 | a request is deleted iff it exists and none of its matches has a donation; exactly that request, its matches and their appointments go, and nothing else changes |
| Accounts.FindByEmail | give_pulse_app/managers.py:49 | the index of the first user with exactly that e-mail, or none when no user has it |
| Accounts.FindById | give_pulse_app/managers.py:44 | the row `save` updates: the position of the user with that id, and none iff no user has it |
| Accounts.CreateUser | give_pulse_app/managers.py:23-36 | a weak password is refused before anything is stored; a user is created iff the password is strong, the stripped names have 1..150 characters, the stripped lower-cased e-mail 1..254, the stripped phone at most 20, and no user has that e-mail; it is appended with those stripped fields, the role and the hashed password, and the unique e-mail constraint is kept |
| Accounts.SaveUser | give_pulse_app/managers.py:34-35 | `full_clean` then `save`: the row is appended iff its columns are within their limits and its e-mail is unused |
| Accounts.SetPassword | give_pulse_app/managers.py:38-44 | a weak password is refused; the change succeeds iff the password is strong and the user exists, and then only that user's password changes, to the hashed new password |
| Accounts.Authenticate | give_pulse_app/managers.py:46-52 | a user is returned only if their e-mail is the stripped, lower-cased address and the password checks against their stored hash; an unknown address yields none |
| Accounts.AuthenticateIff | give_pulse_app/managers.py:46-52 | for the user holding the address, authentication returns that user iff the password checks |
| Accounts.CreatedUserAuthenticates | give_pulse_app/managers.py:23-52 | details `create_user` accepts are saved, and with a plain password the new user authenticates with that address and password |
| Accounts.ChangedPasswordAuthenticates | give_pulse_app/managers.py:38-52 | a strong new password for an existing user is accepted, and the user then authenticates with it |
| Accounts.CreateDonor | give_pulse_app/managers.py:65-89 | an unknown city is refused; a donor row is added iff the city exists, both blood-type codes are valid choices, the user exists and has no donor profile, and the stripped alias has at most 50 characters; it carries the given user, blood type, city, consent and last donation, the stripped alias and an empty district; nothing else changes |
| Accounts.CreateStaff | give_pulse_app/managers.py:56-61 | a staff row is added iff the user exists, has no staff profile yet (one-to-one), the hospital exists, and the role has 1..50 characters; the row carries exactly the given fields and nothing else changes |
| Accounts.CreateRequest | give_pulse_app/managers.py:92-132 | an unknown hospital, then an unknown city, then a city other than the hospital's, is refused in that order; the request is added iff those pass, the unit count is not negative, the three codes are valid choices and the creator is a staff member; it carries the given hospital, creator, units, blood type, city, deadline and status, stripped notes, an empty district and nothing fulfilled; nothing else changes |
| Accounts.NewRequestIsOpen | give_pulse_app/managers.py:103 | a request whose other details are accepted is created with the default status, and is open |
| Forms.CleanEmail | give_pulse_app/forms.py:53-57 | the result is the stripped, lower-cased address; it is refused iff some user's e-mail equals it when lower-cased |
| Forms.CleanEmailIsFresh | give_pulse_app/forms.py:53-57 | an accepted address is already normalised and no user holds it, so `create_user` stores it unchanged |
| Forms.CleanPasswords | give_pulse_app/forms.py:59-68 | missing passwords count as empty; a mismatch is reported iff the two differ; the check passes iff they are equal and strong; two empty passwords are too weak |
| Forms.StaffClean | give_pulse_app/forms.py:137-151 | password errors come first; after them, the hospital error is reported iff both a city and a hospital were chosen and the hospital lies in another city |
| Forms.PyInt | give_pulse_app/forms.py:122 | `int()` accepts a string only if something other than its blanks (space and tab through carriage return) remains once they are stripped |
| Forms.PyIntStripped | give_pulse_app/forms.py:122 | an accepted numeral is an optional sign and then digits, with an underscore only between two digits; a negative result needs a leading '-' |
| Forms.PyIntIgnoresBlanks | give_pulse_app/forms.py:122 | space, tab, newline, vertical tab, form feed and carriage return around the numeral do not change what `int()` returns |
| Forms.SeparatorIsNotIntBlank | give_pulse_app/forms.py:119-126 | a leading 0x1C is stripped by `str.strip` but refused by `int()`, so "\x1c5" selects no city |
| Forms.LeadingTabSkipped | give_pulse_app/forms.py:122 | `int()` reads "\t5" as 5 |
| Forms.PyIntReadsDecimal | give_pulse_app/forms.py:122 | `int()` reads back the decimal numeral of every natural number, and its negation |
| Forms.ChosenCity | give_pulse_app/forms.py:119-126 | the filter city is the posted city when `int()` (with its own blank set) accepts it and it is non-zero (`if data_city`), and nothing otherwise |
| Forms.InsertByName | give_pulse_app/forms.py:127 | one row inserted into a name-ordered list keeps it ordered, and the result is a permutation of the list plus the row |
| Forms.HospitalChoices | give_pulse_app/forms.py:115-129 | no choices without a usable city; otherwise a name-ordered permutation of that city's rows, and a row is a choice iff it is in the table and in that city |
| Forms.ChoicesAreTheCity | give_pulse_app/forms.py:127 | a permutation of the city's rows contains exactly the table's rows in that city |
| Forms.ChoicesStrictlyOrdered | give_pulse_app/forms.py:127 | with names unique within a city (models.py:44), the choices are strictly increasing by name |
| Forms.ValidChoicesStrictlyOrdered | give_pulse_app/models.py:44 | the choices of one city, read once per key from hospitals that keep `unique_together` on name and city, repeat no name and so are strictly increasing by name |
| Forms.LoginClean | give_pulse_app/forms.py:15-28 | authentication runs iff both fields are present; it is an error iff it then finds no user; otherwise `get_user` returns the authenticated user |
| Forms.CreateAccount | give_pulse_app/forms.py:74-81 | the account is created iff `create_user` accepts the shared fields; it is appended as a user with the new id and the form's role, the existing users and other tables are unchanged, and the constraints are kept |
| Forms.RegisteredUserLogsIn | give_pulse_app/forms.py:15-98 | whoever registers with a plain password and accepted details can then sign in through the login form with the same e-mail and password |
| Forms.SaveDonor | give_pulse_app/forms.py:70-98 | the save succeeds iff no picture was posted, the account is accepted, the city exists, both blood-type codes are valid and the new user has no donor profile; with a posted picture and otherwise acceptable data it fails on the `profile_picture` update field, which the Donor model lacks, after both rows are stored; an accepted account stays as a "donor" user even when the profile step fails (no transaction); whenever the profile step runs, the donor profile is linked to that user and carries the consent flag; only users and donors change, and the constraints are kept |
| Forms.SaveStaff | give_pulse_app/forms.py:153-169 | the save succeeds iff the account is accepted, the hospital exists and the new user has no staff profile; an accepted account stays as a "staff" user even when the profile step fails; on success an unverified staff profile with role "staff" is at the chosen hospital; only users and staff change, and the constraints are kept |
| Uploads.LastIndexOf | give_pulse_app/uploads.py:5 | `rfind`: the last index holding the character, or -1 iff it does not occur |
| Uploads.Ext | give_pulse_app/uploads.py:5 | the extension is empty or a '.' followed by neither '/' nor '.', and it is a suffix of the path |
| Uploads.SplitExt | give_pulse_app/uploads.py:5 | the POSIX `splitext` loop: root and extension concatenate back to the path, and the extension is `Ext` |
| Uploads.DonorAvatarPath | give_pulse_app/uploads.py:4-6 | the path's length is 48 plus the lengths of the user id's digits and the extension |
| Uploads.AvatarPathRoundTrip | give_pulse_app/uploads.py:4-6 | every generated path parses back to the owner's id, the 32-hex-digit token and the lower-cased extension |
| Uploads.AvatarPathSplits | give_pulse_app/uploads.py:6 | a generated path has exactly three components: "donors", the user id, and the file name |
| Uploads.MultiDotExtension | give_pulse_app/uploads.py:5 | "a.tar.GZ" keeps ".gz" |
| Uploads.DotFileHasNoExtension | give_pulse_app/uploads.py:5 | ".png" and "..png" have no extension |
| Uploads.DirectoryDotIgnored | give_pulse_app/uploads.py:5 | a dot in a directory name is no extension |
| Uploads.LeadingDotsSkipped | give_pulse_app/uploads.py:5 | "..hidden.JPG" has extension ".JPG" before lower-casing |
| VerifyEntities.ConfirmedIff | give_pulse_app/management/commands/verify_entities.py:71 | the prompt is confirmed iff the answer is "y" or "Y" |
| VerifyEntities.MarkHospitals | give_pulse_app/management/commands/verify_entities.py:56-86 | the selected hospitals get the flag; every other hospital is unchanged |
| VerifyEntities.HandleHospitals | give_pulse_app/management/commands/verify_entities.py:54-90 | only hospitals change; an unknown id aborts and a declined prompt cancels, both without change; otherwise the selected hospitals (the one id, or all) get the flag and the count is the number selected |
| VerifyEntities.MarkStaff | give_pulse_app/management/commands/verify_entities.py:94-133 | the selected staff get the flag; every other staff row is unchanged |
| VerifyEntities.HandleStaff | give_pulse_app/management/commands/verify_entities.py:92-137 | only staff change; an unknown id or an unknown hospital filter aborts; a declined prompt cancels; otherwise exactly the selected staff (the one id, or those of the hospital, or all) get the flag |
| VerifyEntities.Handle | give_pulse_app/management/commands/verify_entities.py:38-52 | "hospitals" and "staff" are exactly their own pass with its one report; "all" gives the hospitals of the hospital pass and the staff of the staff pass run on the original database, with both reports in that order |
| VerifyEntities.Run | give_pulse_app/management/commands/verify_entities.py:45-52 | the command ends without reports iff a prompt it reaches raises instead of answering (the hospital prompt without `--force` and id; the staff prompt also past the hospital-id lookup); then `transaction.atomic` leaves the database unchanged; otherwise it is `Handle` with the answers given |
| VerifyEntities.InterruptedStaffPromptUndoesHospitals | give_pulse_app/management/commands/verify_entities.py:45-52 | for "all", a hospital pass that flagged every hospital is rolled back when the staff prompt is interrupted |
| VerifyEntities.StaffPassIgnoresHospitalFlags | give_pulse_app/management/commands/verify_entities.py:105-113 | the staff pass looks only at hospital ids, so hospitals changed in anything but their keys give the same report and staff |
| VerifyEntities.HospitalPassKeepsValid | give_pulse_app/management/commands/verify_entities.py:54-90 | the hospital pass keeps the database constraints |
| VerifyEntities.StaffPassKeepsValid | give_pulse_app/management/commands/verify_entities.py:92-137 | the staff pass keeps the database constraints |
| VerifyEntities.HospitalPassIdempotent | give_pulse_app/management/commands/verify_entities.py:54-90 | running the hospital pass twice gives the same hospitals as running it once |
| VerifyEntities.StaffPassIdempotent | give_pulse_app/management/commands/verify_entities.py:92-137 | running the staff pass twice gives the same staff as running it once |
| VerifyEntities.VerifyOneHospital | give_pulse_app/management/commands/verify_entities.py:56-66 | verifying one existing hospital by id needs no confirmation, marks exactly that hospital and reports one update |
| VerifyEntities.DeclinedHospitalsStillRunStaff | give_pulse_app/management/commands/verify_entities.py:38-52 | with "all", declining the hospital prompt leaves the hospitals unchanged and the staff pass still runs |
| Carousel.SlidesToShow | give_pulse_app/static/js/success-stories-slider.js:51-64 | one story below 768 px, three from 992 px, two in between |
| Carousel.SlidesToShowMonotone | give_pulse_app/static/js/success-stories-slider.js:51-64 | a wider window never shows fewer stories |
| Carousel.Init | give_pulse_app/static/js/success-stories-slider.js:30-48 | without a track or stories nothing changes; otherwise the count and layout are set; a start index at or past `totalSlides - slidesToShow + 1` becomes exactly the last start index `max(0, totalSlides - slidesToShow)`, a smaller one is kept, and no other field changes |
| Carousel.Resize | give_pulse_app/static/js/success-stories-slider.js:16-19 | after a resize the layout matches the width and a non-negative index is in range |
| Carousel.Move | give_pulse_app/static/js/success-stories-slider.js:67-91 | ignored during a transition or when every story is visible; otherwise a transition starts and the index steps forward or back, wrapping at both ends |
| Carousel.GoToSlide | give_pulse_app/static/js/success-stories-slider.js:94-109 | the same guard, then the index is taken as given; an index within the track stays in range |
| Carousel.AutoScroll | give_pulse_app/static/js/success-stories-slider.js:22-26 | the timer tick is exactly a forward move |
| Carousel.MoveIsModular | give_pulse_app/static/js/success-stories-slider.js:67-91 | within the track, forward and back are steps modulo the number of start positions |
| Carousel.MoveKeepsRange | give_pulse_app/static/js/success-stories-slider.js:67-91 | a move keeps a valid index valid |
| Carousel.ForwardBackRoundTrip | give_pulse_app/static/js/success-stories-slider.js:67-91 | a step forward, the end of its transition and a step back return to the start, and so does the reverse |
| Carousel.MoveDuringTransitionIgnored | give_pulse_app/static/js/success-stories-slider.js:68-70 | a second move before the transition ends is lost |
| Carousel.SwipeDecision | give_pulse_app/static/js/success-stories-slider.js:182-190 | a swipe happens iff the horizontal distance exceeds the vertical one and 50 px; a forward swipe went more than 50 px left, a back swipe more than 50 px right |
| Carousel.TouchStart | give_pulse_app/static/js/success-stories-slider.js:158-165 | only a touch inside the carousel starts a drag, recording where it began |
| Carousel.TouchEnd | give_pulse_app/static/js/success-stories-slider.js:173-193 | without a drag nothing happens; otherwise the drag ends, the index moves as the swipe decides, a transition is running afterwards iff one was before or the swipe moved the track, and nothing else changes |
| Carousel.TransitionEnd | give_pulse_app/static/js/success-stories-slider.js:87-90 | the 500 ms timer clears the transition flag and changes nothing else |
| Carousel.KeyDown | give_pulse_app/static/js/success-stories-slider.js:196-207 | with focus inside, ArrowLeft moves back and ArrowRight forward; other keys and outside focus change nothing |
| Carousel.SwipeExamples | give_pulse_app/static/js/success-stories-slider.js:173-193 | 100 px left moves forward; 50 px does nothing; a mostly vertical drag does nothing |
| Carousel.EventsKeepRange | give_pulse_app/static/js/success-stories-slider.js:22-207 | touch, keyboard, timer and transition events all keep a valid index valid |
| Leaderboard.Cells | give_pulse_app/static/js/charts.js:8-9 | one entry per table row, with the trimmed name cell and the row's count |
| Leaderboard.ReadRows | give_pulse_app/static/js/charts.js:6-9 | the rows are read iff every row has at least three `td` cells; a shorter row makes `cells[1]`/`cells[2]` throw; when read, the rows are exactly the table's |
| Leaderboard.PageChart | give_pulse_app/static/js/charts.js:2-28 | no chart is drawn iff some row has fewer than three cells; otherwise the chart is that of the trimmed rows |
| Leaderboard.FirstRow | give_pulse_app/static/js/charts.js:6-16 | the first row carrying a name, before which no row carries it; it lies inside the table iff the name occurs |
| Leaderboard.Find | give_pulse_app/static/js/charts.js:11 | the index of a donor with the name such that no earlier donor has it, and none iff no donor has it |
| Leaderboard.AddRow | give_pulse_app/static/js/charts.js:11-16 | names stay distinct; the donor of that name gains the count and the others are unchanged, or a new donor is appended; the total grows by the count |
| Leaderboard.Aggregate | give_pulse_app/static/js/charts.js:6-17 | one donor per distinct trimmed name, each carrying the sum of its rows; the donor names are exactly the table's names, in the order they first appear in the table; the grand total is kept |
| Leaderboard.GroupingKeepsTotal | give_pulse_app/static/js/charts.js:6-17 | the grouped list holds all the donations of the table |
| Leaderboard.Insert | give_pulse_app/static/js/charts.js:19 | inserting into a descending list keeps it descending and is a permutation of the list plus the entry |
| Leaderboard.SortByCount | give_pulse_app/static/js/charts.js:19 | the result is a permutation of the input, in descending order of count |
| Leaderboard.SortStable | give_pulse_app/static/js/charts.js:19 | the sort is stable: for every count, the entries with that count keep their order |
| Leaderboard.InsertStable | give_pulse_app/static/js/charts.js:19 | insertion keeps the entries of each count in order and puts the new one last among its equals |
| Leaderboard.SortDistinct | give_pulse_app/static/js/charts.js:19 | sorting distinct names keeps them distinct |
| Leaderboard.Chart | give_pulse_app/static/js/charts.js:19-23 | labels and values have the same length, min(10, number of donors), and position i of both describes the i-th donor after sorting |
| Leaderboard.ChartIsTopTen | give_pulse_app/static/js/charts.js:6-23 | at most ten distinct donors, each named in the table with the sum of its rows, highest first; any donor left off has no more than each donor shown |
| Leaderboard.SortedTieOrder | give_pulse_app/static/js/charts.js:19 | two sorted entries with equal counts come from positions of the input in the same order |
| Leaderboard.ChartTiesInFirstRowOrder | give_pulse_app/static/js/charts.js:6-23 | donors the chart shows with equal counts appear in the order their names first appear in the table |
| Leaderboard.ChartLeftOff | give_pulse_app/static/js/charts.js:19-20 | a donor of the table that the chart leaves off has no more than any donor shown |
| Matching.DigitRun | give_pulse_app/static/js/blood_request_matching.js:19 | the greedy `\d+`: the longest run of digits at the start of the text |
| Matching.MatchAt | give_pulse_app/static/js/blood_request_matching.js:19 | the digits the pattern captures at one index are non-empty and all digits |
| Matching.MatchAtIff | give_pulse_app/static/js/blood_request_matching.js:19 | the scan at one index finds digits d iff the text there is "/requests/", then d (non-empty, all digits), then "/match" |
| Matching.FirstMatch | give_pulse_app/static/js/blood_request_matching.js:19 | the first index at or after the start where the pattern matches, and none iff no index matches |
| Matching.ActionId | give_pulse_app/static/js/blood_request_matching.js:19 | the id from the action is non-empty digits, and absent iff the pattern matches nowhere; otherwise it is the capture of the leftmost match, before which the pattern matches nowhere |
| Matching.FirstMatchIs | give_pulse_app/static/js/blood_request_matching.js:19 | the search stops at the first index where the pattern matches |
| Matching.RequestId | give_pulse_app/static/js/blood_request_matching.js:18-19 | a non-empty `data-request-id` wins; otherwise the id from the action; a found id is never empty |
| Matching.AjaxUrl | give_pulse_app/static/js/blood_request_matching.js:37 | the endpoint starts with "/requests/" and the id |
| Matching.ActionIdRoundTrip | give_pulse_app/static/js/blood_request_matching.js:19 | any action holding "/requests/<digits>/match", whatever precedes or follows it, yields those digits when no match starts earlier |
| Matching.AbsoluteActionId | give_pulse_app/static/js/blood_request_matching.js:19 | an absolute action "https://x/requests/7/match" yields "7" |
| Matching.AjaxUrlCarriesId | give_pulse_app/static/js/blood_request_matching.js:37 | the endpoint URL built from any digit id yields that id back |
| Matching.NoDigitsNoId | give_pulse_app/static/js/blood_request_matching.js:19 | "/requests/match/" has no id |
| Matching.EmptyAttributeFallsBack | give_pulse_app/static/js/blood_request_matching.js:18-19 | an empty attribute falls back to the action |
| Matching.FirstCsrfCookie | give_pulse_app/static/js/blood_request_matching.js:121-125 | the first cookie whose trimmed name is exactly "csrftoken", and none iff there is no such cookie |
| Matching.CsrfToken | give_pulse_app/static/js/blood_request_matching.js:111-129 | the hidden input wins, whatever its value; then the meta tag's content; then the first csrftoken cookie's value; otherwise "" |
| Matching.CookieValueBetween | give_pulse_app/static/js/blood_request_matching.js:123 | the cookie value is the text between the first and second '=' of the trimmed cookie |
| Matching.NoTokenAnywhere | give_pulse_app/static/js/blood_request_matching.js:127-128 | with no input, no meta tag and no csrftoken cookie, the token is "" |
| Matching.EmptyHiddenInputWins | give_pulse_app/static/js/blood_request_matching.js:113-114 | a hidden input with an empty value still wins |
| Matching.Classify | give_pulse_app/static/js/blood_request_matching.js:94-99 | a server error iff the message contains "HTTP error"; otherwise an invalid response iff it contains "JSON"; otherwise a network error |
| Matching.ErrorText | give_pulse_app/static/js/blood_request_matching.js:94-99 | the shown text of each class: "Server error: " and the message, "Server returned invalid response", or "Network error. Please try again." |
| Matching.HttpErrorIsServerError | give_pulse_app/static/js/blood_request_matching.js:49-51 | the script's own status error is classified as a server error |
| Matching.InvalidJsonIsInvalidResponse | give_pulse_app/static/js/blood_request_matching.js:63 | the script's own parse error is classified as an invalid response |
| Matching.FetchFailureIsNetworkError | give_pulse_app/static/js/blood_request_matching.js:94-99 | "Failed to fetch" is a network error |
| Matching.Click | give_pulse_app/static/js/blood_request_matching.js:13-107 | without an id, only the id error is shown and nothing is posted; with one, the post goes to "/requests/<id>/match-ajax/"; the button is left disabled iff the request was matched, which happens iff the message is a success |
| Matching.MatchedIff | give_pulse_app/static/js/blood_request_matching.js:49-89 | matched iff there is an id, the status is 2xx and the parsed body reports success; the server's message is then shown |
| Matching.BadStatusMessage | give_pulse_app/static/js/blood_request_matching.js:49-51 | a non-2xx status shows "Server error: HTTP error! status: " and the status, whatever the body |
| Matching.NotJsonMessage | give_pulse_app/static/js/blood_request_matching.js:56-64 | a 2xx reply that is not JSON shows "Server returned invalid response" |
| Matching.NetworkFailureMessage | give_pulse_app/static/js/blood_request_matching.js:91-101 | a fetch failure whose message mentions neither "HTTP error" nor "JSON" shows the network-error text and leaves the button usable |
| Matching.BrowserFetchFailureMessage | give_pulse_app/static/js/blood_request_matching.js:91-101 | the browser's "Failed to fetch" shows the network-error text |
| Matching.DefaultFailureMessage | give_pulse_app/static/js/blood_request_matching.js:81-84 | an unsuccessful reply without an error text shows "Failed to match blood request" |
| Matching.ServerErrorTextShown | give_pulse_app/static/js/blood_request_matching.js:81-88 | an unsuccessful 2xx JSON reply with an error text shows exactly that text as an error and re-enables the button |

## Left out

- Django's request handling, sessions, views, URLs, templates and the admin:
  these only route data into the functions modelled here.
- `validate_profile_image`'s `file.tell`, `seek` and the `finally` clause
  are left out, because they only reposition the stream.
- `Image.open` and `verify` are one decoding result, because PIL is foreign
  code.
- bcrypt's salt generation, hashing and checking are parameters, because
  they are foreign code.
- The syntax check of Django's `EmailField` inside `full_clean` is left
  out, because it is framework code. The other column checks of
  `full_clean` are modelled: blank, max_length, choices, unique and
  foreign keys.
- Timestamps (`created_at`, `updated_at`, `auto_now`) are left out,
  because they are storage details.
- Django's `EmailField` and `ModelChoiceField` validation of the posted
  form fields is left out. It belongs to the framework, and the forms
  receive already-cleaned values.
- The console output and the `--help` text of `verify_entities` are left
  out. The prompt answer is a parameter.
- Accounts.CreateDonor: models.py declares no `City` model, so
  `from .models import City` (managers.py:76) fails as written. The model
  checks the city id against the cities of the database, as intended.
- Accounts.CreateRequest: as written, the `City` import (managers.py:105)
  fails, and `hospital.city_id` (managers.py:116) does not exist, because
  `Hospital` has a text `city` column (models.py:37). The model compares the
  hospital's city id with the given one, as intended.
- Forms.HospitalChoices: as written, forms.py:6 imports the missing `City`
  model and forms.py:127 filters on `city_id`, which `Hospital` lacks. The
  model filters by the hospital's city id, as intended.
- Forms.HospitalChoices: names are ordered by code point (`Text.LexLess`).
  The database orders them by its collation, which may differ for mixed
  case or non-ASCII names.
- Forms.LoginClean: as written, forms.py:6 imports the missing `City`
  model, so the forms module fails to import, and `User.objects.authenticate`
  (forms.py:20) does not exist because models.py attaches no manager. The
  model calls `UserManager.authenticate` of managers.py, as intended.
- Forms.SaveDonor: the posted picture itself (its upload, its file checks
  and where it would be stored) is not modelled, only whether one was
  posted. The Donor model declares no picture column, so the save fails
  at `update_fields` before any picture could be stored.
- Forms.SaveDonor, Forms.SaveStaff: models.py attaches no custom manager,
  so `User.objects.create_user` and the profile managers do not exist as
  written. The model calls the manager functions of `managers.py`, as
  intended. A transaction a caller may wrap around `save` is not part of
  forms.py, so a user created before a failing profile step is kept.
- VerifyEntities.Handle: the answers are plain strings, so a prompt is
  always answered. `VerifyEntities.Run` adds the `input()` that raises
  and the rollback of `transaction.atomic`.
- Leaderboard.Cells: every row is taken to have at least three cells.
  `Leaderboard.ReadRows` and `Leaderboard.PageChart` add the short row
  that makes the script throw.
- VerifyEntities.Handle: with entity type "all", one `--id` selects a
  hospital and a staff member with the same number, as the source does.
  Nothing checks that the two are related.
- Carousel: drawing the track, the dots and the `touchmove` default
  prevention are left out, because they are DOM effects.
- Carousel: the 500 ms transition timer is the `TransitionEnd` event, and
  the 5 s auto-scroll timer is the `AutoScroll` event.
- Carousel: the hover handlers set `window.carouselPaused`, which nothing
  reads, so they change no state here.
- Carousel: coordinates and the window width are integers.
- Leaderboard: `parseInt` is taken to have produced a number. A NaN count
  is not modelled, because JavaScript's NaN arithmetic has no counterpart
  here.
- Leaderboard: drawing the chart with Chart.js is left out.
- Matching: `showMessage`'s DOM insertion, the five-second auto-dismiss and
  `updateMatchStatus`'s badge rewriting are summarised as the `matched`
  flag of the outcome.
- Matching: the `console` logging is left out.
- Matching: a failure of `response.text()` is left out.
- Matching: a `null` token sent as a header is not modelled.
- Matching: the JSON value's fields are reduced to their truthiness.
- The match lifecycle is left out: accepting, declining, checking in,
  donating, fulfilment counting, cooldowns and blood-type compatibility.
  No code in the modelled files implements any of it.
- The seeding, QR-code, certificate and session-cleanup commands are left
  out. They are file and database I/O.
- Text: Unicode character classes and case mapping are restricted to ASCII
  (see above).

## Findings

| source | as written | input that shows it | evidently intended | confidence | as-written member | corrected member |
|---|---|---|---|---|---|---|
| give_pulse_app/validators.py:39-44 | the dimension checks raise `ValidationError` inside the `try`, and `except Exception` catches it and raises "Invalid image file." instead | a decodable 100x100 PNG of 50 000 bytes | report "Image is too small (min 128x128)." (and "too large" above 3000 px) | not executed | Validators.ValidateProfileImageAsWritten | Validators.ValidateProfileImage |

=== FILE: accounts.dfy ===
/** The model managers of give_pulse_app/managers.py: user creation,
    password change and authentication, donor and staff profiles, and
    blood-request creation.

    Primary keys come from the database's id sequence; the model takes the
    new id as a parameter that is not yet in use. Django's `full_clean` is
    modelled by the column constraints of models.py (blank, max_length,
    choices, unique and foreign-key checks); its e-mail syntax validator
    is not. */
module Accounts {
  import opened Wrappers
  import opened Text
  import opened Validators
  import opened Passwords
  import opened Schema

  datatype ManagerError =
    | PasswordRejected
    | InvalidField(field: string)
    | EmailAlreadyUsed
    | ProfileExists
    | UserNotFound
    | HospitalNotFound
    | CityNotFound
    | CityMismatch

  // ---------------------------------------------------------------------
  // Lookups
  // ---------------------------------------------------------------------

  /** The position of the first user with exactly this e-mail. */
  function FindByEmail(users: seq<User>, email: string): (r: Option<nat>)
    ensures r.Some? ==> r.value < |users| && users[r.value].email == email
    ensures r.Some? ==> forall j :: 0 <= j < r.value ==> users[j].email != email
    ensures r.None? ==> forall j :: 0 <= j < |users| ==> users[j].email != email
  {
    if |users| == 0 then None
    else if users[0].email == email then Some(0)
    else match FindByEmail(users[1..], email)
      case None => None
      case Some(i) => Some(i + 1)
  }

  /** The position of the user with this id. */
  function FindById(users: seq<User>, id: int): (r: Option<nat>)
    ensures r.Some? ==> r.value < |users| && users[r.value].id == id
    ensures r.None? <==> !IsUserId(users, id)
  {
    if |users| == 0 then None
    else if users[0].id == id then Some(0)
    else match FindById(users[1..], id)
      case None =>
        assert forall j :: 1 <= j < |users| ==> users[j] == users[1..][j - 1];
        None
      case Some(i) => Some(i + 1)
  }

  predicate EmailUsed(users: seq<User>, email: string) {
    exists i :: 0 <= i < |users| && users[i].email == email
  }

  // ---------------------------------------------------------------------
  // UserManager
  // ---------------------------------------------------------------------

  /** The column constraints `full_clean` checks on a new user (the
      password is excluded): non-blank names of at most 150 characters, a
      non-blank e-mail of at most 254 and a phone of at most 20. */
  predicate UserColumnsOk(u: User) {
    && 0 < |u.firstName| <= 150
    && 0 < |u.lastName| <= 150
    && 0 < |u.email| <= 254
    && |u.phone| <= 20
  }

  function NormaliseEmail(email: string): string {
    Lower(PyStrip(email))
  }

  /** What `create_user` needs to save a user: a strong password, the
      column limits on the stripped names, e-mail and phone, and an
      e-mail no other user has once normalised. */
  predicate UserAccepted(users: seq<User>, firstName: string, lastName: string, email: string,
                         password: string, phone: Option<string>) {
    && PasswordCheck(password).Pass?
    && 0 < |PyStrip(firstName)| <= 150
    && 0 < |PyStrip(lastName)| <= 150
    && 0 < |NormaliseEmail(email)| <= 254
    && |PyStrip(phone.GetOr(""))| <= 20
    && !EmailUsed(users, NormaliseEmail(email))
  }

  /** `UserManager.create_user`. The strength check comes first and is
      made on the raw password; then the names and phone are stripped, the
      e-mail stripped and lower-cased, and the password hashed unless it
      already looks like a bcrypt hash. */
  function CreateUser(users: seq<User>, newId: int, firstName: string, lastName: string, email: string,
                      password: string, phone: Option<string>, role: Role, b: Bcrypt): (r: Result<seq<User>, ManagerError>)
    requires !IsUserId(users, newId)
    ensures PasswordCheck(password).Fail? ==> r == Err(PasswordRejected)
    ensures r.Ok? <==> UserAccepted(users, firstName, lastName, email, password, phone)
    ensures r.Ok? ==> |r.value| == |users| + 1 && r.value[..|users|] == users
    ensures r.Ok? ==> UserColumnsOk(r.value[|users|])
    ensures r.Ok? ==> var u := r.value[|users|];
                      && u.id == newId
                      && u.firstName == PyStrip(firstName) && u.lastName == PyStrip(lastName)
                      && u.email == Lower(PyStrip(email))
                      && u.phone == PyStrip(phone.GetOr(""))
                      && u.role == role
                      && (HasBcryptPrefix(password) ==> u.password == password)
                      && (!HasBcryptPrefix(password) ==> u.password == b.hashpw(password))
    ensures r.Ok? && UsersValid(users) ==> UsersValid(r.value)
  {
    if PasswordCheck(password).Fail? then Err(PasswordRejected)
    else
      var u := User(newId, PyStrip(firstName), PyStrip(lastName), NormaliseEmail(email),
                    PyStrip(phone.GetOr("")), HashIfNeeded(password, b), role);
      SaveUser(users, u)
  }

  /** The `full_clean` and `save` half of `create_user`: the column
      constraints, then the unique e-mail. */
  function SaveUser(users: seq<User>, u: User): (r: Result<seq<User>, ManagerError>)
    requires !IsUserId(users, u.id)
    ensures r.Ok? <==> UserColumnsOk(u) && !EmailUsed(users, u.email)
    ensures r.Ok? ==> r.value == users + [u]
    ensures r.Ok? && UsersValid(users) ==> UsersValid(r.value)
  {
    if !UserColumnsOk(u) then Err(InvalidField("user"))
    else if EmailUsed(users, u.email) then Err(EmailAlreadyUsed)
    else
      AppendUserValid(users, u);
      Ok(users + [u])
  }

  lemma AppendUserValid(users: seq<User>, u: User)
    requires !IsUserId(users, u.id) && !EmailUsed(users, u.email)
    ensures UsersValid(users) ==> UsersValid(users + [u])
  {
    var users' := users + [u];
    assert forall i :: 0 <= i < |users| ==> users'[i] == users[i] && users[i].id != u.id && users[i].email != u.email;
  }

  /** `UserManager.set_password`: strength is checked before anything is
      touched; then only this user's stored password changes. Saving a
      user that is not in the table fails. */
  function SetPassword(users: seq<User>, id: int, newPassword: string, b: Bcrypt): (r: Result<seq<User>, ManagerError>)
    ensures PasswordCheck(newPassword).Fail? ==> r == Err(PasswordRejected)
    ensures r.Err? ==> r.error == PasswordRejected || (r.error == UserNotFound && !IsUserId(users, id))
    ensures r.Ok? <==> PasswordCheck(newPassword).Pass? && IsUserId(users, id)
    ensures r.Ok? ==> |r.value| == |users|
    ensures r.Ok? && UsersValid(users) ==> forall i :: 0 <= i < |users| ==>
                        if users[i].id == id
                        then r.value[i] == users[i].(password := HashIfNeeded(newPassword, b))
                        else r.value[i] == users[i]
    ensures r.Ok? && UsersValid(users) ==> UsersValid(r.value)
  {
    if PasswordCheck(newPassword).Fail? then Err(PasswordRejected)
    else match FindById(users, id)
      case None => Err(UserNotFound)
      case Some(i) =>
        var users' := users[i := users[i].(password := HashIfNeeded(newPassword, b))];
        assert UsersValid(users) ==> forall j :: 0 <= j < |users| && j != i ==> users[j].id != id;
        Ok(users')
  }

  /** `UserManager.authenticate`: the e-mail is stripped and lower-cased
      (a missing one counts as empty), looked up exactly, and the user is
      returned only if the password checks against the stored hash. */
  function Authenticate(users: seq<User>, email: Option<string>, password: string, b: Bcrypt): (r: Option<User>)
    ensures r.Some? ==> r.value in users && r.value.email == NormaliseEmail(email.GetOr(""))
    ensures r.Some? ==> CheckPassword(password, r.value.password, b)
    ensures !EmailUsed(users, NormaliseEmail(email.GetOr(""))) ==> r.None?
  {
    match FindByEmail(users, NormaliseEmail(email.GetOr("")))
    case None => None
    case Some(i) => if CheckPassword(password, users[i].password, b) then Some(users[i]) else None
  }

  /** With unique e-mails, authentication fails exactly when no user has
      the normalised e-mail or the password does not check. */
  lemma AuthenticateIff(users: seq<User>, email: string, password: string, b: Bcrypt, u: User)
    requires UsersValid(users)
    requires u in users && u.email == NormaliseEmail(email)
    ensures Authenticate(users, Some(email), password, b) == Some(u) <==> CheckPassword(password, u.password, b)
    ensures Authenticate(users, Some(email), password, b).None? <==> !CheckPassword(password, u.password, b)
  {
    var i :| 0 <= i < |users| && users[i] == u;
    var k := FindByEmail(users, NormaliseEmail(email));
    assert k.Some?;
    assert k.value == i;
  }

  lemma StripOfNormalised(s: string)
    ensures NormaliseEmail(Lower(PyStrip(s))) == Lower(PyStrip(s))
  {
    var t := PyStrip(s);
    var u := Lower(t);
    if |t| > 0 {
      assert u[0] == LowerChar(t[0]) && u[|u| - 1] == LowerChar(t[|t| - 1]);
    }
    StripNoop(u, IsPySpace);
    LowerIdempotent(t);
  }

  /** A user whose details `create_user` accepts is saved, and with a
      plain password can log in with it, whatever blanks and capitals
      surround the e-mail they typed. */
  lemma {:induction false} CreatedUserAuthenticates(users: seq<User>, newId: int, firstName: string, lastName: string,
                                                     email: string, password: string, phone: Option<string>,
                                                     role: Role, b: Bcrypt)
    requires !IsUserId(users, newId)
    requires UsersValid(users) && Consistent(b) && !HasBcryptPrefix(password)
    requires UserAccepted(users, firstName, lastName, email, password, phone)
    ensures CreateUser(users, newId, firstName, lastName, email, password, phone, role, b).Ok?
    ensures var users' := CreateUser(users, newId, firstName, lastName, email, password, phone, role, b).value;
            Authenticate(users', Some(email), password, b) == Some(users'[|users|])
  {
    var users' := CreateUser(users, newId, firstName, lastName, email, password, phone, role, b).value;
    var u := users'[|users|];
    StoredPasswordChecks(password, b);
    assert u in users';
    AuthenticateIff(users', email, password, b, u);
  }

  /** A strong new password for an existing user is accepted, and then
      logs in with any spelling of the e-mail that normalises to the
      stored one. */
  lemma {:induction false} ChangedPasswordAuthenticates(users: seq<User>, id: int, newPassword: string,
                                                         email: string, b: Bcrypt, i: nat)
    requires UsersValid(users) && Consistent(b) && !HasBcryptPrefix(newPassword)
    requires i < |users| && users[i].id == id && users[i].email == NormaliseEmail(email)
    requires PasswordCheck(newPassword).Pass?
    ensures SetPassword(users, id, newPassword, b).Ok?
    ensures var users' := SetPassword(users, id, newPassword, b).value;
            Authenticate(users', Some(email), newPassword, b) == Some(users'[i])
  {
    var users' := SetPassword(users, id, newPassword, b).value;
    StoredPasswordChecks(newPassword, b);
    assert users'[i] in users';
    AuthenticateIff(users', email, newPassword, b, users'[i]);
  }

  // ---------------------------------------------------------------------
  // DonorManager and StaffManager
  // ---------------------------------------------------------------------

  predicate HasDonorProfile(db: Db, userId: int) {
    exists d :: d in db.donors && db.donors[d].userId == userId
  }

  predicate HasStaffProfile(db: Db, userId: int) {
    exists s :: s in db.staff && db.staff[s].userId == userId
  }

  /** `DonorManager.create_donor`: the city must exist; then `full_clean`
      checks the blood-type choices, that the user exists and has no donor
      profile yet, and the 50-character limit of the stripped alias. */
  function CreateDonor(db: Db, newId: int, userId: int, abo: string, rh: string, cityId: int,
                       publicAlias: Option<string>, eligibilityConsent: bool,
                       lastDonation: Option<int>): (r: Result<Db, ManagerError>)
    requires newId !in db.donors
    ensures cityId !in db.cities ==> r == Err(CityNotFound)
    ensures r.Ok? <==> && cityId in db.cities
                       && ParseBloodType(abo).Some? && ParseRh(rh).Some?
                       && IsUserId(db.users, userId) && !HasDonorProfile(db, userId)
                       && |PyStrip(publicAlias.GetOr(""))| <= 50
    ensures r.Ok? ==> newId in r.value.donors
    ensures r.Ok? ==> r.value == db.(donors := db.donors[newId := r.value.donors[newId]])
    ensures r.Ok? ==> var d := r.value.donors[newId];
                      && d.userId == userId && d.cityId == cityId
                      && BloodTypeCode(d.abo) == abo && RhCode(d.rh) == rh
                      && d.publicAlias == PyStrip(publicAlias.GetOr(""))
                      && d.eligibilityConsent == eligibilityConsent && d.lastDonation == lastDonation
                      && d.district == ""
    ensures r.Ok? ==> IsUserId(db.users, userId) && !HasDonorProfile(db, userId)
    ensures r.Ok? && Valid(db) ==> Valid(r.value)
  {
    if cityId !in db.cities then Err(CityNotFound)
    else match (ParseBloodType(abo), ParseRh(rh))
      case (None, _) => Err(InvalidField("abo"))
      case (_, None) => Err(InvalidField("rh"))
      case (Some(t), Some(f)) =>
        var alias := PyStrip(publicAlias.GetOr(""));
        if !IsUserId(db.users, userId) then Err(InvalidField("user"))
        else if HasDonorProfile(db, userId) then Err(ProfileExists)
        else if |alias| > 50 then Err(InvalidField("public_alias"))
        else
          var d := Donor(userId, t, f, cityId, "", lastDonation, eligibilityConsent, alias);
          InsertDonorValid(db, newId, d);
          Ok(db.(donors := db.donors[newId := d]))
  }

  lemma InsertDonorValid(db: Db, newId: int, d: Donor)
    requires newId !in db.donors && IsUserId(db.users, d.userId) && !HasDonorProfile(db, d.userId)
    ensures Valid(db) ==> Valid(db.(donors := db.donors[newId := d]))
  {
    var db' := db.(donors := db.donors[newId := d]);
    if Valid(db) {
      assert ProfilesValid(db');
      assert LedgerValid(db');
    }
  }

  /** `StaffManager.create_staff`: `full_clean` checks that the user exists
      and has no staff profile yet, that the hospital exists, and the
      50-character, non-blank role. */
  function CreateStaff(db: Db, newId: int, userId: int, hospitalId: int, role: string,
                       isVerified: bool): (r: Result<Db, ManagerError>)
    requires newId !in db.staff
    ensures r.Ok? <==> IsUserId(db.users, userId) && !HasStaffProfile(db, userId)
                       && hospitalId in db.hospitals && 0 < |role| <= 50
    ensures r.Ok? ==> r.value == db.(staff := db.staff[newId := Staff(userId, hospitalId, role, isVerified)])
    ensures r.Ok? && Valid(db) ==> Valid(r.value)
  {
    if !IsUserId(db.users, userId) then Err(InvalidField("user"))
    else if HasStaffProfile(db, userId) then Err(ProfileExists)
    else if hospitalId !in db.hospitals then Err(HospitalNotFound)
    else if !(0 < |role| <= 50) then Err(InvalidField("role"))
    else
      InsertStaffValid(db, newId, Staff(userId, hospitalId, role, isVerified));
      Ok(db.(staff := db.staff[newId := Staff(userId, hospitalId, role, isVerified)]))
  }

  lemma InsertStaffValid(db: Db, newId: int, s: Staff)
    requires newId !in db.staff && IsUserId(db.users, s.userId) && !HasStaffProfile(db, s.userId)
    requires s.hospitalId in db.hospitals
    ensures Valid(db) ==> Valid(db.(staff := db.staff[newId := s]))
  {
    var db' := db.(staff := db.staff[newId := s]);
    if Valid(db) {
      assert ProfilesValid(db');
      assert LedgerValid(db');
    }
  }

  // ---------------------------------------------------------------------
  // BloodRequestManager
  // ---------------------------------------------------------------------

  const DefaultRequestStatus: string := "open"

  /** What `create_request` needs to save a request: a hospital and a city
      that exist and agree, a non-negative unit count, valid choices and a
      staff member as creator. */
  predicate RequestAccepted(db: Db, hospitalId: int, createdById: int, unitsRequested: int,
                            abo: string, rh: string, cityId: int, status: string) {
    && hospitalId in db.hospitals && cityId in db.cities && db.hospitals[hospitalId].cityId == cityId
    && unitsRequested >= 0
    && ParseBloodType(abo).Some? && ParseRh(rh).Some? && ParseRequestStatus(status).Some?
    && createdById in db.staff
  }

  /** `BloodRequestManager.create_request`. The hospital is looked up
      first, then the city, then the two are compared; only then does
      `full_clean` check the unit count, the choices and the creating
      staff member. The notes are stripped and nothing is fulfilled yet. */
  function CreateRequest(db: Db, newId: int, hospitalId: int, createdById: int, unitsRequested: int,
                         abo: string, rh: string, cityId: int, deadlineAt: int,
                         notes: Option<string>, status: string): (r: Result<Db, ManagerError>)
    requires newId !in db.requests
    ensures hospitalId !in db.hospitals ==> r == Err(HospitalNotFound)
    ensures hospitalId in db.hospitals && cityId !in db.cities ==> r == Err(CityNotFound)
    ensures hospitalId in db.hospitals && cityId in db.cities && db.hospitals[hospitalId].cityId != cityId
            ==> r == Err(CityMismatch)
    ensures r.Ok? <==> RequestAccepted(db, hospitalId, createdById, unitsRequested, abo, rh, cityId, status)
    ensures r.Ok? ==> newId in r.value.requests
    ensures r.Ok? ==> r.value == db.(requests := db.requests[newId := r.value.requests[newId]])
    ensures r.Ok? ==> var q := r.value.requests[newId];
                      && q.hospitalId == hospitalId && q.createdById == createdById && q.cityId == cityId
                      && q.unitsRequested == unitsRequested && unitsRequested >= 0 && q.unitsFulfilled == 0
                      && BloodTypeCode(q.abo) == abo && RhCode(q.rh) == rh
                      && RequestStatusCode(q.status) == status
                      && q.notes == PyStrip(notes.GetOr(""))
                      && q.deadlineAt == deadlineAt && q.district == ""
    ensures r.Ok? && Valid(db) ==> Valid(r.value)
  {
    if hospitalId !in db.hospitals then Err(HospitalNotFound)
    else if cityId !in db.cities then Err(CityNotFound)
    else if db.hospitals[hospitalId].cityId != cityId then Err(CityMismatch)
    else if unitsRequested < 0 then Err(InvalidField("units_requested"))
    else match (ParseBloodType(abo), ParseRh(rh), ParseRequestStatus(status))
      case (None, _, _) => Err(InvalidField("abo"))
      case (_, None, _) => Err(InvalidField("rh"))
      case (_, _, None) => Err(InvalidField("status"))
      case (Some(t), Some(f), Some(st)) =>
        if createdById !in db.staff then Err(InvalidField("created_by"))
        else
          var q := BloodRequest(hospitalId, createdById, unitsRequested, 0, t, f, cityId, "",
                                deadlineAt, st, PyStrip(notes.GetOr("")));
          InsertRequestValid(db, newId, q);
          Ok(db.(requests := db.requests[newId := q]))
  }

  lemma InsertRequestValid(db: Db, newId: int, q: BloodRequest)
    requires newId !in db.requests && q.hospitalId in db.hospitals && q.createdById in db.staff
    requires q.unitsRequested >= 0 && q.unitsFulfilled >= 0
    ensures Valid(db) ==> Valid(db.(requests := db.requests[newId := q]))
  {
    var db' := db.(requests := db.requests[newId := q]);
    if Valid(db) {
      assert RequestsValid(db');
      assert LedgerValid(db');
    }
  }

  /** A request created with the default status is accepted whenever its
      other details are, and starts out open. */
  lemma NewRequestIsOpen(db: Db, newId: int, hospitalId: int, createdById: int, unitsRequested: int,
                         abo: string, rh: string, cityId: int, deadlineAt: int, notes: Option<string>)
    requires newId !in db.requests
    requires RequestAccepted(db, hospitalId, createdById, unitsRequested, abo, rh, cityId, "open")
    ensures CreateRequest(db, newId, hospitalId, createdById, unitsRequested, abo, rh, cityId,
                          deadlineAt, notes, DefaultRequestStatus).Ok?
    ensures CreateRequest(db, newId, hospitalId, createdById, unitsRequested, abo, rh, cityId,
                          deadlineAt, notes, DefaultRequestStatus).value.requests[newId].status == Open
  {
  }
}

=== FILE: carousel.dfy ===
/** The success-stories carousel
    (give_pulse_app/static/js/success-stories-slider.js) as a state
    machine over the script's global variables.

    The timers are events: the 500 ms reset of the transition flag is
    `TransitionEnd`, and each 5 s auto-scroll tick is `AutoScroll`. The
    page width, the number of story items and touch coordinates are
    parameters; drawing the track and the dots is left out. */
module Carousel {

  datatype State = State(
    current: int,        // currentSlide
    total: nat,          // totalSlides
    show: nat,           // slidesToShow
    transitioning: bool, // isTransitioning
    startX: int,
    startY: int,
    dragging: bool)      // isDragging

  /** The state when the script is loaded. */
  const Initial: State := State(0, 0, 3, false, 0, 0, false)

  function Max(a: int, b: int): int { if a >= b then a else b }

  function Abs(x: int): nat { if x >= 0 then x else -x }

  /** The last index the track can start at. */
  function MaxSlide(s: State): nat { Max(0, s.total - s.show) }

  /** The start index lies within the track. */
  predicate InRange(s: State) { 0 <= s.current <= MaxSlide(s) }

  /** Whether arrows, swipes and auto-scroll can move the track at all. */
  predicate CanMove(s: State) { !s.transitioning && s.total > s.show }

  // ---------------------------------------------------------------------
  // Layout
  // ---------------------------------------------------------------------

  /** `updateSlidesToShow`: one story below 768 px, two below 992 px,
      otherwise three. */
  function SlidesToShow(width: int): (r: nat)
    ensures 1 <= r <= 3
    ensures r == 1 <==> width < 768
    ensures r == 3 <==> width >= 992
  {
    if width < 768 then 1 else if width < 992 then 2 else 3
  }

  /** A wider window never shows fewer stories. */
  lemma SlidesToShowMonotone(w1: int, w2: int)
    requires w1 <= w2
    ensures SlidesToShow(w1) <= SlidesToShow(w2)
  {
  }

  /** `initCarousel`: without a track or without stories nothing happens;
      otherwise the story count and layout are taken and a start index
      past the last usable one is pulled back to it. */
  function Init(s: State, trackPresent: bool, itemCount: nat, width: int): (r: State)
    ensures !trackPresent || itemCount == 0 ==> r == s
    ensures trackPresent && itemCount > 0 ==>
              r.total == itemCount && r.show == SlidesToShow(width)
              && r.current <= MaxSlide(r)
              && (0 <= s.current <= MaxSlide(r) ==> r.current == s.current)
              && (s.current >= 0 ==> InRange(r))
    ensures trackPresent && itemCount > 0 && s.current >= itemCount - SlidesToShow(width) + 1 ==>
              r.current == MaxSlide(r)
    ensures trackPresent && itemCount > 0 && s.current < itemCount - SlidesToShow(width) + 1 ==>
              r.current == s.current
    ensures r == s.(total := r.total, show := r.show, current := r.current)
    ensures r.transitioning == s.transitioning && r.dragging == s.dragging
  {
    if !trackPresent || itemCount == 0 then s
    else
      var s1 := s.(total := itemCount, show := SlidesToShow(width));
      if s1.current >= s1.total - s1.show + 1 then s1.(current := Max(0, s1.total - s1.show)) else s1
  }

  /** The window's resize handler: the layout is updated first, then the
      carousel is initialised again. */
  function Resize(s: State, trackPresent: bool, itemCount: nat, width: int): (r: State)
    ensures r.show == SlidesToShow(width)
    ensures trackPresent && itemCount > 0 && s.current >= 0 ==> InRange(r)
    ensures !trackPresent || itemCount == 0 ==> r.current == s.current && r.total == s.total
  {
    Init(s.(show := SlidesToShow(width)), trackPresent, itemCount, width)
  }

  // ---------------------------------------------------------------------
  // Moving
  // ---------------------------------------------------------------------

  /** `moveCarousel`: ignored while a transition runs or when every story
      is visible; otherwise the flag is raised and the index steps forward
      for direction 1 and back for anything else, wrapping at both ends. */
  function Move(s: State, direction: int): (r: State)
    ensures !CanMove(s) ==> r == s
    ensures CanMove(s) ==> r.transitioning && r == s.(current := r.current, transitioning := true)
    ensures CanMove(s) && direction == 1 ==>
              r.current == if s.current >= MaxSlide(s) then 0 else s.current + 1
    ensures CanMove(s) && direction != 1 ==>
              r.current == if s.current <= 0 then MaxSlide(s) else s.current - 1
  {
    if s.transitioning || s.total <= s.show then s
    else
      var maxSlide := s.total - s.show;
      var next := if direction == 1 then (if s.current >= maxSlide then 0 else s.current + 1)
                  else (if s.current <= 0 then maxSlide else s.current - 1);
      s.(current := next, transitioning := true)
  }

  /** `goToSlide`: the same guard, then the index is taken as given. */
  function GoToSlide(s: State, index: int): (r: State)
    ensures !CanMove(s) ==> r == s
    ensures CanMove(s) ==> r == s.(current := index, transitioning := true)
    ensures CanMove(s) && 0 <= index <= MaxSlide(s) ==> InRange(r)
  {
    if s.transitioning || s.total <= s.show then s
    else s.(current := index, transitioning := true)
  }

  /** The timer that ends a transition. */
  function TransitionEnd(s: State): (r: State)
    ensures !r.transitioning && r == s.(transitioning := false)
  {
    s.(transitioning := false)
  }

  /** The auto-scroll tick checks the same guard `Move` does, so it is a
      forward move. */
  function AutoScroll(s: State): (r: State)
    ensures r == Move(s, 1)
  {
    if !s.transitioning && s.total > s.show then Move(s, 1) else s
  }

  /** Within the track, a step forward is a step modulo the number of
      start positions, and so is a step back. */
  lemma MoveIsModular(s: State)
    requires CanMove(s) && InRange(s)
    ensures Move(s, 1).current == (s.current + 1) % (MaxSlide(s) + 1)
    ensures Move(s, -1).current == (s.current - 1) % (MaxSlide(s) + 1)
  {
    var m := MaxSlide(s) + 1;
    if s.current == MaxSlide(s) {
      ModWrap(m, 0);
    } else {
      ModWithin(m, s.current + 1);
    }
    if s.current == 0 {
      ModWrap(m, -1);
    } else {
      ModWithin(m, s.current - 1);
    }
  }

  /** A number below the modulus is its own remainder. */
  lemma ModWithin(m: int, x: int)
    requires 0 <= x < m
    ensures x % m == x
  {
  }

  /** One step past either end of `0..m-1` lands at the other end. */
  lemma ModWrap(m: int, r: int)
    requires m > 0 && (r == 0 || r == -1)
    ensures (if r == 0 then m else -1) % m == (if r == 0 then 0 else m - 1)
  {
  }

  /** Every move keeps a valid index valid. */
  lemma MoveKeepsRange(s: State, direction: int)
    requires InRange(s)
    ensures InRange(Move(s, direction))
  {
  }

  /** A step forward, the end of its transition and a step back return to
      the starting index, and so does the reverse order. */
  lemma ForwardBackRoundTrip(s: State)
    requires CanMove(s) && InRange(s)
    ensures Move(TransitionEnd(Move(s, 1)), -1).current == s.current
    ensures Move(TransitionEnd(Move(s, -1)), 1).current == s.current
  {
    var f := TransitionEnd(Move(s, 1));
    assert CanMove(f) && InRange(f) && MaxSlide(f) == MaxSlide(s);
    var b := TransitionEnd(Move(s, -1));
    assert CanMove(b) && InRange(b) && MaxSlide(b) == MaxSlide(s);
  }

  /** A second move before the transition ends is lost. */
  lemma MoveDuringTransitionIgnored(s: State, d1: int, d2: int)
    requires CanMove(s)
    ensures Move(Move(s, d1), d2) == Move(s, d1)
  {
  }

  // ---------------------------------------------------------------------
  // Touch and keyboard input
  // ---------------------------------------------------------------------

  /** What a finished touch does: move forward when the finger went left,
      back when it went right, and nothing unless the horizontal distance
      exceeds both the vertical one and 50 px. */
  datatype Swipe = NoSwipe | SwipeForward | SwipeBack

  function SwipeDecision(dx: int, dy: int): (r: Swipe)
    ensures r != NoSwipe <==> Abs(dx) > Abs(dy) && Abs(dx) > 50
    ensures r == SwipeForward ==> dx > 50
    ensures r == SwipeBack ==> dx < -50
  {
    if Abs(dx) > Abs(dy) && Abs(dx) > 50 then (if dx > 0 then SwipeForward else SwipeBack)
    else NoSwipe
  }

  /** The `touchstart` handler: only touches inside the carousel start a
      drag. */
  function TouchStart(s: State, insideCarousel: bool, x: int, y: int): (r: State)
    ensures !insideCarousel ==> r == s
    ensures insideCarousel ==> r == s.(startX := x, startY := y, dragging := true)
  {
    if !insideCarousel then s else s.(startX := x, startY := y, dragging := true)
  }

  /** The `touchend` handler: a drag ends, and a swipe moves the track. */
  function TouchEnd(s: State, x: int, y: int): (r: State)
    ensures !s.dragging ==> r == s
    ensures s.dragging ==> r == s.(current := r.current, transitioning := r.transitioning, dragging := false)
    ensures s.dragging ==>
              (r.transitioning <==>
                 (s.transitioning || (CanMove(s) && SwipeDecision(s.startX - x, s.startY - y) != NoSwipe)))
    ensures s.dragging ==> r.current == match SwipeDecision(s.startX - x, s.startY - y)
                                        case NoSwipe => s.current
                                        case SwipeForward => Move(s, 1).current
                                        case SwipeBack => Move(s, -1).current
  {
    if !s.dragging then s
    else
      var moved := match SwipeDecision(s.startX - x, s.startY - y)
                   case NoSwipe => s
                   case SwipeForward => Move(s, 1)
                   case SwipeBack => Move(s, -1);
      moved.(dragging := false)
  }

  /** The `keydown` handler: the arrow keys move the track while focus is
      inside the carousel. */
  function KeyDown(s: State, focusInside: bool, key: string): (r: State)
    ensures !focusInside ==> r == s
    ensures focusInside && key == "ArrowLeft" ==> r == Move(s, -1)
    ensures focusInside && key == "ArrowRight" ==> r == Move(s, 1)
    ensures key != "ArrowLeft" && key != "ArrowRight" ==> r == s
  {
    if !focusInside then s
    else if key == "ArrowLeft" then Move(s, -1)
    else if key == "ArrowRight" then Move(s, 1)
    else s
  }

  /** A finger drawn 100 px to the left moves forward; one drawn 50 px
      does nothing; one drawn mostly downwards does nothing. */
  lemma SwipeExamples(s: State)
    requires CanMove(s) && InRange(s)
    ensures TouchEnd(TouchStart(s, true, 300, 200), 200, 210).current == Move(s, 1).current
    ensures TouchEnd(TouchStart(s, true, 300, 200), 250, 200).current == s.current
    ensures TouchEnd(TouchStart(s, true, 300, 200), 200, 400).current == s.current
  {
  }

  /** Touch, keyboard, timer and layout events all keep a valid index
      valid. */
  lemma EventsKeepRange(s: State, inside: bool, x: int, y: int, key: string)
    requires InRange(s)
    ensures InRange(TouchStart(s, inside, x, y))
    ensures InRange(TouchEnd(s, x, y))
    ensures InRange(KeyDown(s, inside, key))
    ensures InRange(AutoScroll(s))
    ensures InRange(TransitionEnd(s))
  {
    MoveKeepsRange(s, 1);
    MoveKeepsRange(s, -1);
  }
}

=== FILE: forms.dfy ===
/** The login and registration forms of give_pulse_app/forms.py: their
    `clean` rules, the staff form's hospital choices, and the accounts the
    two registration forms create when saved.

    Django's per-field cleaning (required fields, e-mail syntax, a posted
    hospital being one of the offered choices) happens before these rules
    and is not modelled; a field that did not survive it is `None` here. */
module Forms {
  import opened Wrappers
  import opened Text
  import opened Validators
  import opened Passwords
  import opened Schema
  import opened Accounts

  datatype FormError =
    | EmailRegistered
    | PasswordsDiffer
    | PasswordTooWeak
    | HospitalNotInCity
    | InvalidCredentials

  // ---------------------------------------------------------------------
  // clean_email (both registration forms)
  // ---------------------------------------------------------------------

  predicate EmailTakenIgnoringCase(users: seq<User>, email: string) {
    exists i :: 0 <= i < |users| && Lower(users[i].email) == email
  }

  /** `clean_email`: the stripped, lower-cased address, refused when any
      existing user has it up to letter case. */
  function CleanEmail(users: seq<User>, email: string): (r: Result<string, FormError>)
    ensures r.Ok? ==> r.value == NormaliseEmail(email)
    ensures r.Err? <==> exists i :: 0 <= i < |users| && Lower(users[i].email) == NormaliseEmail(email)
    ensures r.Err? ==> r.error == EmailRegistered
  {
    var e := NormaliseEmail(email);
    if EmailTakenIgnoringCase(users, e) then Err(EmailRegistered) else Ok(e)
  }

  /** An address that passes `clean_email` is stored unchanged by
      `create_user` and cannot collide with the unique e-mail column. */
  lemma CleanEmailIsFresh(users: seq<User>, email: string)
    requires CleanEmail(users, email).Ok?
    ensures NormaliseEmail(CleanEmail(users, email).value) == CleanEmail(users, email).value
    ensures !EmailUsed(users, CleanEmail(users, email).value)
  {
    var e := CleanEmail(users, email).value;
    StripOfNormalised(email);
    LowerIdempotent(PyStrip(email));
  }

  // ---------------------------------------------------------------------
  // clean (both registration forms)
  // ---------------------------------------------------------------------

  /** The password part of both forms' `clean`: a missing password counts
      as empty; a mismatch is reported on `password2` before the strength
      of the first password is checked. */
  function CleanPasswords(password1: Option<string>, password2: Option<string>): (r: Outcome<FormError>)
    ensures r == Fail(PasswordsDiffer) <==> password1.GetOr("") != password2.GetOr("")
    ensures r.Pass? <==> password1.GetOr("") == password2.GetOr("") && StrongPassword(password1.GetOr(""))
    ensures r.Fail? ==> r.error in {PasswordsDiffer, PasswordTooWeak}
    ensures password1.GetOr("") == [] && password2.GetOr("") == [] ==> r == Fail(PasswordTooWeak)
  {
    var p1 := password1.GetOr("");
    var p2 := password2.GetOr("");
    if p1 != p2 then Fail(PasswordsDiffer)
    else if PasswordCheck(p1).Fail? then Fail(PasswordTooWeak)
    else Pass
  }

  /** `StaffRegistrationForm.clean`: the password checks, and only after
      they pass, the chosen hospital must lie in the chosen city. */
  function StaffClean(password1: Option<string>, password2: Option<string>,
                      city: Option<int>, hospital: Option<Hospital>): (r: Outcome<FormError>)
    ensures CleanPasswords(password1, password2).Fail? ==> r == CleanPasswords(password1, password2)
    ensures r == Fail(HospitalNotInCity) <==>
              (CleanPasswords(password1, password2).Pass? && city.Some? && hospital.Some?
               && hospital.value.cityId != city.value)
    ensures r.Pass? ==> CleanPasswords(password1, password2).Pass?
  {
    var pw := CleanPasswords(password1, password2);
    if pw.Fail? then pw
    else if city.Some? && hospital.Some? && hospital.value.cityId != city.value then Fail(HospitalNotInCity)
    else Pass
  }

  // ---------------------------------------------------------------------
  // The posted city: Python's int() on a string
  // ---------------------------------------------------------------------

  /** Digits with single underscores between them, as `int()` accepts. */
  predicate DigitGroups(b: string) {
    && |b| > 0 && IsDigit(b[0]) && IsDigit(b[|b| - 1])
    && (forall i :: 0 <= i < |b| ==> IsDigit(b[i]) || b[i] == '_')
    && (forall i :: 0 <= i < |b| - 1 ==> b[i] == '_' ==> IsDigit(b[i + 1]))
  }

  function DropUnderscores(b: string): (r: string)
    requires forall i :: 0 <= i < |b| ==> IsDigit(b[i]) || b[i] == '_'
    ensures AllDigits(r)
    ensures AllDigits(b) ==> r == b
  {
    if |b| == 0 then ""
    else if b[0] == '_' then DropUnderscores(b[1..])
    else [b[0]] + DropUnderscores(b[1..])
  }

  /** The blanks `int()` skips around a numeral: space, tab, line feed,
      vertical tab, form feed and carriage return. Unlike `str.strip`, it
      leaves the information separators 0x1C..0x1F in place, so a string
      starting with one of them is not a number. */
  predicate IsIntBlank(c: char) { c == ' ' || (9 <= c as int <= 13) }

  /** `int(s)`: surrounding blanks are ignored, one optional sign, then
      digit groups; anything else raises (`None`). */
  function PyInt(s: string): (r: Option<int>)
    ensures r.Some? ==> Strip(s, IsIntBlank) != []
  {
    PyIntStripped(Strip(s, IsIntBlank))
  }

  /** `int()` on a string without surrounding blanks. */
  function PyIntStripped(t: string): (r: Option<int>)
    ensures r.Some? ==> |t| > 0 && IsDigit(t[|t| - 1]) && (IsDigit(t[0]) || t[0] == '+' || t[0] == '-')
    ensures r.Some? ==> forall i :: 0 < i < |t| ==> IsDigit(t[i]) || t[i] == '_'
    ensures r.Some? ==> forall i :: 0 < i < |t| - 1 ==> t[i] == '_' ==> IsDigit(t[i + 1])
    ensures r.Some? && r.value < 0 ==> t[0] == '-'
  {
    var signed := |t| > 0 && (t[0] == '+' || t[0] == '-');
    var body := if signed then t[1..] else t;
    if !DigitGroups(body) then None
    else
      var v: int := DigitsValue(DropUnderscores(body));
      Some(if signed && t[0] == '-' then -v else v)
  }

  /** Blanks around the number do not matter. */
  lemma PyIntIgnoresBlanks(s: string)
    ensures PyInt(Strip(s, IsIntBlank)) == PyInt(s)
  {
    StripIdempotent(s, IsIntBlank);
  }

  /** An information separator is a blank for `str.strip` but not for
      `int()`, so a posted city that starts with one selects no city. */
  lemma SeparatorIsNotIntBlank()
    ensures PyStrip([28 as char] + "5") == "5"
    ensures PyInt([28 as char] + "5") == None
    ensures ChosenCity(Some([28 as char] + "5")) == None
  {
    var s := [28 as char] + "5";
    StripLeadingBlank(28 as char, "5", IsPySpace);
    StripNoop(s, IsIntBlank);
    assert !IsDigit(s[0]) && s[0] != '+' && s[0] != '-';
  }

  /** A tab before the number is skipped. */
  lemma LeadingTabSkipped()
    ensures PyInt("\t" + "5") == Some(5)
  {
    StripLeadingBlank('\t', "5", IsIntBlank);
    PyIntOfDigits("5");
    assert Strip("5", IsIntBlank) == "5";
  }

  lemma DigitsAreGroups(d: string)
    requires |d| > 0 && AllDigits(d)
    ensures DigitGroups(d) && DropUnderscores(d) == d
  {
  }

  lemma PyIntOfDigits(d: string)
    requires |d| > 0 && AllDigits(d)
    ensures PyInt(d) == Some(DigitsValue(d) as int)
  {
    assert IsDigit(d[0]) && IsDigit(d[|d| - 1]);
    StripNoop(d, IsIntBlank);
    assert !(d[0] == '+' || d[0] == '-');
    DigitsAreGroups(d);
    assert PyIntStripped(d) == Some(DigitsValue(d) as int);
  }

  lemma PyIntOfNegativeDigits(d: string)
    requires |d| > 0 && AllDigits(d)
    ensures PyInt("-" + d) == Some(-(DigitsValue(d) as int))
  {
    var m := "-" + d;
    assert m[|m| - 1] == d[|d| - 1] && IsDigit(d[|d| - 1]);
    StripNoop(m, IsIntBlank);
    NegativeStripped(d);
  }

  lemma NegativeStripped(d: string)
    requires |d| > 0 && AllDigits(d)
    ensures PyIntStripped("-" + d) == Some(-(DigitsValue(d) as int))
  {
    var m := "-" + d;
    assert m[1..] == d;
    SignedStripped(m);
    DigitsAreGroups(d);
  }

  /** A leading sign is read apart from the digit groups after it. */
  lemma SignedStripped(t: string)
    requires |t| > 0 && (t[0] == '+' || t[0] == '-')
    ensures PyIntStripped(t) == (if !DigitGroups(t[1..]) then None
                                 else var v: int := DigitsValue(DropUnderscores(t[1..]));
                                      Some(if t[0] == '-' then -v else v))
  {
  }

  /** `int()` reads back every printed integer. */
  lemma PyIntReadsDecimal(n: nat)
    ensures PyInt(Decimal(n)) == Some(n)
    ensures n > 0 ==> PyInt("-" + Decimal(n)) == Some(-(n as int))
  {
    var d := Decimal(n);
    assert |d| > 0 && AllDigits(d);
    DecimalValue(n);
    assert PyInt(d) == Some(n) by {
      PyIntOfDigits(d);
    }
    if n > 0 {
      PyIntOfNegativeDigits(d);
    }
  }

  /** The city the staff form filters by: present, an integer, and
      non-zero (`if data_city:`). */
  function ChosenCity(dataCity: Option<string>): (r: Option<int>)
    ensures r.Some? ==> r.value != 0 && dataCity.Some? && PyInt(dataCity.value) == r
    ensures dataCity.Some? && PyInt(dataCity.value).Some? && PyInt(dataCity.value).value != 0 ==> r.Some?
  {
    match dataCity
    case None => None
    case Some(s) =>
      match PyInt(s)
      case None => None
      case Some(n) => if n != 0 then Some(n) else None
  }

  // ---------------------------------------------------------------------
  // StaffRegistrationForm.__init__: hospital choices ordered by name
  // ---------------------------------------------------------------------

  /** A row of the hospitals table: its primary key and its columns. */
  type HospitalRow = (int, Hospital)

  /** The rows of one city, in table order. */
  function InCity(table: seq<HospitalRow>, city: int): (r: seq<HospitalRow>)
    ensures forall k :: 0 <= k < |r| ==> r[k].1.cityId == city
    ensures forall k :: 0 <= k < |table| && table[k].1.cityId == city ==> table[k] in r
    ensures forall x :: x in r ==> x in table
  {
    if |table| == 0 then []
    else
      var last := table[|table| - 1];
      var prefix := InCity(table[..|table| - 1], city);
      assert forall x :: x in table[..|table| - 1] ==> x in table;
      if last.1.cityId == city then prefix + [last] else prefix
  }

  /** No row is listed before one whose name sorts strictly earlier. */
  predicate NameSorted(rows: seq<HospitalRow>) {
    forall i, j :: 0 <= i < j < |rows| ==> !LexLess(rows[j].1.name, rows[i].1.name)
  }

  /** No row of `rows` has a name sorting strictly before `name`. */
  predicate NotBelow(rows: seq<HospitalRow>, name: string) {
    forall j :: 0 <= j < |rows| ==> !LexLess(rows[j].1.name, name)
  }

  lemma PrependSorted(row: HospitalRow, rows: seq<HospitalRow>)
    requires NameSorted(rows) && NotBelow(rows, row.1.name)
    ensures NameSorted([row] + rows)
  {
    var r := [row] + rows;
    forall i, j | 0 <= i < j < |r|
      ensures !LexLess(r[j].1.name, r[i].1.name)
    {
      assert r[j] == rows[j - 1];
      if i > 0 {
        assert r[i] == rows[i - 1];
      }
    }
  }

  lemma BelowHeadIsBelowAll(row: HospitalRow, rows: seq<HospitalRow>)
    requires NameSorted(rows) && |rows| > 0 && LexLess(row.1.name, rows[0].1.name)
    ensures NotBelow(rows, row.1.name)
  {
    forall j | 0 <= j < |rows|
      ensures !LexLess(rows[j].1.name, row.1.name)
    {
      if LexLess(rows[j].1.name, row.1.name) {
        LexTransitive(rows[j].1.name, row.1.name, rows[0].1.name);
        if j == 0 {
          LexIrreflexive(rows[0].1.name);
        }
      }
    }
  }

  lemma NotBelowPermutation(rows: seq<HospitalRow>, row: HospitalRow, r: seq<HospitalRow>, name: string)
    requires NotBelow(rows, name) && !LexLess(row.1.name, name)
    requires multiset(r) == multiset(rows) + multiset{row}
    ensures NotBelow(r, name)
  {
    forall j | 0 <= j < |r|
      ensures !LexLess(r[j].1.name, name)
    {
      assert r[j] in multiset(r);
      if r[j] != row {
        assert r[j] in multiset(rows);
        var k :| 0 <= k < |rows| && rows[k] == r[j];
      }
    }
  }

  /** Inserts `row` after every row whose name does not sort after it. */
  function InsertByName(rows: seq<HospitalRow>, row: HospitalRow): (r: seq<HospitalRow>)
    requires NameSorted(rows)
    ensures multiset(r) == multiset(rows) + multiset{row}
    ensures NameSorted(r)
  {
    if |rows| == 0 then [row]
    else if LexLess(row.1.name, rows[0].1.name) then
      BelowHeadIsBelowAll(row, rows);
      PrependSorted(row, rows);
      [row] + rows
    else
      assert rows == [rows[0]] + rows[1..];
      var rest := InsertByName(rows[1..], row);
      NotBelowPermutation(rows[1..], row, rest, rows[0].1.name);
      PrependSorted(rows[0], rest);
      [rows[0]] + rest
  }

  /** The hospital choices of the staff form, from the hospitals table:
      no choices unless a usable city was posted; otherwise that city's
      rows, each as often as in the table, ordered by name. Rows are
      inserted one at a time into an ordered list. */
  method HospitalChoices(dataCity: Option<string>, table: seq<HospitalRow>) returns (rows: seq<HospitalRow>)
    ensures NameSorted(rows)
    ensures ChosenCity(dataCity).None? ==> rows == []
    ensures ChosenCity(dataCity).Some? ==> multiset(rows) == multiset(InCity(table, ChosenCity(dataCity).value))
    ensures forall x :: x in rows <==> x in table && ChosenCity(dataCity).Some?
                                       && x.1.cityId == ChosenCity(dataCity).value
  {
    var city := ChosenCity(dataCity);
    if city.None? {
      return [];
    }
    rows := [];
    var i := 0;
    while i < |table|
      invariant 0 <= i <= |table|
      invariant NameSorted(rows)
      invariant multiset(rows) == multiset(InCity(table[..i], city.value))
    {
      assert table[..i + 1][..i] == table[..i];
      if table[i].1.cityId == city.value {
        rows := InsertByName(rows, table[i]);
      }
      i := i + 1;
    }
    assert table[..i] == table;
    ChoicesAreTheCity(rows, table, city.value);
  }

  lemma ChoicesAreTheCity(rows: seq<HospitalRow>, table: seq<HospitalRow>, city: int)
    requires multiset(rows) == multiset(InCity(table, city))
    ensures forall x :: x in rows <==> x in table && x.1.cityId == city
  {
    forall x
      ensures x in rows <==> x in table && x.1.cityId == city
    {
      assert x in rows <==> x in multiset(rows);
      var c := InCity(table, city);
      assert x in c <==> x in multiset(c);
      if x in table && x.1.cityId == city {
        var k :| 0 <= k < |table| && table[k] == x;
      }
      if x in c {
        var k :| 0 <= k < |c| && c[k] == x;
      }
    }
  }

  /** Hospital names are unique within a city, so choices without a
      repeated name are in strictly increasing name order. */
  lemma ChoicesStrictlyOrdered(rows: seq<HospitalRow>)
    requires NameSorted(rows)
    requires forall i, j :: 0 <= i < j < |rows| ==> rows[i].1.name != rows[j].1.name
    ensures forall i, j :: 0 <= i < j < |rows| ==> LexLess(rows[i].1.name, rows[j].1.name)
  {
    forall i, j | 0 <= i < j < |rows|
      ensures LexLess(rows[i].1.name, rows[j].1.name)
    {
      LexTotal(rows[i].1.name, rows[j].1.name);
    }
  }

  /** A table read from the hospitals of the database: every row is a
      hospital under its own key, and no key is listed twice. */
  ghost predicate DrawnFrom(table: seq<HospitalRow>, hospitals: map<int, Hospital>) {
    && (forall k :: 0 <= k < |table| ==> table[k].0 in hospitals && hospitals[table[k].0] == table[k].1)
    && (forall i, j :: 0 <= i < j < |table| ==> table[i].0 != table[j].0)
  }

  /** The choices of one city, read from a database whose hospitals keep
      `unique_together = [("name", "city")]`, repeat no name, so they are
      in strictly increasing name order. */
  lemma {:induction false} ValidChoicesStrictlyOrdered(rows: seq<HospitalRow>, table: seq<HospitalRow>,
                                                       hospitals: map<int, Hospital>, city: int)
    requires HospitalsValid(hospitals) && DrawnFrom(table, hospitals)
    requires NameSorted(rows) && multiset(rows) == multiset(InCity(table, city))
    ensures forall i, j :: 0 <= i < j < |rows| ==> rows[i].1.name != rows[j].1.name
    ensures forall i, j :: 0 <= i < j < |rows| ==> LexLess(rows[i].1.name, rows[j].1.name)
  {
    var c := InCity(table, city);
    InCityCounts(table, city);
    KeysCountedOnce(table);
    forall i, j | 0 <= i < j < |rows|
      ensures rows[i].1.name != rows[j].1.name
    {
      if rows[i].1.name == rows[j].1.name {
        var x, y := rows[i], rows[j];
        assert x in multiset(c) && y in multiset(c);
        var p :| 0 <= p < |c| && c[p] == x;
        var q :| 0 <= q < |c| && c[q] == y;
        var k :| 0 <= k < |table| && table[k] == x;
        var l :| 0 <= l < |table| && table[l] == y;
        assert x.0 == y.0;
        RepeatCounted(rows, i, j);
        assert false;
      }
    }
    ChoicesStrictlyOrdered(rows);
  }

  lemma {:induction false} InCityCounts(table: seq<HospitalRow>, city: int)
    ensures multiset(InCity(table, city)) <= multiset(table)
  {
    if |table| > 0 {
      var prefix := table[..|table| - 1];
      assert table == prefix + [table[|table| - 1]];
      InCityCounts(prefix, city);
    }
  }

  lemma {:induction false} KeysCountedOnce(table: seq<HospitalRow>)
    requires forall i, j :: 0 <= i < j < |table| ==> table[i].0 != table[j].0
    ensures forall x :: multiset(table)[x] <= 1
  {
    if |table| > 0 {
      var prefix, last := table[..|table| - 1], table[|table| - 1];
      assert table == prefix + [last];
      KeysCountedOnce(prefix);
    }
  }

  lemma RepeatCounted<T>(s: seq<T>, i: int, j: int)
    requires 0 <= i < j < |s| && s[i] == s[j]
    ensures multiset(s)[s[i]] >= 2
  {
    assert s == s[..j] + [s[j]] + s[j + 1..];
    assert s[..j][i] == s[i];
    assert s[i] in multiset(s[..j]);
  }

  // ---------------------------------------------------------------------
  // LoginForm
  // ---------------------------------------------------------------------

  predicate Present(field: Option<string>) {
    field.Some? && field.value != []
  }

  /** `LoginForm.clean` followed by `get_user`: authentication runs only
      when both fields are present; a failure is a form error, a success
      is the user `get_user` returns. */
  function LoginClean(users: seq<User>, email: Option<string>, password: Option<string>, b: Bcrypt)
    : (r: Result<Option<User>, FormError>)
    ensures r == Ok(None) <==> !(Present(email) && Present(password))
    ensures r.Err? <==> Present(email) && Present(password)
                        && Authenticate(users, email, password.value, b).None?
    ensures r.Err? ==> r.error == InvalidCredentials
    ensures r.Ok? && r.value.Some? ==> Present(email) && Present(password)
                                       && Authenticate(users, email, password.value, b) == r.value
  {
    if Present(email) && Present(password) then
      match Authenticate(users, email, password.value, b)
      case None => Err(InvalidCredentials)
      case Some(u) => Ok(Some(u))
    else Ok(None)
  }

  // ---------------------------------------------------------------------
  // save()
  // ---------------------------------------------------------------------

  /** The cleaned data both registration forms share. */
  datatype AccountData = AccountData(firstName: string, lastName: string, email: string,
                                     phone: Option<string>, password1: string)

  /** Appending a user keeps every profile's user link intact. */
  lemma ExtendUsersValid(db: Db, users': seq<User>)
    requires |users'| >= |db.users| && users'[..|db.users|] == db.users
    requires UsersValid(db.users) ==> UsersValid(users')
    ensures Valid(db) ==> Valid(db.(users := users'))
  {
    forall x | IsUserId(db.users, x)
      ensures IsUserId(users', x)
    {
      var i :| 0 <= i < |db.users| && db.users[i].id == x;
      assert users'[i] == db.users[i];
    }
  }

  /** What `create_user` needs to accept the shared fields. */
  predicate AccountAccepted(db: Db, a: AccountData) {
    UserAccepted(db.users, a.firstName, a.lastName, a.email, a.password1, Some(a.phone.GetOr("")))
  }

  /** `create_user` on the shared fields with the form's role; the phone
      defaults to empty. */
  function CreateAccount(db: Db, newUserId: int, a: AccountData, role: Role, b: Bcrypt): (r: Result<Db, ManagerError>)
    requires !IsUserId(db.users, newUserId)
    ensures r.Ok? <==> AccountAccepted(db, a)
    ensures r.Ok? ==> r.value == db.(users := r.value.users) && |r.value.users| == |db.users| + 1
    ensures r.Ok? ==> r.value.users[..|db.users|] == db.users
    ensures r.Ok? ==> r.value.users[|db.users|].id == newUserId && r.value.users[|db.users|].role == role
    ensures r.Ok? ==> IsUserId(r.value.users, newUserId)
    ensures r.Ok? && Valid(db) ==> Valid(r.value)
  {
    var created := CreateUser(db.users, newUserId, a.firstName, a.lastName, a.email, a.password1,
                              Some(a.phone.GetOr("")), role, b);
    if created.Err? then Err(created.error)
    else
      var users' := created.value;
      assert users'[|db.users|].id == newUserId;
      ExtendUsersValid(db, users');
      Ok(db.(users := users'))
  }

  /** Whoever registers through either form with a plain password and
      details `create_user` accepts can then sign in through the login
      form with the e-mail and password they registered with. */
  lemma {:induction false} RegisteredUserLogsIn(db: Db, newUserId: int, a: AccountData, role: Role, b: Bcrypt)
    requires !IsUserId(db.users, newUserId) && Valid(db)
    requires Consistent(b) && !HasBcryptPrefix(a.password1)
    requires AccountAccepted(db, a)
    ensures CreateAccount(db, newUserId, a, role, b).Ok?
    ensures var users' := CreateAccount(db, newUserId, a, role, b).value.users;
            LoginClean(users', Some(a.email), Some(a.password1), b) == Ok(Some(users'[|db.users|]))
  {
    var phone := Some(a.phone.GetOr(""));
    var created := CreateUser(db.users, newUserId, a.firstName, a.lastName, a.email, a.password1, phone, role, b);
    assert created.Ok?;
    var users' := created.value;
    assert CreateAccount(db, newUserId, a, role, b).value.users == users';
    CreatedUserAuthenticates(db.users, newUserId, a.firstName, a.lastName, a.email, a.password1, phone, role, b);
    assert Present(Some(a.email)) by {
      assert UserColumnsOk(users'[|db.users|]);
    }
    assert Present(Some(a.password1)) by {
      assert PasswordCheck(a.password1).Pass?;
    }
  }

  /** Why a registration form's `save` stopped: a manager call refused its
      row, or `save(update_fields=...)` named a column the model lacks
      (Django raises `ValueError` for it). */
  datatype SaveError = ManagerFailed(cause: ManagerError) | UnknownUpdateField(field: string)

  /** What a registration form's `save` leaves in the database, and why it
      stopped early, if it did. Nothing is wrapped in a transaction, so
      rows saved before the failing step stay. */
  datatype Saved = Saved(db: Db, error: Option<SaveError>)

  /** What both manager calls of the donor form need: an accepted account,
      an existing city, valid blood-type codes and no donor profile yet. */
  predicate DonorProfileAccepted(db: Db, newUserId: int, a: AccountData, abo: string, rh: string, cityId: int) {
    && AccountAccepted(db, a)
    && cityId in db.cities && ParseBloodType(abo).Some? && ParseRh(rh).Some?
    && !HasDonorProfile(db, newUserId)
  }

  /** `DonorRegistrationForm.save`: a user with role "donor" and that
      user's donor profile. With a posted picture (`picture`) the form then
      saves `update_fields=["profile_picture"]`, a column the Donor model
      does not declare, so the save fails after both rows are stored. */
  function SaveDonor(db: Db, newUserId: int, newDonorId: int, a: AccountData,
                     abo: string, rh: string, cityId: int, eligibilityConsent: bool, picture: bool, b: Bcrypt)
    : (r: Saved)
    requires !IsUserId(db.users, newUserId) && newDonorId !in db.donors
    ensures r.error.None? <==> !picture && DonorProfileAccepted(db, newUserId, a, abo, rh, cityId)
    ensures r.error == Some(UnknownUpdateField("profile_picture")) <==>
              picture && DonorProfileAccepted(db, newUserId, a, abo, rh, cityId)
    ensures !AccountAccepted(db, a) ==> r.db == db
    ensures AccountAccepted(db, a) ==> && |r.db.users| == |db.users| + 1 && r.db.users[..|db.users|] == db.users
                                       && r.db.users[|db.users|].id == newUserId
                                       && r.db.users[|db.users|].role == DonorRole
    ensures r.db == db.(users := r.db.users, donors := r.db.donors)
    ensures r.error.Some? && r.error.value.ManagerFailed? ==> r.db.donors == db.donors
    ensures DonorProfileAccepted(db, newUserId, a, abo, rh, cityId) ==>
              && newDonorId in r.db.donors && r.db.donors[newDonorId].userId == newUserId
              && r.db.donors[newDonorId].eligibilityConsent == eligibilityConsent
    ensures Valid(db) ==> Valid(r.db)
  {
    var account := CreateAccount(db, newUserId, a, DonorRole, b);
    if account.Err? then Saved(db, Some(ManagerFailed(account.error)))
    else
      assert account.value.donors == db.donors && account.value.cities == db.cities;
      assert HasDonorProfile(account.value, newUserId) == HasDonorProfile(db, newUserId);
      var donor := CreateDonor(account.value, newDonorId, newUserId, abo, rh, cityId, None, eligibilityConsent, None);
      if donor.Err? then Saved(account.value, Some(ManagerFailed(donor.error)))
      else if picture then Saved(donor.value, Some(UnknownUpdateField("profile_picture")))
      else Saved(donor.value, None)
  }

  /** `StaffRegistrationForm.save`: a user with role "staff" and an
      unverified staff profile at the chosen hospital. */
  function SaveStaff(db: Db, newUserId: int, newStaffId: int, a: AccountData, hospitalId: int, b: Bcrypt)
    : (r: Saved)
    requires !IsUserId(db.users, newUserId) && newStaffId !in db.staff
    ensures r.error.None? <==> AccountAccepted(db, a) && hospitalId in db.hospitals && !HasStaffProfile(db, newUserId)
    ensures !AccountAccepted(db, a) ==> r.db == db
    ensures AccountAccepted(db, a) ==> && |r.db.users| == |db.users| + 1 && r.db.users[..|db.users|] == db.users
                                       && r.db.users[|db.users|].id == newUserId
                                       && r.db.users[|db.users|].role == StaffRole
    ensures r.db == db.(users := r.db.users, staff := r.db.staff)
    ensures r.error.Some? ==> r.error.value.ManagerFailed? && r.db.staff == db.staff
    ensures r.error.None? ==> newStaffId in r.db.staff
                              && r.db.staff[newStaffId] == Staff(newUserId, hospitalId, "staff", false)
    ensures Valid(db) ==> Valid(r.db)
  {
    var account := CreateAccount(db, newUserId, a, StaffRole, b);
    if account.Err? then Saved(db, Some(ManagerFailed(account.error)))
    else
      assert account.value.staff == db.staff && account.value.hospitals == db.hospitals;
      assert HasStaffProfile(account.value, newUserId) == HasStaffProfile(db, newUserId);
      var staff := CreateStaff(account.value, newStaffId, newUserId, hospitalId, "staff", false);
      if staff.Err? then Saved(account.value, Some(ManagerFailed(staff.error)))
      else Saved(staff.value, None)
  }
}

=== FILE: leaderboard.dfy ===
/** The top-donor chart of give_pulse_app/static/js/charts.js: table rows
    are grouped by donor name with their counts summed, sorted by count
    from high to low, and the first ten become the chart's labels and
    values.

    A table row is the text of its name cell and the number `parseInt`
    read from its count cell; `ReadRows` reads them only when every row has
    at least three cells, `Cells` trims the names, and everything after
    works on the trimmed rows. */
module Leaderboard {
  import opened Wrappers
  import opened Text

  datatype Row = Row(nameCell: string, count: int)

  /** One donor of the chart. */
  datatype Entry = Entry(name: string, count: int)

  // ---------------------------------------------------------------------
  // The table side: sums over the trimmed rows
  // ---------------------------------------------------------------------

  /** The table as the script reads it: each row's name cell trimmed of
      whitespace. */
  function Cells(table: seq<Row>): (r: seq<Entry>)
    ensures |r| == |table|
    ensures forall i :: 0 <= i < |table| ==> r[i] == Entry(JsTrim(table[i].nameCell), table[i].count)
  {
    seq(|table|, i requires 0 <= i < |table| => Entry(JsTrim(table[i].nameCell), table[i].count))
  }

  /** A `tr` of the table body: how many `td` cells it has, and the row
      read from cells 1 and 2 when it has at least three. */
  datatype TableRow = TableRow(cellCount: nat, row: Row)

  function RowsOf(trs: seq<TableRow>): seq<Row> {
    seq(|trs|, i requires 0 <= i < |trs| => trs[i].row)
  }

  /** The `forEach` over the table rows. `cells[1].textContent` and
      `cells[2].textContent` are read without a guard, so a row with fewer
      than three cells throws a TypeError and ends the handler: `None`.
      Otherwise every row is read. */
  function ReadRows(trs: seq<TableRow>): (r: Option<seq<Row>>)
    ensures r.None? <==> exists i :: 0 <= i < |trs| && trs[i].cellCount < 3
    ensures r.Some? ==> r.value == RowsOf(trs)
    decreases |trs|
  {
    if |trs| == 0 then Some([])
    else if trs[0].cellCount < 3 then None
    else match ReadRows(trs[1..])
      case None =>
        var i :| 0 <= i < |trs[1..]| && trs[1..][i].cellCount < 3;
        assert trs[i + 1].cellCount < 3;
        None
      case Some(rest) =>
        assert [trs[0].row] + rest == RowsOf(trs) by {
          assert forall i :: 0 <= i < |trs| - 1 ==> RowsOf(trs[1..])[i] == RowsOf(trs)[i + 1];
        }
        Some([trs[0].row] + rest)
  }

  /** What the page draws: the chart of the table, or nothing when a short
      row made the handler throw before `new Chart`. */
  function PageChart(trs: seq<TableRow>): (r: Option<(seq<string>, seq<int>)>)
    ensures r.None? <==> exists i :: 0 <= i < |trs| && trs[i].cellCount < 3
    ensures r.Some? ==> r.value == Chart(Cells(RowsOf(trs)))
  {
    match ReadRows(trs)
    case None => None
    case Some(rows) => Some(Chart(Cells(rows)))
  }

  /** The sum of the counts of the rows whose trimmed name is `name`. */
  function SumFor(rows: seq<Entry>, name: string): int
    decreases |rows|
  {
    if |rows| == 0 then 0
    else SumFor(rows[..|rows| - 1], name) + (if rows[|rows| - 1].name == name then rows[|rows| - 1].count else 0)
  }

  function RowTotal(rows: seq<Entry>): int
    decreases |rows|
  {
    if |rows| == 0 then 0 else RowTotal(rows[..|rows| - 1]) + rows[|rows| - 1].count
  }

  predicate NamedIn(rows: seq<Entry>, name: string) {
    exists j :: 0 <= j < |rows| && rows[j].name == name
  }

  /** The index of the first row named `name`, or the row count when none
      is. */
  function FirstRow(rows: seq<Entry>, name: string): (r: nat)
    ensures r <= |rows|
    ensures r < |rows| ==> rows[r].name == name
    ensures forall k :: 0 <= k < r ==> rows[k].name != name
    ensures r < |rows| <==> NamedIn(rows, name)
    decreases |rows|
  {
    if |rows| == 0 then 0
    else if rows[0].name == name then 0
    else
      var r := 1 + FirstRow(rows[1..], name);
      assert forall k :: 1 <= k < |rows| ==> rows[k] == rows[1..][k - 1];
      r
  }

  /** Appending a row leaves the first row of every name already present,
      and a new name first appears in the appended row. */
  lemma FirstRowAppend(init: seq<Entry>, last: Entry, n: string)
    ensures NamedIn(init, n) ==> FirstRow(init + [last], n) == FirstRow(init, n) < |init|
    ensures !NamedIn(init, n) && last.name == n ==> FirstRow(init + [last], n) == |init|
  {
    var rows := init + [last];
    var f := FirstRow(init, n);
    var g := FirstRow(rows, n);
    assert forall k :: 0 <= k < |init| ==> rows[k] == init[k];
    if NamedIn(init, n) {
      assert rows[f].name == n;
      assert g <= f;
    } else if last.name == n {
      assert rows[|init|].name == n;
      assert g >= |init|;
    }
  }

  lemma {:induction false} SumForAbsent(rows: seq<Entry>, name: string)
    requires !NamedIn(rows, name)
    ensures SumFor(rows, name) == 0
    decreases |rows|
  {
    if |rows| > 0 {
      var init := rows[..|rows| - 1];
      assert !NamedIn(init, name) by {
        forall j | 0 <= j < |init|
          ensures init[j].name != name
        {
          assert init[j] == rows[j];
        }
      }
      SumForAbsent(init, name);
    }
  }

  // ---------------------------------------------------------------------
  // The donor list
  // ---------------------------------------------------------------------

  predicate HasName(ds: seq<Entry>, name: string) {
    exists i :: 0 <= i < |ds| && ds[i].name == name
  }

  predicate DistinctNames(ds: seq<Entry>) {
    forall i, j :: 0 <= i < j < |ds| ==> ds[i].name != ds[j].name
  }

  function Total(ds: seq<Entry>): int
    decreases |ds|
  {
    if |ds| == 0 then 0 else Total(ds[..|ds| - 1]) + ds[|ds| - 1].count
  }

  lemma {:induction false} TotalUpdate(ds: seq<Entry>, i: nat, e: Entry)
    requires i < |ds|
    ensures Total(ds[i := e]) == Total(ds) - ds[i].count + e.count
    decreases |ds|
  {
    var u := ds[i := e];
    if i < |ds| - 1 {
      assert u[..|u| - 1] == ds[..|ds| - 1][i := e];
      TotalUpdate(ds[..|ds| - 1], i, e);
    } else {
      assert u[..|u| - 1] == ds[..|ds| - 1];
    }
  }

  /** `donors.find(d => d.name === name)`: the first donor of that name. */
  function Find(ds: seq<Entry>, name: string): (r: Option<nat>)
    ensures r.Some? ==> r.value < |ds| && ds[r.value].name == name
    ensures r.Some? ==> forall k :: 0 <= k < r.value ==> ds[k].name != name
    ensures r.None? <==> !HasName(ds, name)
    decreases |ds|
  {
    if |ds| == 0 then None
    else if ds[0].name == name then Some(0)
    else match Find(ds[1..], name)
      case None =>
        assert !HasName(ds, name) by {
          forall i | 0 <= i < |ds|
            ensures ds[i].name != name
          {
            if i > 0 {
              assert ds[1..][i - 1] == ds[i];
            }
          }
        }
        None
      case Some(k) => Some(k + 1)
  }

  /** One step of the `forEach`: the donor found under that name gets the
      count added, or a new donor is appended. */
  function AddRow(ds: seq<Entry>, name: string, count: int): (r: seq<Entry>)
    requires DistinctNames(ds)
    ensures DistinctNames(r)
    ensures HasName(ds, name) ==> |r| == |ds|
    ensures !HasName(ds, name) ==> r == ds + [Entry(name, count)]
    ensures forall j :: 0 <= j < |ds| ==>
              r[j] == if ds[j].name == name then ds[j].(count := ds[j].count + count) else ds[j]
    ensures Total(r) == Total(ds) + count
  {
    match Find(ds, name)
    case Some(i) =>
      var r := ds[i := ds[i].(count := ds[i].count + count)];
      TotalUpdate(ds, i, ds[i].(count := ds[i].count + count));
      r
    case None =>
      var r := ds + [Entry(name, count)];
      assert r[..|r| - 1] == ds;
      r
  }

  /** The grouping loop over all rows: one donor per distinct trimmed
      name, carrying the sum of that name's rows, in order of first
      appearance. */
  function Aggregate(rows: seq<Entry>): (r: seq<Entry>)
    ensures DistinctNames(r)
    ensures forall i :: 0 <= i < |r| ==> r[i].count == SumFor(rows, r[i].name)
    ensures forall n :: HasName(r, n) <==> NamedIn(rows, n)
    ensures forall i, j :: 0 <= i < j < |r| ==> FirstRow(rows, r[i].name) < FirstRow(rows, r[j].name)
    ensures Total(r) == RowTotal(rows)
    decreases |rows|
  {
    if |rows| == 0 then []
    else
      var last := rows[|rows| - 1];
      var prev := Aggregate(rows[..|rows| - 1]);
      var r := AddRow(prev, last.name, last.count);
      AggregateCounts(rows, prev, r);
      AggregateNames(rows, prev, r);
      AggregateStepFirstRows(rows, prev, r);
      AggregateOrder(rows, prev, r);
      r
  }

  /** What one more row does to the donors' first rows: old donors keep
      their names and first rows, which lie before the new row, and a new
      donor, if any, is last and first appears in the new row. */
  lemma AggregateStepFirstRows(rows: seq<Entry>, prev: seq<Entry>, r: seq<Entry>)
    requires |rows| > 0 && DistinctNames(prev)
    requires forall n :: HasName(prev, n) <==> NamedIn(rows[..|rows| - 1], n)
    requires r == AddRow(prev, rows[|rows| - 1].name, rows[|rows| - 1].count)
    ensures |prev| <= |r| <= |prev| + 1
    ensures forall i :: 0 <= i < |prev| ==>
              r[i].name == prev[i].name
              && FirstRow(rows, r[i].name) == FirstRow(rows[..|rows| - 1], prev[i].name) < |rows| - 1
    ensures |r| == |prev| + 1 ==> FirstRow(rows, r[|prev|].name) == |rows| - 1
  {
    forall i | 0 <= i < |prev|
      ensures r[i].name == prev[i].name
      ensures FirstRow(rows, r[i].name) == FirstRow(rows[..|rows| - 1], prev[i].name) < |rows| - 1
    {
      AggregateKeepsFirstRow(rows, prev, r, i);
    }
    AggregateNewFirstRow(rows, prev, r);
  }

  /** The donors after one more row are still in order of first
      appearance. */
  lemma AggregateOrder(rows: seq<Entry>, prev: seq<Entry>, r: seq<Entry>)
    requires |rows| > 0 && |prev| <= |r| <= |prev| + 1
    requires forall i, j :: 0 <= i < j < |prev| ==>
               FirstRow(rows[..|rows| - 1], prev[i].name) < FirstRow(rows[..|rows| - 1], prev[j].name)
    requires forall i :: 0 <= i < |prev| ==>
               r[i].name == prev[i].name
               && FirstRow(rows, r[i].name) == FirstRow(rows[..|rows| - 1], prev[i].name) < |rows| - 1
    requires |r| == |prev| + 1 ==> FirstRow(rows, r[|prev|].name) == |rows| - 1
    ensures forall i, j :: 0 <= i < j < |r| ==> FirstRow(rows, r[i].name) < FirstRow(rows, r[j].name)
  {
    var init := rows[..|rows| - 1];
    forall i, j | 0 <= i < j < |r|
      ensures FirstRow(rows, r[i].name) < FirstRow(rows, r[j].name)
    {
      assert FirstRow(rows, r[i].name) == FirstRow(init, prev[i].name);
      if j < |prev| {
        assert FirstRow(rows, r[j].name) == FirstRow(init, prev[j].name);
      } else {
        assert j == |prev|;
      }
    }
  }

  /** An old donor keeps its name and its first row. */
  lemma AggregateKeepsFirstRow(rows: seq<Entry>, prev: seq<Entry>, r: seq<Entry>, i: nat)
    requires |rows| > 0 && DistinctNames(prev) && i < |prev|
    requires forall n :: HasName(prev, n) <==> NamedIn(rows[..|rows| - 1], n)
    requires r == AddRow(prev, rows[|rows| - 1].name, rows[|rows| - 1].count)
    ensures i < |r| && r[i].name == prev[i].name
    ensures FirstRow(rows, r[i].name) == FirstRow(rows[..|rows| - 1], prev[i].name) < |rows| - 1
  {
    assert HasName(prev, prev[i].name);
    SplitLast(rows);
    FirstRowAppend(rows[..|rows| - 1], rows[|rows| - 1], prev[i].name);
  }

  /** A new donor is the last one, and first appears in the last row. */
  lemma AggregateNewFirstRow(rows: seq<Entry>, prev: seq<Entry>, r: seq<Entry>)
    requires |rows| > 0 && DistinctNames(prev)
    requires forall n :: HasName(prev, n) <==> NamedIn(rows[..|rows| - 1], n)
    requires r == AddRow(prev, rows[|rows| - 1].name, rows[|rows| - 1].count)
    ensures |r| <= |prev| + 1
    ensures |r| == |prev| + 1 ==> FirstRow(rows, r[|prev|].name) == |rows| - 1
  {
    var last := rows[|rows| - 1];
    if !HasName(prev, last.name) {
      SplitLast(rows);
      FirstRowAppend(rows[..|rows| - 1], last, last.name);
    }
  }

  /** The counts after one more row: each donor's sum gains the row's
      count when the names match, and a new donor starts at it. */
  lemma AggregateCounts(rows: seq<Entry>, prev: seq<Entry>, r: seq<Entry>)
    requires |rows| > 0 && DistinctNames(prev)
    requires forall i :: 0 <= i < |prev| ==> prev[i].count == SumFor(rows[..|rows| - 1], prev[i].name)
    requires forall n :: HasName(prev, n) <==> NamedIn(rows[..|rows| - 1], n)
    requires r == AddRow(prev, rows[|rows| - 1].name, rows[|rows| - 1].count)
    ensures forall i :: 0 <= i < |r| ==> r[i].count == SumFor(rows, r[i].name)
  {
    forall i | 0 <= i < |r|
      ensures r[i].count == SumFor(rows, r[i].name)
    {
      if i < |prev| {
        AggregateCount(rows, prev, r, i);
      } else {
        AggregateNewCount(rows, prev, r);
      }
    }
  }

  lemma AggregateCount(rows: seq<Entry>, prev: seq<Entry>, r: seq<Entry>, i: nat)
    requires |rows| > 0 && DistinctNames(prev) && i < |prev|
    requires prev[i].count == SumFor(rows[..|rows| - 1], prev[i].name)
    requires r == AddRow(prev, rows[|rows| - 1].name, rows[|rows| - 1].count)
    ensures r[i].count == SumFor(rows, r[i].name)
  {
  }

  lemma AggregateNewCount(rows: seq<Entry>, prev: seq<Entry>, r: seq<Entry>)
    requires |rows| > 0 && DistinctNames(prev)
    requires forall n :: HasName(prev, n) <==> NamedIn(rows[..|rows| - 1], n)
    requires r == AddRow(prev, rows[|rows| - 1].name, rows[|rows| - 1].count)
    ensures |r| > |prev| ==> r[|prev|].count == SumFor(rows, r[|prev|].name)
  {
    var name := rows[|rows| - 1].name;
    if !HasName(prev, name) {
      SumForAbsent(rows[..|rows| - 1], name);
    }
  }

  lemma AggregateNames(rows: seq<Entry>, prev: seq<Entry>, r: seq<Entry>)
    requires |rows| > 0 && DistinctNames(prev)
    requires forall n :: HasName(prev, n) <==> NamedIn(rows[..|rows| - 1], n)
    requires r == AddRow(prev, rows[|rows| - 1].name, rows[|rows| - 1].count)
    ensures forall n :: HasName(r, n) <==> NamedIn(rows, n)
  {
    forall n
      ensures HasName(r, n) <==> NamedIn(rows, n)
    {
      if HasName(r, n) {
        AggregateNameKept(rows, prev, r, n);
      }
      if NamedIn(rows, n) {
        AggregateNameFound(rows, prev, r, n);
      }
    }
  }

  /** A donor after the step is named in the rows up to it. */
  lemma AggregateNameKept(rows: seq<Entry>, prev: seq<Entry>, r: seq<Entry>, n: string)
    requires |rows| > 0 && DistinctNames(prev)
    requires HasName(prev, n) ==> NamedIn(rows[..|rows| - 1], n)
    requires r == AddRow(prev, rows[|rows| - 1].name, rows[|rows| - 1].count)
    requires HasName(r, n)
    ensures NamedIn(rows, n)
  {
    var init := rows[..|rows| - 1];
    var k :| 0 <= k < |r| && r[k].name == n;
    if k < |prev| {
      assert prev[k].name == n;
      var j :| 0 <= j < |init| && init[j].name == n;
      assert rows[j] == init[j];
    } else {
      assert rows[|rows| - 1].name == n;
    }
  }

  /** A name of the rows up to the step is a donor after it. */
  lemma AggregateNameFound(rows: seq<Entry>, prev: seq<Entry>, r: seq<Entry>, n: string)
    requires |rows| > 0 && DistinctNames(prev)
    requires NamedIn(rows[..|rows| - 1], n) ==> HasName(prev, n)
    requires r == AddRow(prev, rows[|rows| - 1].name, rows[|rows| - 1].count)
    requires NamedIn(rows, n)
    ensures HasName(r, n)
  {
    var init := rows[..|rows| - 1];
    var j :| 0 <= j < |rows| && rows[j].name == n;
    if j < |init| {
      assert init[j] == rows[j];
      var k :| 0 <= k < |prev| && prev[k].name == n;
      assert r[k].name == n;
    } else if HasName(prev, n) {
      var k :| 0 <= k < |prev| && prev[k].name == n;
      assert r[k].name == n;
    } else {
      assert r[|prev|].name == n;
    }
  }

  // ---------------------------------------------------------------------
  // Sorting: a stable sort by count, highest first
  // ---------------------------------------------------------------------

  predicate Descending(ds: seq<Entry>) {
    forall i, j :: 0 <= i < j < |ds| ==> ds[i].count >= ds[j].count
  }

  predicate AllAtMost(ds: seq<Entry>, c: int) {
    forall i :: 0 <= i < |ds| ==> ds[i].count <= c
  }

  lemma PrependDescending(x: Entry, ds: seq<Entry>)
    requires Descending(ds) && AllAtMost(ds, x.count)
    ensures Descending([x] + ds)
  {
    var r := [x] + ds;
    forall i, j | 0 <= i < j < |r|
      ensures r[i].count >= r[j].count
    {
      assert r[j] == ds[j - 1];
      if i > 0 {
        assert r[i] == ds[i - 1];
      }
    }
  }

  /** Places `d` after every entry whose count is at least its own. */
  function Insert(ds: seq<Entry>, d: Entry): (r: seq<Entry>)
    requires Descending(ds)
    ensures multiset(r) == multiset(ds) + multiset{d}
    ensures forall c :: AllAtMost(ds, c) && d.count <= c ==> AllAtMost(r, c)
    ensures Descending(r)
    decreases |ds|
  {
    if |ds| == 0 then [d]
    else if ds[0].count < d.count then
      PrependDescending(d, ds);
      [d] + ds
    else
      var rest := Insert(ds[1..], d);
      InsertAfterHead(ds, d, rest);
      [ds[0]] + rest
  }

  /** The step of `Insert` that keeps the head in front of the inserted
      tail. */
  lemma InsertAfterHead(ds: seq<Entry>, d: Entry, rest: seq<Entry>)
    requires |ds| > 0 && Descending(ds) && ds[0].count >= d.count
    requires multiset(rest) == multiset(ds[1..]) + multiset{d}
    requires forall c :: AllAtMost(ds[1..], c) && d.count <= c ==> AllAtMost(rest, c)
    requires Descending(rest)
    ensures multiset([ds[0]] + rest) == multiset(ds) + multiset{d}
    ensures forall c :: AllAtMost(ds, c) && d.count <= c ==> AllAtMost([ds[0]] + rest, c)
    ensures Descending([ds[0]] + rest)
  {
    assert ds == [ds[0]] + ds[1..];
    assert AllAtMost(ds[1..], ds[0].count);
    PrependDescending(ds[0], rest);
    assert forall c :: AllAtMost(ds, c) ==> AllAtMost(ds[1..], c);
  }

  /** Insertion sort, which keeps equal counts in their original order as
      the language's stable `Array.prototype.sort` does. */
  function SortByCount(ds: seq<Entry>): (r: seq<Entry>)
    ensures multiset(r) == multiset(ds)
    ensures Descending(r)
    decreases |ds|
  {
    if |ds| == 0 then []
    else
      var init := ds[..|ds| - 1];
      assert ds == init + [ds[|ds| - 1]];
      Insert(SortByCount(init), ds[|ds| - 1])
  }

  /** The entries with count `c`, in order. */
  function WithCount(ds: seq<Entry>, c: int): seq<Entry>
    decreases |ds|
  {
    if |ds| == 0 then [] else (if ds[0].count == c then [ds[0]] else []) + WithCount(ds[1..], c)
  }

  lemma {:induction false} WithCountAppend(a: seq<Entry>, b: seq<Entry>, c: int)
    ensures WithCount(a + b, c) == WithCount(a, c) + WithCount(b, c)
    decreases |a|
  {
    if |a| > 0 {
      var head := if a[0].count == c then [a[0]] else [];
      assert (a + b)[0] == a[0] && (a + b)[1..] == a[1..] + b;
      assert WithCount(a + b, c) == head + WithCount(a[1..] + b, c);
      WithCountAppend(a[1..], b, c);
      assert WithCount(a, c) == head + WithCount(a[1..], c);
    } else {
      assert a + b == b;
    }
  }

  lemma SplitLast<T>(s: seq<T>)
    requires |s| > 0
    ensures s == s[..|s| - 1] + [s[|s| - 1]]
  {
  }

  lemma WithCountSingle(d: Entry, c: int)
    ensures WithCount([d], c) == if d.count == c then [d] else []
  {
    assert [d][1..] == [];
  }

  lemma {:induction false} WithCountNone(ds: seq<Entry>, c: int)
    requires forall i :: 0 <= i < |ds| ==> ds[i].count < c
    ensures WithCount(ds, c) == []
    decreases |ds|
  {
    if |ds| > 0 {
      WithCountNone(ds[1..], c);
    }
  }

  /** Inserting keeps the entries of each count in their order and puts
      the new one last among its equals. */
  lemma {:induction false} InsertStable(ds: seq<Entry>, d: Entry, c: int)
    requires Descending(ds)
    ensures WithCount(Insert(ds, d), c) == WithCount(ds, c) + (if d.count == c then [d] else [])
    decreases |ds|
  {
    if |ds| == 0 {
    } else if ds[0].count < d.count {
      var r := [d] + ds;
      assert r[1..] == ds;
      if d.count == c {
        WithCountNone(ds, c);
      }
    } else {
      InsertStable(ds[1..], d, c);
      var r := [ds[0]] + Insert(ds[1..], d);
      assert r[1..] == Insert(ds[1..], d);
    }
  }

  /** The sort is stable: for every count, the entries with that count
      appear in the same order as before. */
  lemma {:induction false} SortStable(ds: seq<Entry>, c: int)
    ensures WithCount(SortByCount(ds), c) == WithCount(ds, c)
    decreases |ds|
  {
    if |ds| > 0 {
      var init := ds[..|ds| - 1];
      var last := ds[|ds| - 1];
      var sorted := SortByCount(init);
      assert SortByCount(ds) == Insert(sorted, last);
      SortStable(init, c);
      InsertStable(sorted, last, c);
      SplitLast(ds);
      WithCountAppend(init, [last], c);
      WithCountSingle(last, c);
    }
  }

  /** How many entries with count `c` come before index `k`. */
  function Rank(ds: seq<Entry>, k: nat, c: int): nat
    requires k <= |ds|
  {
    |WithCount(ds[..k], c)|
  }

  /** An entry with count `c` sits in `WithCount(ds, c)` at its rank. */
  lemma RankIndex(ds: seq<Entry>, k: nat, c: int)
    requires k < |ds| && ds[k].count == c
    ensures Rank(ds, k, c) < |WithCount(ds, c)| && WithCount(ds, c)[Rank(ds, k, c)] == ds[k]
  {
    assert ds == ds[..k] + ds[k..];
    WithCountAppend(ds[..k], ds[k..], c);
    assert ds[k..][0] == ds[k];
  }

  /** Ranks grow along the list, strictly past an entry with count `c`. */
  lemma RankMonotone(ds: seq<Entry>, i: nat, j: nat, c: int)
    requires i <= j <= |ds|
    ensures Rank(ds, i, c) <= Rank(ds, j, c)
    ensures i < j && ds[i].count == c ==> Rank(ds, i, c) < Rank(ds, j, c)
  {
    assert ds[..j] == ds[..i] + ds[i..j];
    WithCountAppend(ds[..i], ds[i..j], c);
    if i < j {
      assert ds[i..j][0] == ds[i];
    }
  }

  /** Each entry of `WithCount(ds, c)` comes from an index of `ds` with
      that rank. */
  lemma {:induction false} WithCountOrigin(ds: seq<Entry>, c: int, p: nat) returns (k: nat)
    requires p < |WithCount(ds, c)|
    ensures k < |ds| && ds[k] == WithCount(ds, c)[p] && ds[k].count == c && Rank(ds, k, c) == p
    decreases |ds|
  {
    var head := if ds[0].count == c then [ds[0]] else [];
    assert WithCount(ds, c) == head + WithCount(ds[1..], c);
    assert ds[..0] == [];
    if p < |head| {
      k := 0;
    } else {
      var k' := WithCountOrigin(ds[1..], c, p - |head|);
      k := k' + 1;
      assert ds[..k] == [ds[0]] + ds[1..][..k'];
      WithCountAppend([ds[0]], ds[1..][..k'], c);
      WithCountSingle(ds[0], c);
    }
  }

  /** Sorting keeps donors with equal counts in their relative order. */
  lemma SortedTieOrder(ds: seq<Entry>, i: nat, j: nat) returns (a: nat, b: nat)
    requires i < j < |SortByCount(ds)| && SortByCount(ds)[i].count == SortByCount(ds)[j].count
    ensures a < b < |ds| && ds[a] == SortByCount(ds)[i] && ds[b] == SortByCount(ds)[j]
  {
    var sorted := SortByCount(ds);
    var c := sorted[i].count;
    SortStable(ds, c);
    RankIndex(sorted, i, c);
    RankIndex(sorted, j, c);
    RankMonotone(sorted, i, j, c);
    a := WithCountOrigin(ds, c, Rank(sorted, i, c));
    b := WithCountOrigin(ds, c, Rank(sorted, j, c));
    if b <= a {
      RankMonotone(ds, b, a, c);
    }
  }

  lemma MultisetMembers(a: seq<Entry>, b: seq<Entry>)
    requires multiset(a) == multiset(b)
    ensures forall x :: x in a <==> x in b
  {
    forall x
      ensures x in a <==> x in b
    {
      assert x in a <==> x in multiset(a);
      assert x in b <==> x in multiset(b);
    }
  }

  /** Inserting an entry with a new name keeps names distinct. */
  lemma {:induction false} InsertDistinct(ds: seq<Entry>, d: Entry)
    requires Descending(ds) && DistinctNames(ds) && !HasName(ds, d.name)
    ensures DistinctNames(Insert(ds, d))
    decreases |ds|
  {
    if |ds| > 0 && ds[0].count >= d.count {
      var tail := ds[1..];
      assert !HasName(tail, d.name) by {
        forall i | 0 <= i < |tail|
          ensures tail[i].name != d.name
        {
          assert tail[i] == ds[i + 1];
        }
      }
      InsertDistinct(tail, d);
      var rest := Insert(tail, d);
      HeadNameNotInserted(ds, d, rest);
      PrependDistinct(ds[0], rest);
    } else if |ds| > 0 {
      PrependDistinct(d, ds);
    }
  }

  /** The head of the list is absent from its tail with `d` inserted. */
  lemma HeadNameNotInserted(ds: seq<Entry>, d: Entry, rest: seq<Entry>)
    requires |ds| > 0 && DistinctNames(ds) && !HasName(ds, d.name)
    requires multiset(rest) == multiset(ds[1..]) + multiset{d}
    ensures !HasName(rest, ds[0].name)
  {
    var tail := ds[1..];
    forall j | 0 <= j < |rest|
      ensures rest[j].name != ds[0].name
    {
      assert rest[j] in multiset(rest);
      if rest[j] != d {
        assert rest[j] in multiset(tail);
        var k :| 0 <= k < |tail| && tail[k] == rest[j];
        assert ds[k + 1] == rest[j];
      }
    }
  }

  lemma PrependDistinct(x: Entry, ds: seq<Entry>)
    requires DistinctNames(ds) && !HasName(ds, x.name)
    ensures DistinctNames([x] + ds)
  {
    var r := [x] + ds;
    assert forall i, j :: 0 < i < j < |r| ==> r[i] == ds[i - 1] && r[j] == ds[j - 1];
  }

  /** Sorting a list of distinct names keeps them distinct. */
  lemma {:induction false} SortDistinct(ds: seq<Entry>)
    requires DistinctNames(ds)
    ensures DistinctNames(SortByCount(ds))
    decreases |ds|
  {
    if |ds| > 0 {
      var init := ds[..|ds| - 1];
      var last := ds[|ds| - 1];
      assert DistinctNames(init) by {
        assert forall i :: 0 <= i < |init| ==> init[i] == ds[i];
      }
      SortDistinct(init);
      var sorted := SortByCount(init);
      MultisetMembers(sorted, init);
      assert !HasName(sorted, last.name) by {
        forall i | 0 <= i < |sorted|
          ensures sorted[i].name != last.name
        {
          assert sorted[i] in init;
          var k :| 0 <= k < |init| && init[k] == sorted[i];
          assert ds[k] == sorted[i];
        }
      }
      InsertDistinct(sorted, last);
    }
  }

  // ---------------------------------------------------------------------
  // The chart
  // ---------------------------------------------------------------------

  function Min(a: int, b: int): int { if a <= b then a else b }

  /** The chart's labels and values: the first ten donors after sorting,
      one label and one value per donor. */
  function Chart(rows: seq<Entry>): (r: (seq<string>, seq<int>))
    ensures |r.0| == |r.1| == Min(10, |Aggregate(rows)|)
    ensures forall i :: 0 <= i < |r.0| ==>
              r.0[i] == SortByCount(Aggregate(rows))[i].name && r.1[i] == SortByCount(Aggregate(rows))[i].count
  {
    var sorted := SortByCount(Aggregate(rows));
    SameLength(sorted, Aggregate(rows));
    Columns(sorted[..Min(10, |sorted|)])
  }

  /** One label and one value per entry. */
  function Columns(top: seq<Entry>): (r: (seq<string>, seq<int>))
    ensures |r.0| == |r.1| == |top|
    ensures forall i :: 0 <= i < |top| ==> r.0[i] == top[i].name && r.1[i] == top[i].count
  {
    (seq(|top|, i requires 0 <= i < |top| => top[i].name), seq(|top|, i requires 0 <= i < |top| => top[i].count))
  }

  lemma SameLength(a: seq<Entry>, b: seq<Entry>)
    requires multiset(a) == multiset(b)
    ensures |a| == |b|
  {
    assert |multiset(a)| == |multiset(b)|;
  }

  /** The donors shown are distinct, highest count first. */
  lemma ChartDistinctDescending(rows: seq<Entry>)
    ensures forall i, j :: 0 <= i < j < |Chart(rows).0| ==> Chart(rows).0[i] != Chart(rows).0[j]
    ensures forall i, j :: 0 <= i < j < |Chart(rows).1| ==> Chart(rows).1[i] >= Chart(rows).1[j]
  {
    var sorted := SortByCount(Aggregate(rows));
    SortDistinct(Aggregate(rows));
    var (names, counts) := Chart(rows);
    assert forall i :: 0 <= i < |names| ==> names[i] == sorted[i].name && counts[i] == sorted[i].count;
  }

  /** Each donor shown is named in the table and carries the sum of its
      rows. */
  lemma ChartSums(rows: seq<Entry>)
    ensures forall i :: 0 <= i < |Chart(rows).0| ==>
              Chart(rows).1[i] == SumFor(rows, Chart(rows).0[i]) && NamedIn(rows, Chart(rows).0[i])
  {
    var agg := Aggregate(rows);
    var sorted := SortByCount(agg);
    var (names, counts) := Chart(rows);
    MultisetMembers(sorted, agg);
    forall i | 0 <= i < |names|
      ensures counts[i] == SumFor(rows, names[i]) && NamedIn(rows, names[i])
    {
      assert sorted[i] in agg;
      var k :| 0 <= k < |agg| && agg[k] == sorted[i];
      assert HasName(agg, names[i]);
    }
  }

  /** A donor of the table that the chart leaves off has no more than
      any donor shown. */
  lemma ChartLeftOff(rows: seq<Entry>, n: string)
    requires NamedIn(rows, n) && n !in Chart(rows).0
    ensures forall i :: 0 <= i < |Chart(rows).1| ==> SumFor(rows, n) <= Chart(rows).1[i]
  {
    var sorted := SortByCount(Aggregate(rows));
    var p := SortedPosition(rows, n);
    var (names, counts) := Chart(rows);
    assert p >= |names| by {
      forall i | 0 <= i < |names|
        ensures sorted[i] != sorted[p]
      {
        assert sorted[i].name == names[i];
      }
    }
    forall i | 0 <= i < |counts|
      ensures SumFor(rows, n) <= counts[i]
    {
      assert counts[i] == sorted[i].count >= sorted[p].count;
    }
  }

  /** Where a donor of the table ends up after sorting. */
  lemma SortedPosition(rows: seq<Entry>, n: string) returns (p: nat)
    requires NamedIn(rows, n)
    ensures p < |SortByCount(Aggregate(rows))|
    ensures SortByCount(Aggregate(rows))[p].name == n
    ensures SortByCount(Aggregate(rows))[p].count == SumFor(rows, n)
  {
    var agg := Aggregate(rows);
    assert HasName(agg, n);
    var k :| 0 <= k < |agg| && agg[k].name == n;
    assert agg[k].count == SumFor(rows, n);
    p := PositionOf(agg, SortByCount(agg), k);
  }

  /** An entry of a list has a place in any permutation of it. */
  lemma PositionOf(a: seq<Entry>, b: seq<Entry>, k: nat) returns (p: nat)
    requires multiset(a) == multiset(b) && k < |a|
    ensures p < |b| && b[p] == a[k]
  {
    assert a[k] in multiset(a);
    assert a[k] in multiset(b);
    p :| 0 <= p < |b| && b[p] == a[k];
  }

  /** What the chart shows: at most ten distinct donors, each with the sum
      of that donor's rows, highest first; any donor left off has no more
      than each donor shown. */
  lemma ChartIsTopTen(rows: seq<Entry>)
    ensures var (names, counts) := Chart(rows);
            && (forall i, j :: 0 <= i < j < |names| ==> names[i] != names[j])
            && (forall i :: 0 <= i < |names| ==> counts[i] == SumFor(rows, names[i]) && NamedIn(rows, names[i]))
            && (forall i, j :: 0 <= i < j < |counts| ==> counts[i] >= counts[j])
            && (forall n :: NamedIn(rows, n) && n !in names ==>
                  forall i :: 0 <= i < |counts| ==> SumFor(rows, n) <= counts[i])
  {
    ChartDistinctDescending(rows);
    ChartSums(rows);
    forall n | NamedIn(rows, n) && n !in Chart(rows).0
      ensures forall i :: 0 <= i < |Chart(rows).1| ==> SumFor(rows, n) <= Chart(rows).1[i]
    {
      ChartLeftOff(rows, n);
    }
  }

  /** Donors the chart shows with equal counts appear in the order their
      names first appear in the table. */
  lemma ChartTiesInFirstRowOrder(rows: seq<Entry>)
    ensures var (names, counts) := Chart(rows);
            forall i, j :: 0 <= i < j < |names| && counts[i] == counts[j] ==>
              FirstRow(rows, names[i]) < FirstRow(rows, names[j])
  {
    var agg := Aggregate(rows);
    var sorted := SortByCount(agg);
    var (names, counts) := Chart(rows);
    forall i, j | 0 <= i < j < |names| && counts[i] == counts[j]
      ensures FirstRow(rows, names[i]) < FirstRow(rows, names[j])
    {
      var a, b := SortedTieOrder(agg, i, j);
      assert names[i] == agg[a].name && names[j] == agg[b].name;
    }
  }

  /** Grouping loses nothing: the chart's source list holds all the
      donations in the table. */
  lemma GroupingKeepsTotal(rows: seq<Entry>)
    ensures Total(Aggregate(rows)) == RowTotal(rows)
  {
  }
}

=== FILE: matching.dfy ===
/** The "match blood request" button
    (give_pulse_app/static/js/blood_request_matching.js): which request id
    is used, which CSRF token is sent, and what the page shows for each
    reply.

    The page is a parameter: the form's `data-request-id` attribute and
    `action`, the hidden CSRF input, the CSRF meta tag and
    `document.cookie`. The network exchange is a `Reply`, and
    `JSON.parse` is represented by the `Body` it produced. A JavaScript
    `null` or `undefined` string is `None`. */
module Matching {
  import opened Wrappers
  import opened Text

  // ---------------------------------------------------------------------
  // The request id
  // ---------------------------------------------------------------------

  const RequestsPrefix: string := "/requests/"
  const MatchSuffix: string := "/match"

  /** The length of the run of digits at the start of `s`. */
  function DigitRun(s: string): (n: nat)
    ensures n <= |s|
    ensures AllDigits(s[..n])
    ensures n < |s| ==> !IsDigit(s[n])
    decreases |s|
  {
    if |s| == 0 || !IsDigit(s[0]) then 0
    else
      var n := 1 + DigitRun(s[1..]);
      assert forall k :: 0 < k < n ==> s[..n][k] == s[1..][..n - 1][k - 1];
      n
  }

  /** Whether `/\/requests\/(\d+)\/match/` matches at index `i` of `s`,
      and the captured digits. */
  function MatchAt(s: string, i: nat): (r: Option<string>)
    requires i <= |s|
    ensures r.Some? ==> |r.value| >= 1 && AllDigits(r.value)
  {
    var t := s[i..];
    if !IsPrefix(RequestsPrefix, t) then None
    else
      var u := t[|RequestsPrefix|..];
      var n := DigitRun(u);
      if n > 0 && IsPrefix(MatchSuffix, u[n..]) then Some(u[..n]) else None
  }

  /** The regular expression's meaning at one index: the text there is
      "/requests/", a non-empty run of digits, then "/match". Because the
      suffix starts with a non-digit, the greedy digit run is the only one
      that can be followed by it. */
  lemma MatchAtIff(s: string, i: nat, d: string)
    requires i <= |s|
    ensures MatchAt(s, i) == Some(d) <==>
              |d| >= 1 && AllDigits(d) && IsPrefix(RequestsPrefix + d + MatchSuffix, s[i..])
  {
    if |d| >= 1 && AllDigits(d) && IsPrefix(RequestsPrefix + d + MatchSuffix, s[i..]) {
      PatternMatches(s[i..], d);
    }
    if MatchAt(s, i) == Some(d) {
      MatchIsPattern(s[i..], d);
    }
  }

  lemma PatternMatches(t: string, d: string)
    requires |d| >= 1 && AllDigits(d) && IsPrefix(RequestsPrefix + d + MatchSuffix, t)
    ensures MatchAt(t, 0) == Some(d)
  {
    var pattern := RequestsPrefix + d + MatchSuffix;
    var u := t[|RequestsPrefix|..];
    assert t[0..] == t;
    assert t[..|RequestsPrefix|] == pattern[..|RequestsPrefix|] == RequestsPrefix;
    assert u[..|d|] == d by {
      forall k | 0 <= k < |d|
        ensures u[k] == d[k]
      {
        assert u[k] == t[|RequestsPrefix| + k] == pattern[|RequestsPrefix| + k];
      }
    }
    assert u[|d|] == '/' by {
      assert u[|d|] == t[|RequestsPrefix| + |d|] == pattern[|RequestsPrefix| + |d|];
    }
    DigitRunOf(u, |d|);
    assert u[|d|..][..|MatchSuffix|] == MatchSuffix by {
      forall k | 0 <= k < |MatchSuffix|
        ensures u[|d|..][k] == MatchSuffix[k]
      {
        assert u[|d|..][k] == t[|RequestsPrefix| + |d| + k] == pattern[|RequestsPrefix| + |d| + k];
      }
    }
  }

  lemma MatchIsPattern(t: string, d: string)
    requires MatchAt(t, 0) == Some(d)
    ensures |d| >= 1 && AllDigits(d) && IsPrefix(RequestsPrefix + d + MatchSuffix, t)
  {
    var pattern := RequestsPrefix + d + MatchSuffix;
    assert t[0..] == t;
    var u := t[|RequestsPrefix|..];
    var n := DigitRun(u);
    assert d == u[..n];
    assert t[..|pattern|] == pattern by {
      forall k | 0 <= k < |pattern|
        ensures t[k] == pattern[k]
      {
        if k < |RequestsPrefix| {
          assert t[..|RequestsPrefix|][k] == t[k];
        } else if k < |RequestsPrefix| + n {
          assert u[k - |RequestsPrefix|] == t[k];
        } else {
          assert u[n..][..|MatchSuffix|][k - |RequestsPrefix| - n] == t[k];
        }
      }
    }
  }

  /** A run of digits ended by a non-digit is the whole run `DigitRun`
      reports. */
  lemma {:induction false} DigitRunOf(u: string, n: nat)
    requires n < |u| && AllDigits(u[..n]) && !IsDigit(u[n])
    ensures DigitRun(u) == n
    decreases n
  {
    if n > 0 {
      assert IsDigit(u[..n][0]);
      assert u[1..][..n - 1] == u[..n][1..];
      DigitRunOf(u[1..], n - 1);
    }
  }

  /** The first index at or after `i` where the expression matches. */
  function FirstMatch(s: string, i: nat): (r: Option<nat>)
    requires i <= |s|
    ensures r.Some? ==> i <= r.value <= |s| && MatchAt(s, r.value).Some?
    ensures r.Some? ==> forall k :: i <= k < r.value ==> MatchAt(s, k).None?
    ensures r.None? ==> forall k :: i <= k <= |s| ==> MatchAt(s, k).None?
    decreases |s| - i
  {
    if MatchAt(s, i).Some? then Some(i)
    else if i == |s| then None
    else FirstMatch(s, i + 1)
  }

  /** Once a match is found at `p` and nowhere between `i` and `p`, the
      search from `i` stops at `p`. */
  lemma {:induction false} FirstMatchIs(s: string, i: nat, p: nat)
    requires i <= p <= |s| && MatchAt(s, p).Some?
    requires forall k :: i <= k < p ==> MatchAt(s, k).None?
    ensures FirstMatch(s, i) == Some(p)
    decreases p - i
  {
    if i < p {
      FirstMatchIs(s, i + 1, p);
    }
  }

  /** `action.match(...)?.[1]`: the digits of the leftmost match. */
  function ActionId(action: string): (r: Option<string>)
    ensures r.Some? ==> |r.value| >= 1 && AllDigits(r.value)
    ensures r.None? <==> forall k :: 0 <= k <= |action| ==> MatchAt(action, k).None?
    ensures FirstMatch(action, 0).Some? ==> r == MatchAt(action, FirstMatch(action, 0).value)
    ensures r.Some? ==> exists p :: 0 <= p <= |action| && MatchAt(action, p) == r
                                    && forall k :: 0 <= k < p ==> MatchAt(action, k).None?
  {
    match FirstMatch(action, 0)
    case Some(p) =>
      var r := MatchAt(action, p);
      MatchAtIff(action, p, r.value);
      r
    case None => None
  }

  /** The request id: the `data-request-id` attribute unless it is
      missing or empty, in which case the id in the form action. */
  function RequestId(dataAttr: Option<string>, action: string): (r: Option<string>)
    ensures r.Some? ==> r.value != []
    ensures dataAttr.Some? && dataAttr.value != [] ==> r == dataAttr
    ensures (dataAttr.None? || dataAttr.value == []) ==> r == ActionId(action)
  {
    if dataAttr.Some? && dataAttr.value != [] then dataAttr else ActionId(action)
  }

  /** The endpoint the button posts to. */
  function AjaxUrl(id: string): (r: string)
    ensures IsPrefix(RequestsPrefix + id, r)
  {
    RequestsPrefix + id + "/match-ajax/"
  }

  /** The id is read back from any form action that holds
      "/requests/<digits>/match", whatever follows it, when no match of
      the expression starts earlier (a scheme and host, say). */
  lemma {:induction false} ActionIdRoundTrip(pre: string, d: string, tail: string)
    requires |d| >= 1 && AllDigits(d)
    requires forall k :: 0 <= k < |pre| ==> MatchAt(pre + RequestsPrefix + d + MatchSuffix + tail, k).None?
    ensures ActionId(pre + RequestsPrefix + d + MatchSuffix + tail) == Some(d)
  {
    var pattern := RequestsPrefix + d + MatchSuffix;
    var s := pre + pattern + tail;
    assert s == pre + RequestsPrefix + d + MatchSuffix + tail;
    assert s[|pre|..] == pattern + tail;
    assert (pattern + tail)[..|pattern|] == pattern;
    MatchAtIff(s, |pre|, d);
    FirstMatchIs(s, 0, |pre|);
  }

  /** The endpoint itself also has the shape the expression looks for, so
      its id is the one it was built from. */
  lemma AjaxUrlCarriesId(id: string)
    requires |id| >= 1 && AllDigits(id)
    ensures ActionId(AjaxUrl(id)) == Some(id)
  {
    var s := RequestsPrefix + id + MatchSuffix + "-ajax/";
    assert AjaxUrl(id) == s;
    assert "" + RequestsPrefix + id + MatchSuffix + "-ajax/" == s;
    ActionIdRoundTrip("", id, "-ajax/");
  }

  /** Every match starts with "/r". */
  lemma MatchStartsWithSlashR(s: string, k: nat)
    requires k <= |s| && MatchAt(s, k).Some?
    ensures k + 1 < |s| && s[k] == '/' && s[k + 1] == 'r'
  {
    var d := MatchAt(s, k).value;
    MatchAtIff(s, k, d);
    assert s[k..][..|RequestsPrefix|] == RequestsPrefix;
    assert s[k..][0] == '/' && s[k..][1] == 'r';
  }

  /** An absolute action URL: the scheme and host hold no "/r", so the id
      after them is the one read. */
  lemma AbsoluteActionId()
    ensures ActionId("https://x" + RequestsPrefix + "7" + MatchSuffix + "") == Some("7")
  {
    var pre := "https://x";
    var s := pre + RequestsPrefix + "7" + MatchSuffix + "";
    forall k | 0 <= k < |pre|
      ensures MatchAt(s, k).None?
    {
      if MatchAt(s, k).Some? {
        MatchStartsWithSlashR(s, k);
      }
    }
    ActionIdRoundTrip(pre, "7", "");
  }

  /** A non-empty attribute wins over any action. */
  lemma AttributeWins(attr: string, action: string)
    requires attr != []
    ensures RequestId(Some(attr), action) == Some(attr)
  {
  }

  /** Without digits between the two parts there is no id. */
  lemma NoDigitsNoId()
    ensures RequestId(None, RequestsPrefix + "match/") == None
  {
    var s := RequestsPrefix + "match/";
    forall k | 0 <= k <= |s|
      ensures MatchAt(s, k).None?
    {
      if k == 0 {
        assert s[k..][|RequestsPrefix|..] == "match/";
        assert DigitRun("match/") == 0;
      } else if k <= 6 {
        assert s[k..][0] == s[k] == RequestsPrefix[k] != '/';
      }
    }
  }

  /** An empty attribute falls back to the action. */
  lemma EmptyAttributeFallsBack()
    ensures RequestId(Some(""), RequestsPrefix + "7" + MatchSuffix + "/") == Some("7")
  {
    assert RequestsPrefix + "7" + MatchSuffix + "/" == "" + RequestsPrefix + "7" + MatchSuffix + "/";
    ActionIdRoundTrip("", "7", "/");
  }

  // ---------------------------------------------------------------------
  // The CSRF token
  // ---------------------------------------------------------------------

  /** The token sources on the page: the hidden input's value, the meta
      tag's `content` attribute (the tag may lack it), and the cookie
      string. */
  datatype Page = Page(hiddenInput: Option<string>, metaTag: Option<Option<string>>, cookie: string)

  /** `cookie.trim().split('=')` destructured into a name and a value;
      the value is missing when the cookie has no '='. */
  function CookieName(cookie: string): string { Split(JsTrim(cookie), '=')[0] }

  function CookieValue(cookie: string): Option<string> {
    var parts := Split(JsTrim(cookie), '=');
    if |parts| > 1 then Some(parts[1]) else None
  }

  /** The index of the first cookie named `csrftoken`. */
  function FirstCsrfCookie(cookies: seq<string>, i: nat): (r: Option<nat>)
    requires i <= |cookies|
    ensures r.Some? ==> i <= r.value < |cookies| && CookieName(cookies[r.value]) == "csrftoken"
    ensures r.Some? ==> forall k :: i <= k < r.value ==> CookieName(cookies[k]) != "csrftoken"
    ensures r.None? ==> forall k :: i <= k < |cookies| ==> CookieName(cookies[k]) != "csrftoken"
    decreases |cookies| - i
  {
    if i == |cookies| then None
    else if CookieName(cookies[i]) == "csrftoken" then Some(i)
    else FirstCsrfCookie(cookies, i + 1)
  }

  /** `getCSRFToken`: the hidden input if there is one, whatever its value;
      else the meta tag's content; else the value of the first cookie
      named `csrftoken`; else the empty string. */
  function CsrfToken(page: Page): (r: Option<string>)
    ensures page.hiddenInput.Some? ==> r == page.hiddenInput
    ensures page.hiddenInput.None? && page.metaTag.Some? ==> r == page.metaTag.value
    ensures page.hiddenInput.None? && page.metaTag.None? ==>
              var cookies := Split(page.cookie, ';');
              match FirstCsrfCookie(cookies, 0)
              case Some(k) => r == CookieValue(cookies[k])
                              && forall j :: 0 <= j < k ==> CookieName(cookies[j]) != "csrftoken"
              case None => r == Some("")
  {
    if page.hiddenInput.Some? then page.hiddenInput
    else if page.metaTag.Some? then page.metaTag.value
    else
      var cookies := Split(page.cookie, ';');
      match FirstCsrfCookie(cookies, 0)
      case Some(k) => CookieValue(cookies[k])
      case None => Some("")
  }

  lemma {:induction false} SplitAtFirst(a: string, b: string, sep: char)
    requires sep !in a
    ensures Split(a + [sep] + b, sep) == [a] + Split(b, sep)
    decreases |a|
  {
    if |a| == 0 {
      assert a + [sep] + b == [sep] + b;
      assert ([sep] + b)[1..] == b;
    } else {
      var s := a + [sep] + b;
      assert s[1..] == a[1..] + [sep] + b;
      SplitAtFirst(a[1..], b, sep);
      assert [a[0]] + a[1..] == a;
    }
  }

  lemma {:induction false} SplitFirstPiece(v: string, rest: string, sep: char)
    requires sep !in v
    requires rest == [] || rest[0] == sep
    ensures Split(v + rest, sep)[0] == v
    decreases |v|
  {
    if |v| == 0 {
      assert v + rest == rest;
      if rest != [] {
        assert rest == [] + [sep] + rest[1..];
        SplitAtFirst([], rest[1..], sep);
      }
    } else {
      var s := v + rest;
      assert s[1..] == v[1..] + rest;
      SplitFirstPiece(v[1..], rest, sep);
      assert [v[0]] + v[1..] == v;
    }
  }

  /** The cookie value is what lies between the first and the second '='
      of the trimmed cookie. */
  lemma CookieValueBetween(name: string, v: string, rest: string)
    requires '=' !in name && '=' !in v
    requires rest == [] || rest[0] == '='
    requires JsTrim(name + "=" + v + rest) == name + "=" + v + rest
    ensures CookieName(name + "=" + v + rest) == name
    ensures CookieValue(name + "=" + v + rest) == Some(v)
  {
    assert name + "=" + v + rest == name + ['='] + (v + rest);
    SplitAtFirst(name, v + rest, '=');
    SplitFirstPiece(v, rest, '=');
  }

  /** Without an input or a meta tag, a page whose cookies include none
      named `csrftoken` sends the empty token. */
  lemma NoTokenAnywhere(cookie: string)
    requires forall c :: c in Split(cookie, ';') ==> CookieName(c) != "csrftoken"
    ensures CsrfToken(Page(None, None, cookie)) == Some("")
  {
  }

  /** A hidden input wins even when its value is empty. */
  lemma EmptyHiddenInputWins(meta: Option<Option<string>>, cookie: string)
    ensures CsrfToken(Page(Some(""), meta, cookie)) == Some("")
  {
  }

  // ---------------------------------------------------------------------
  // Error messages
  // ---------------------------------------------------------------------

  datatype ErrorKind = ServerError | InvalidResponse | NetworkError

  /** How the `catch` block classifies a thrown message: "HTTP error" is
      checked first, then "JSON"; anything else is a network error. */
  function Classify(message: string): (r: ErrorKind)
    ensures r == ServerError <==> Contains(message, "HTTP error")
    ensures r == InvalidResponse <==> !Contains(message, "HTTP error") && Contains(message, "JSON")
    ensures r == NetworkError <==> !Contains(message, "HTTP error") && !Contains(message, "JSON")
  {
    if Contains(message, "HTTP error") then ServerError
    else if Contains(message, "JSON") then InvalidResponse
    else NetworkError
  }

  /** The text shown for a thrown message. */
  function ErrorText(message: string): (r: string)
    ensures Classify(message) == ServerError ==> r == "Server error: " + message
    ensures Classify(message) == InvalidResponse ==> r == "Server returned invalid response"
    ensures Classify(message) == NetworkError ==> r == "Network error. Please try again."
  {
    match Classify(message)
    case ServerError => "Server error: " + message
    case InvalidResponse => "Server returned invalid response"
    case NetworkError => "Network error. Please try again."
  }

  /** The messages the script throws itself. */
  function HttpErrorMessage(status: nat): string { "HTTP error! status: " + Decimal(status) }

  const InvalidJsonMessage: string := "Invalid JSON response from server"

  lemma {:induction false} AbsentFirstChar(s: string, sub: string)
    requires |sub| > 0 && sub[0] !in s
    ensures !Contains(s, sub)
    decreases |s|
  {
    if |s| > 0 {
      if |sub| <= |s| {
        assert s[..|sub|][0] == s[0];
      }
      assert sub[0] !in s[1..] by {
        assert forall k :: 0 <= k < |s[1..]| ==> s[1..][k] == s[k + 1];
      }
      AbsentFirstChar(s[1..], sub);
    }
  }

  /** The script's own errors land in the intended classes: a bad status
      is a server error, an unparsable body an invalid response. */
  lemma HttpErrorIsServerError(status: nat)
    ensures Classify(HttpErrorMessage(status)) == ServerError
  {
    assert HttpErrorMessage(status) == "HTTP error" + ("! status: " + Decimal(status));
    ContainsPrefix("HTTP error", "! status: " + Decimal(status));
  }

  lemma InvalidJsonIsInvalidResponse()
    ensures Classify(InvalidJsonMessage) == InvalidResponse
  {
    InvalidJsonShape();
    AbsentFirstChar(InvalidJsonMessage, "HTTP error");
    ContainsAt(InvalidJsonMessage, 8, "JSON");
  }

  lemma InvalidJsonShape()
    ensures 'H' !in InvalidJsonMessage
    ensures |InvalidJsonMessage| >= 12 && InvalidJsonMessage[8..12] == "JSON"
  {
    var s := InvalidJsonMessage;
    assert s[8] == 'J' && s[9] == 'S' && s[10] == 'O' && s[11] == 'N';
    assert forall k :: 0 <= k < |s| ==> s[k] != 'H';
  }

  /** Text that occurs at some index is contained. */
  lemma {:induction false} ContainsAt(s: string, i: nat, sub: string)
    requires i + |sub| <= |s| && s[i..i + |sub|] == sub
    ensures Contains(s, sub)
    decreases i
  {
    if i > 0 {
      assert s[1..][i - 1..i - 1 + |sub|] == s[i..i + |sub|];
      ContainsAt(s[1..], i - 1, sub);
    } else {
      assert s[..|sub|] == sub;
    }
  }

  /** A failure message that mentions neither phrase, as the browser's
      "Failed to fetch" does, is a network error. */
  lemma FetchFailureIsNetworkError()
    ensures Classify("Failed to fetch") == NetworkError
  {
    assert 'H' !in "Failed to fetch" && 'J' !in "Failed to fetch";
    AbsentFirstChar("Failed to fetch", "HTTP error");
    AbsentFirstChar("Failed to fetch", "JSON");
  }

  // ---------------------------------------------------------------------
  // One click
  // ---------------------------------------------------------------------

  /** What `JSON.parse` made of the reply body: not JSON at all, or a
      value whose `success` and `error` are read with JavaScript
      truthiness (`error` is "" when absent or falsy). A body such as
      `null` is `Json(None)`. */
  datatype Data = Data(success: bool, message: string, error: string)
  datatype Body = NotJson | Json(data: Option<Data>)

  /** The network exchange: `fetch` rejected with a message, or a reply
      arrived with a status and a body. */
  datatype Reply = FetchFailed(message: string) | Replied(status: nat, body: Body)

  datatype Kind = Success | Failure

  /** What the page ends up showing: the URL posted to (if any), the
      message and its kind, whether the status badges now read "Matched",
      and whether the button can be pressed again. */
  datatype Outcome = Outcome(posted: Option<string>, message: string, kind: Kind, matched: bool, buttonEnabled: bool)

  const NoIdMessage: string := "Error: Could not determine request ID"
  const DefaultFailure: string := "Failed to match blood request"

  /** `response.ok`: a status in 200..299. */
  predicate Ok(status: nat) { 200 <= status <= 299 }

  function Failed(posted: Option<string>, thrown: string): Outcome {
    Outcome(posted, ErrorText(thrown), Failure, false, true)
  }

  /** The click handler. */
  function Click(dataAttr: Option<string>, action: string, reply: Reply): (r: Outcome)
    ensures RequestId(dataAttr, action).None? ==> r == Outcome(None, NoIdMessage, Failure, false, true)
    ensures RequestId(dataAttr, action).Some? ==> r.posted == Some(AjaxUrl(RequestId(dataAttr, action).value))
    ensures r.matched <==> r.kind == Success
    ensures r.matched <==> !r.buttonEnabled
  {
    match RequestId(dataAttr, action)
    case None => Outcome(None, NoIdMessage, Failure, false, true)
    case Some(id) =>
      var posted := Some(AjaxUrl(id));
      match reply
      case FetchFailed(m) => Failed(posted, m)
      case Replied(status, body) =>
        if !Ok(status) then Failed(posted, HttpErrorMessage(status))
        else match body
          case NotJson => Failed(posted, InvalidJsonMessage)
          case Json(data) =>
            if data.Some? && data.value.success then Outcome(posted, data.value.message, Success, true, false)
            else
              var text := if data.Some? && data.value.error != "" then data.value.error else DefaultFailure;
              Outcome(posted, text, Failure, false, true)
  }

  /** A request is matched exactly when an id was found, the status was
      2xx and the parsed body reports success; then the server's message
      is shown. */
  lemma MatchedIff(dataAttr: Option<string>, action: string, reply: Reply)
    ensures Click(dataAttr, action, reply).matched <==>
              RequestId(dataAttr, action).Some? && reply.Replied? && Ok(reply.status)
              && reply.body.Json? && reply.body.data.Some? && reply.body.data.value.success
    ensures Click(dataAttr, action, reply).matched ==>
              Click(dataAttr, action, reply).message == reply.body.data.value.message
  {
  }

  /** A status outside 2xx shows the server-error text with the status,
      whatever the body. */
  lemma BadStatusMessage(dataAttr: Option<string>, action: string, status: nat, body: Body)
    requires RequestId(dataAttr, action).Some? && !Ok(status)
    ensures Click(dataAttr, action, Replied(status, body)).message == "Server error: " + HttpErrorMessage(status)
  {
    var id := RequestId(dataAttr, action).value;
    HttpErrorIsServerError(status);
    assert Click(dataAttr, action, Replied(status, body)) == Failed(Some(AjaxUrl(id)), HttpErrorMessage(status));
  }

  /** A 2xx reply whose body is not JSON shows the invalid-response text. */
  lemma NotJsonMessage(dataAttr: Option<string>, action: string, status: nat)
    requires RequestId(dataAttr, action).Some? && Ok(status)
    ensures Click(dataAttr, action, Replied(status, NotJson)).message == "Server returned invalid response"
  {
    InvalidJsonIsInvalidResponse();
  }

  /** A fetch that fails without reaching the server, with any message
      that mentions neither "HTTP error" nor "JSON", shows the
      network-error text and leaves the button usable. */
  lemma NetworkFailureMessage(dataAttr: Option<string>, action: string, m: string)
    requires RequestId(dataAttr, action).Some?
    requires !Contains(m, "HTTP error") && !Contains(m, "JSON")
    ensures Click(dataAttr, action, FetchFailed(m)).message == "Network error. Please try again."
    ensures Click(dataAttr, action, FetchFailed(m)).buttonEnabled
  {
  }

  /** The browser's own "Failed to fetch" is such a message. */
  lemma BrowserFetchFailureMessage(dataAttr: Option<string>, action: string)
    requires RequestId(dataAttr, action).Some?
    ensures Click(dataAttr, action, FetchFailed("Failed to fetch")).message == "Network error. Please try again."
  {
    FetchFailureIsNetworkError();
    NetworkFailureMessage(dataAttr, action, "Failed to fetch");
  }

  /** A JSON reply without success and without an error text shows the
      default failure text. */
  lemma DefaultFailureMessage(dataAttr: Option<string>, action: string, status: nat, data: Option<Data>)
    requires RequestId(dataAttr, action).Some? && Ok(status)
    requires data.None? || (!data.value.success && data.value.error == "")
    ensures Click(dataAttr, action, Replied(status, Json(data))).message == DefaultFailure
  {
  }

  /** A JSON reply without success but with an error text shows that text
      as a failure and leaves the button usable. */
  lemma ServerErrorTextShown(dataAttr: Option<string>, action: string, status: nat, data: Data)
    requires RequestId(dataAttr, action).Some? && Ok(status)
    requires !data.success && data.error != ""
    ensures Click(dataAttr, action, Replied(status, Json(Some(data)))).message == data.error
    ensures Click(dataAttr, action, Replied(status, Json(Some(data)))).kind == Failure
    ensures Click(dataAttr, action, Replied(status, Json(Some(data)))).buttonEnabled
  {
  }
}

=== FILE: passwords.dfy ===
/** Password storage helpers (give_pulse_app/managers.py, top of file).

    bcrypt itself is a foreign library: `hashpw` with a fresh salt and
    `checkpw` are carried as the two function values of a `Bcrypt` record.
    A `checkpw` that raises is modelled by the result `None`. */
module Passwords {
  import opened Wrappers

  datatype Bcrypt = Bcrypt(hashpw: string -> string, checkpw: (string, string) -> Option<bool>)

  /** `^\$2[aby]\$` matched at the start of the string. */
  predicate HasBcryptPrefix(s: string) {
    |s| >= 4 && s[0] == '$' && s[1] == '2' && (s[2] == 'a' || s[2] == 'b' || s[2] == 'y') && s[3] == '$'
  }

  /** What the library promises: every hash it produces carries a bcrypt
      prefix, and a password checks against its own hash. */
  ghost predicate Consistent(b: Bcrypt) {
    forall s :: HasBcryptPrefix(b.hashpw(s)) && b.checkpw(s, b.hashpw(s)) == Some(true)
  }

  /** `_hash_password_if_needed`: a value that already looks like a bcrypt
      hash is kept, anything else is hashed. */
  function HashIfNeeded(rawOrHash: string, b: Bcrypt): (r: string)
    ensures HasBcryptPrefix(rawOrHash) ==> r == rawOrHash
    ensures !HasBcryptPrefix(rawOrHash) ==> r == b.hashpw(rawOrHash)
    ensures Consistent(b) ==> HasBcryptPrefix(r)
  {
    if HasBcryptPrefix(rawOrHash) then rawOrHash else b.hashpw(rawOrHash)
  }

  /** `check_password`: false without a bcrypt prefix, false when the
      library raises, otherwise the library's verdict. */
  function CheckPassword(raw: string, hashed: string, b: Bcrypt): (r: bool)
    ensures r <==> HasBcryptPrefix(hashed) && b.checkpw(raw, hashed) == Some(true)
    ensures b.checkpw(raw, hashed).None? ==> !r
  {
    if !HasBcryptPrefix(hashed) then false
    else match b.checkpw(raw, hashed)
      case None => false
      case Some(ok) => ok
  }

  /** Hashing a stored value again changes nothing. */
  lemma HashIfNeededIdempotent(rawOrHash: string, b: Bcrypt)
    requires Consistent(b)
    ensures HashIfNeeded(HashIfNeeded(rawOrHash, b), b) == HashIfNeeded(rawOrHash, b)
  {
  }

  /** With a real bcrypt, the value comes back unchanged exactly when it
      already carried a prefix. */
  lemma HashIfNeededKeepsIff(rawOrHash: string, b: Bcrypt)
    requires Consistent(b)
    ensures HashIfNeeded(rawOrHash, b) == rawOrHash <==> HasBcryptPrefix(rawOrHash)
  {
    if !HasBcryptPrefix(rawOrHash) {
      assert HasBcryptPrefix(b.hashpw(rawOrHash));
    }
  }

  /** A plain password that is stored through `HashIfNeeded` checks
      against what was stored. */
  lemma StoredPasswordChecks(raw: string, b: Bcrypt)
    requires Consistent(b)
    requires !HasBcryptPrefix(raw)
    ensures CheckPassword(raw, HashIfNeeded(raw, b), b)
  {
    assert HasBcryptPrefix(b.hashpw(raw)) && b.checkpw(raw, b.hashpw(raw)) == Some(true);
  }
}

=== FILE: schema.dfy ===
/** The data model of give_pulse_app/models.py: the choice enumerations,
    the records, and the database as a set of tables with the constraints
    the schema declares (unique columns, `unique_together`, one-to-one
    links, foreign keys, cascading and protected deletion).

    A city is an integer id: the managers and forms compare `city_id`
    values even though models.py declares the column as a string.
    Timestamps are integers; creation and update times are not modelled. */
module Schema {
  import opened Wrappers

  // ---------------------------------------------------------------------
  // Choice enumerations and their stored codes
  // ---------------------------------------------------------------------

  datatype Role = Guest | DonorRole | StaffRole | Admin

  datatype BloodType = O | A | B | AB

  datatype RhType = Pos | Neg

  datatype RequestStatus = Open | Partial | Fulfilled | Expired

  datatype MatchStatus = Pending | Accepted | Declined | CheckedIn | Donated

  function RoleCode(r: Role): string {
    match r
    case Guest => "guest"
    case DonorRole => "donor"
    case StaffRole => "staff"
    case Admin => "admin"
  }

  function BloodTypeCode(t: BloodType): string {
    match t
    case O => "O"
    case A => "A"
    case B => "B"
    case AB => "AB"
  }

  function RhCode(t: RhType): string {
    match t
    case Pos => "+"
    case Neg => "-"
  }

  function RequestStatusCode(s: RequestStatus): string {
    match s
    case Open => "open"
    case Partial => "partial"
    case Fulfilled => "fulfilled"
    case Expired => "expired"
  }

  function MatchStatusCode(s: MatchStatus): string {
    match s
    case Pending => "pending"
    case Accepted => "accepted"
    case Declined => "declined"
    case CheckedIn => "checked_in"
    case Donated => "donated"
  }

  /** Choice validation of a role column: only the four codes are accepted. */
  function ParseRole(s: string): (r: Option<Role>)
    ensures r.Some? ==> RoleCode(r.value) == s
    ensures r.Some? <==> s in {"guest", "donor", "staff", "admin"}
  {
    if s == "guest" then Some(Guest)
    else if s == "donor" then Some(DonorRole)
    else if s == "staff" then Some(StaffRole)
    else if s == "admin" then Some(Admin)
    else None
  }

  /** Choice validation of an ABO column: exactly O, A, B and AB. */
  function ParseBloodType(s: string): (r: Option<BloodType>)
    ensures r.Some? ==> BloodTypeCode(r.value) == s
    ensures r.Some? <==> s in {"O", "A", "B", "AB"}
  {
    if s == "O" then Some(O)
    else if s == "A" then Some(A)
    else if s == "B" then Some(B)
    else if s == "AB" then Some(AB)
    else None
  }

  /** Choice validation of an Rh column: exactly "+" and "-". */
  function ParseRh(s: string): (r: Option<RhType>)
    ensures r.Some? ==> RhCode(r.value) == s
    ensures r.Some? <==> s in {"+", "-"}
  {
    if s == "+" then Some(Pos)
    else if s == "-" then Some(Neg)
    else None
  }

  function ParseRequestStatus(s: string): (r: Option<RequestStatus>)
    ensures r.Some? ==> RequestStatusCode(r.value) == s
    ensures r.Some? <==> s in {"open", "partial", "fulfilled", "expired"}
  {
    if s == "open" then Some(Open)
    else if s == "partial" then Some(Partial)
    else if s == "fulfilled" then Some(Fulfilled)
    else if s == "expired" then Some(Expired)
    else None
  }

  function ParseMatchStatus(s: string): (r: Option<MatchStatus>)
    ensures r.Some? ==> MatchStatusCode(r.value) == s
    ensures r.Some? <==> s in {"pending", "accepted", "declined", "checked_in", "donated"}
  {
    if s == "pending" then Some(Pending)
    else if s == "accepted" then Some(Accepted)
    else if s == "declined" then Some(Declined)
    else if s == "checked_in" then Some(CheckedIn)
    else if s == "donated" then Some(Donated)
    else None
  }

  /** Every stored code parses back to the value it was stored from, so
      the codes of distinct values are distinct. */
  lemma CodesRoundTrip()
    ensures forall r :: ParseRole(RoleCode(r)) == Some(r)
    ensures forall t :: ParseBloodType(BloodTypeCode(t)) == Some(t)
    ensures forall t :: ParseRh(RhCode(t)) == Some(t)
    ensures forall s :: ParseRequestStatus(RequestStatusCode(s)) == Some(s)
    ensures forall s :: ParseMatchStatus(MatchStatusCode(s)) == Some(s)
  {
    forall r: Role ensures ParseRole(RoleCode(r)) == Some(r) {
      match r
      case Guest =>
      case DonorRole =>
      case StaffRole =>
      case Admin =>
    }
    forall t: BloodType ensures ParseBloodType(BloodTypeCode(t)) == Some(t) {
      match t
      case O =>
      case A =>
      case B =>
      case AB =>
    }
    forall s: MatchStatus ensures ParseMatchStatus(MatchStatusCode(s)) == Some(s) {
      match s
      case Pending =>
      case Accepted =>
      case Declined =>
      case CheckedIn =>
      case Donated =>
    }
  }

  /** "completed" is not a match status: a row written with it would fail
      choice validation. */
  lemma CompletedIsNotAMatchStatus()
    ensures ParseMatchStatus("completed") == None
  {
  }

  // ---------------------------------------------------------------------
  // Records
  // ---------------------------------------------------------------------

  datatype Hospital = Hospital(name: string, cityId: int, district: string, isVerified: bool)

  datatype User = User(id: int, firstName: string, lastName: string, email: string,
                       phone: string, password: string, role: Role)

  datatype Staff = Staff(userId: int, hospitalId: int, role: string, isVerified: bool)

  datatype Donor = Donor(userId: int, abo: BloodType, rh: RhType, cityId: int, district: string,
                         lastDonation: Option<int>, eligibilityConsent: bool, publicAlias: string)

  datatype BloodRequest = BloodRequest(hospitalId: int, createdById: int,
                                       unitsRequested: int, unitsFulfilled: int,
                                       abo: BloodType, rh: RhType, cityId: int, district: string,
                                       deadlineAt: int, status: RequestStatus, notes: string)

  datatype Match = Match(requestId: int, donorId: int, status: MatchStatus,
                         notifiedAt: Option<int>, acceptedAt: Option<int>, declinedAt: Option<int>,
                         checkedInAt: Option<int>, donatedAt: Option<int>)

  datatype Appointment = Appointment(windowStart: int, windowEnd: int)

  datatype Donation = Donation(confirmedBy: Option<int>, units: int, certificateSerial: string)

  /** The database. Appointments and donations are keyed by the id of
      their match, which is what their one-to-one link to `Match` means. */
  datatype Db = Db(users: seq<User>,
                   hospitals: map<int, Hospital>,
                   staff: map<int, Staff>,
                   donors: map<int, Donor>,
                   cities: set<int>,
                   requests: map<int, BloodRequest>,
                   matches: map<int, Match>,
                   appointments: map<int, Appointment>,
                   donations: map<int, Donation>)

  // ---------------------------------------------------------------------
  // Constraints
  // ---------------------------------------------------------------------

  /** User ids are a primary key and `email` is a unique column. */
  ghost predicate UsersValid(users: seq<User>) {
    forall i, j :: 0 <= i < j < |users| ==> users[i].id != users[j].id && users[i].email != users[j].email
  }

  predicate IsUserId(users: seq<User>, id: int) {
    exists i :: 0 <= i < |users| && users[i].id == id
  }

  /** `unique_together = [("name", "city")]` on hospitals. */
  ghost predicate HospitalsValid(hospitals: map<int, Hospital>) {
    forall a, b :: a in hospitals && b in hospitals && a != b ==>
      hospitals[a].name != hospitals[b].name || hospitals[a].cityId != hospitals[b].cityId
  }

  /** Staff and donors: a one-to-one link to an existing user, and (for
      staff) a link to an existing hospital. */
  ghost predicate ProfilesValid(db: Db) {
    && (forall s :: s in db.staff ==> IsUserId(db.users, db.staff[s].userId) && db.staff[s].hospitalId in db.hospitals)
    && (forall s, t :: s in db.staff && t in db.staff && s != t ==> db.staff[s].userId != db.staff[t].userId)
    && (forall d :: d in db.donors ==> IsUserId(db.users, db.donors[d].userId))
    && (forall d, e :: d in db.donors && e in db.donors && d != e ==> db.donors[d].userId != db.donors[e].userId)
  }

  /** Unit counts are non-negative integer columns, and a request points
      to an existing hospital and to the existing staff row that created it. */
  ghost predicate RequestsValid(db: Db) {
    forall r :: r in db.requests ==>
      && db.requests[r].unitsRequested >= 0 && db.requests[r].unitsFulfilled >= 0
      && db.requests[r].hospitalId in db.hospitals
      && db.requests[r].createdById in db.staff
  }

  /** Matches point to an existing request and donor, at most one match
      per (request, donor) pair, and appointments and donations belong to
      existing matches; a donation's confirming staff, when set, exists. */
  ghost predicate LedgerValid(db: Db) {
    && (forall m :: m in db.matches ==> db.matches[m].requestId in db.requests && db.matches[m].donorId in db.donors)
    && (forall m, n :: m in db.matches && n in db.matches && m != n ==>
          db.matches[m].requestId != db.matches[n].requestId || db.matches[m].donorId != db.matches[n].donorId)
    && db.appointments.Keys <= db.matches.Keys
    && db.donations.Keys <= db.matches.Keys
    && (forall m :: m in db.donations ==> db.donations[m].units >= 0)
    && (forall m :: m in db.donations && db.donations[m].confirmedBy.Some? ==>
          db.donations[m].confirmedBy.value in db.staff)
  }

  ghost predicate Valid(db: Db) {
    UsersValid(db.users) && HospitalsValid(db.hospitals) && ProfilesValid(db) && RequestsValid(db) && LedgerValid(db)
  }

  // ---------------------------------------------------------------------
  // Row creation and deletion for the match tables
  // ---------------------------------------------------------------------

  datatype DbError =
    | NotFound
    | DuplicateKey
    | ForeignKeyMissing
    | UniqueTogetherViolated
    | OneToOneViolated
    | NegativeUnits
    | Protected

  predicate PairTaken(db: Db, requestId: int, donorId: int) {
    exists m :: m in db.matches && db.matches[m].requestId == requestId && db.matches[m].donorId == donorId
  }

  /** A new match row: status "pending" and no transition timestamps. */
  function NewMatch(requestId: int, donorId: int): Match {
    Match(requestId, donorId, Pending, None, None, None, None, None)
  }

  /** Inserts match `id`. The database refuses a taken primary key, a
      dangling foreign key and a second match for the same pair. */
  function InsertMatch(db: Db, id: int, requestId: int, donorId: int): (r: Result<Db, DbError>)
    ensures r.Ok? <==> id !in db.matches && requestId in db.requests && donorId in db.donors
                       && !PairTaken(db, requestId, donorId)
    ensures PairTaken(db, requestId, donorId) ==> r.Err?
    ensures r.Ok? ==> id in r.value.matches && r.value == db.(matches := db.matches[id := r.value.matches[id]])
    ensures r.Ok? ==> var m := r.value.matches[id];
                      && m.requestId == requestId && m.donorId == donorId && m.status == Pending
                      && m.notifiedAt.None? && m.acceptedAt.None? && m.declinedAt.None?
                      && m.checkedInAt.None? && m.donatedAt.None?
    ensures r.Ok? && Valid(db) ==> Valid(r.value)
  {
    if id in db.matches then Err(DuplicateKey)
    else if requestId !in db.requests || donorId !in db.donors then Err(ForeignKeyMissing)
    else if PairTaken(db, requestId, donorId) then Err(UniqueTogetherViolated)
    else Ok(db.(matches := db.matches[id := NewMatch(requestId, donorId)]))
  }

  /** Creates the appointment of match `matchId`; a match has at most one. */
  function InsertAppointment(db: Db, matchId: int, a: Appointment): (r: Result<Db, DbError>)
    ensures r.Ok? <==> matchId in db.matches && matchId !in db.appointments
    ensures r.Ok? ==> r.value == db.(appointments := db.appointments[matchId := a])
    ensures r.Ok? && Valid(db) ==> Valid(r.value)
  {
    if matchId !in db.matches then Err(ForeignKeyMissing)
    else if matchId in db.appointments then Err(OneToOneViolated)
    else Ok(db.(appointments := db.appointments[matchId := a]))
  }

  /** The donation defaults: one unit, no confirming staff, no serial. */
  const DefaultDonation := Donation(None, 1, "")

  /** Creates the donation of match `matchId`; a match has at most one, a
      confirming staff row must exist and a negative unit count is refused. */
  function InsertDonation(db: Db, matchId: int, d: Donation): (r: Result<Db, DbError>)
    ensures r.Ok? <==> && matchId in db.matches && matchId !in db.donations && d.units >= 0
                       && (d.confirmedBy.Some? ==> d.confirmedBy.value in db.staff)
    ensures r.Ok? ==> r.value == db.(donations := db.donations[matchId := d])
    ensures r.Ok? && Valid(db) ==> Valid(r.value)
  {
    if matchId !in db.matches then Err(ForeignKeyMissing)
    else if matchId in db.donations then Err(OneToOneViolated)
    else if d.confirmedBy.Some? && d.confirmedBy.value !in db.staff then Err(ForeignKeyMissing)
    else if d.units < 0 then Err(NegativeUnits)
    else
      InsertDonationValid(db, matchId, d);
      Ok(db.(donations := db.donations[matchId := d]))
  }

  lemma InsertDonationValid(db: Db, matchId: int, d: Donation)
    requires matchId in db.matches && d.units >= 0
    requires d.confirmedBy.Some? ==> d.confirmedBy.value in db.staff
    ensures Valid(db) ==> Valid(db.(donations := db.donations[matchId := d]))
  {
    var db' := db.(donations := db.donations[matchId := d]);
    if Valid(db) {
      assert RequestsValid(db');
      assert LedgerValid(db');
    }
  }

  /** Deletes match `id` with its appointment. A match that holds a
      donation is protected and stays. */
  function DeleteMatch(db: Db, id: int): (r: Result<Db, DbError>)
    ensures id in db.donations ==> r == Err(Protected)
    ensures r.Ok? <==> id in db.matches && id !in db.donations
    ensures r.Ok? ==> r.value == db.(matches := db.matches - {id}, appointments := db.appointments - {id})
    ensures r.Ok? && Valid(db) ==> Valid(r.value)
  {
    if id in db.donations then Err(Protected)
    else if id !in db.matches then Err(NotFound)
    else Ok(db.(matches := db.matches - {id}, appointments := db.appointments - {id}))
  }

  /** The matches of request `rid`. */
  function MatchesOf(db: Db, rid: int): (ms: set<int>)
    ensures forall m :: m in ms <==> m in db.matches && db.matches[m].requestId == rid
  {
    set m | m in db.matches && db.matches[m].requestId == rid
  }

  /** Deletes request `rid`, cascading to its matches and their
      appointments. If any of those matches holds a donation the whole
      deletion is refused. */
  function DeleteRequest(db: Db, rid: int): (r: Result<Db, DbError>)
    ensures r.Ok? <==> rid in db.requests && (forall m :: m in MatchesOf(db, rid) ==> m !in db.donations)
    ensures r.Ok? ==> rid !in r.value.requests
    ensures r.Ok? ==> forall m :: m in r.value.matches ==> r.value.matches[m].requestId != rid
    ensures r.Ok? ==> forall m :: m in db.matches && db.matches[m].requestId != rid ==>
                        m in r.value.matches && r.value.matches[m] == db.matches[m]
    ensures r.Ok? ==> r.value.donations == db.donations && r.value.users == db.users
    ensures r.Ok? ==> r.value == db.(requests := db.requests - {rid}, matches := db.matches - MatchesOf(db, rid),
                                     appointments := db.appointments - MatchesOf(db, rid))
    ensures r.Ok? && Valid(db) ==> Valid(r.value)
  {
    var doomed := MatchesOf(db, rid);
    if rid !in db.requests then Err(NotFound)
    else if exists m :: m in doomed && m in db.donations then Err(Protected)
    else Ok(db.(requests := db.requests - {rid}, matches := db.matches - doomed,
                appointments := db.appointments - doomed))
  }
}

=== FILE: text.dfy ===
/** Character classes and string operations shared by the Python and the
    JavaScript parts of the application.

    Python's `\s`, `\w`, `\d`, `str.strip` and `str.lower`, and JavaScript's
    `String.prototype.trim`, are Unicode-aware. This module classifies
    characters by their ASCII meaning only: every character outside ASCII
    is treated as neither a letter, a digit nor whitespace. */
module Text {

  // ---------------------------------------------------------------------
  // Character classes
  // ---------------------------------------------------------------------

  predicate IsAsciiLower(c: char) { 'a' <= c <= 'z' }

  predicate IsAsciiUpper(c: char) { 'A' <= c <= 'Z' }

  predicate IsAsciiLetter(c: char) { IsAsciiLower(c) || IsAsciiUpper(c) }

  predicate IsDigit(c: char) { '0' <= c <= '9' }

  /** Python's `str.isspace` (and the regex class `\s`) on ASCII:
      tab, line feed, vertical tab, form feed, carriage return, the four
      information separators 0x1C..0x1F, and space. */
  predicate IsPySpace(c: char) {
    c == ' ' || (9 <= c as int <= 13) || (28 <= c as int <= 31)
  }

  /** The whitespace JavaScript's `trim` removes, on ASCII: tab, line feed,
      vertical tab, form feed, carriage return and space. */
  predicate IsJsSpace(c: char) {
    c == ' ' || (9 <= c as int <= 13)
  }

  /** The regex class `\w` on ASCII: letters, digits and underscore. */
  predicate IsWordChar(c: char) { IsAsciiLetter(c) || IsDigit(c) || c == '_' }

  predicate AllDigits(s: string) {
    forall i :: 0 <= i < |s| ==> IsDigit(s[i])
  }

  // ---------------------------------------------------------------------
  // Case mapping
  // ---------------------------------------------------------------------

  function LowerChar(c: char): (r: char)
    ensures !IsAsciiUpper(r)
    ensures IsAsciiLetter(c) <==> IsAsciiLetter(r)
    ensures !IsAsciiUpper(c) ==> r == c
  {
    if IsAsciiUpper(c) then (c as int + 32) as char else c
  }

  /** `str.lower()` / `String.prototype.toLowerCase` on ASCII letters. */
  function Lower(s: string): (r: string)
    ensures |r| == |s|
    ensures forall i :: 0 <= i < |s| ==> r[i] == LowerChar(s[i])
    ensures forall i :: 0 <= i < |r| ==> !IsAsciiUpper(r[i])
  {
    seq(|s|, i requires 0 <= i < |s| => LowerChar(s[i]))
  }

  lemma LowerIdempotent(s: string)
    ensures Lower(Lower(s)) == Lower(s)
  {
    assert forall i :: 0 <= i < |s| ==> LowerChar(LowerChar(s[i])) == LowerChar(s[i]);
  }

  lemma LowerConcat(a: string, b: string)
    ensures Lower(a + b) == Lower(a) + Lower(b)
  {
  }

  // ---------------------------------------------------------------------
  // Stripping
  // ---------------------------------------------------------------------

  /** Drops the leading characters that satisfy `sp`. */
  function StripLeft(s: string, sp: char -> bool): (r: string)
    ensures |r| <= |s| && r == s[|s| - |r|..]
    ensures forall i :: 0 <= i < |s| - |r| ==> sp(s[i])
    ensures |r| > 0 ==> !sp(r[0])
    decreases |s|
  {
    if |s| > 0 && sp(s[0]) then
      var r := StripLeft(s[1..], sp);
      assert forall i :: 1 <= i < |s| - |r| ==> s[i] == s[1..][i - 1];
      r
    else s
  }

  /** Drops the trailing characters that satisfy `sp`. */
  function StripRight(s: string, sp: char -> bool): (r: string)
    ensures |r| <= |s| && r == s[..|r|]
    ensures forall i :: |r| <= i < |s| ==> sp(s[i])
    ensures |r| > 0 ==> !sp(r[|r| - 1])
    decreases |s|
  {
    if |s| > 0 && sp(s[|s| - 1]) then
      var r := StripRight(s[..|s| - 1], sp);
      assert forall i :: |r| <= i < |s| - 1 ==> s[i] == s[..|s| - 1][i];
      r
    else s
  }

  /** Removes leading and trailing characters that satisfy `sp`: the result
      is a slice of `s` whose ends are not `sp`, and everything cut away is. */
  function Strip(s: string, sp: char -> bool): (r: string)
    ensures |r| <= |s|
    ensures |r| > 0 ==> !sp(r[0]) && !sp(r[|r| - 1])
    ensures forall c :: c in r ==> c in s
    ensures (forall i :: 0 <= i < |s| ==> sp(s[i])) <==> r == []
  {
    var l := StripLeft(s, sp);
    var r := StripRight(l, sp);
    assert forall c :: c in r ==> c in l;
    assert r == [] ==> l == [];
    r
  }

  /** Python's `str.strip()` with no argument. */
  function PyStrip(s: string): string { Strip(s, IsPySpace) }

  /** JavaScript's `String.prototype.trim()`. */
  function JsTrim(s: string): string { Strip(s, IsJsSpace) }

  lemma {:induction false} StripLeftNoop(s: string, sp: char -> bool)
    requires |s| == 0 || !sp(s[0])
    ensures StripLeft(s, sp) == s
  {
  }

  lemma {:induction false} StripRightNoop(s: string, sp: char -> bool)
    requires |s| == 0 || !sp(s[|s| - 1])
    ensures StripRight(s, sp) == s
  {
  }

  /** A string that neither starts nor ends with a character `sp`
      accepts is its own strip. */
  lemma StripNoop(s: string, sp: char -> bool)
    requires |s| == 0 || (!sp(s[0]) && !sp(s[|s| - 1]))
    ensures Strip(s, sp) == s
  {
    StripLeftNoop(s, sp);
    StripRightNoop(s, sp);
  }

  /** One leading blank in front of an unblanked string is stripped. */
  lemma StripLeadingBlank(c: char, s: string, sp: char -> bool)
    requires sp(c) && |s| > 0 && !sp(s[0]) && !sp(s[|s| - 1])
    ensures Strip([c] + s, sp) == s
  {
    assert ([c] + s)[1..] == s;
    StripNoop(s, sp);
  }

  /** Stripping twice is the same as stripping once. */
  lemma StripIdempotent(s: string, sp: char -> bool)
    ensures Strip(Strip(s, sp), sp) == Strip(s, sp)
  {
    var r := Strip(s, sp);
    StripLeftNoop(r, sp);
    StripRightNoop(r, sp);
  }

  // ---------------------------------------------------------------------
  // Substrings
  // ---------------------------------------------------------------------

  predicate IsPrefix(p: string, s: string) {
    |p| <= |s| && s[..|p|] == p
  }

  /** `s.includes(sub)` / `sub in s`, computed by scanning. */
  predicate Contains(s: string, sub: string)
    decreases |s|
  {
    IsPrefix(sub, s) || (|s| > 0 && Contains(s[1..], sub))
  }

  ghost predicate OccursAt(s: string, sub: string, i: int) {
    0 <= i && i + |sub| <= |s| && s[i..i + |sub|] == sub
  }

  /** The scanning definition agrees with "occurs at some position". */
  lemma {:induction false} ContainsIff(s: string, sub: string)
    ensures Contains(s, sub) <==> exists i :: OccursAt(s, sub, i)
    decreases |s|
  {
    if IsPrefix(sub, s) {
      assert OccursAt(s, sub, 0);
    } else if |s| > 0 {
      ContainsIff(s[1..], sub);
      if Contains(s[1..], sub) {
        var i :| OccursAt(s[1..], sub, i);
        assert s[1..][i..i + |sub|] == s[i + 1..i + 1 + |sub|];
        assert OccursAt(s, sub, i + 1);
      } else {
        forall i | 0 <= i && i + |sub| <= |s|
          ensures !OccursAt(s, sub, i)
        {
          if i > 0 {
            assert s[1..][i - 1..i - 1 + |sub|] == s[i..i + |sub|];
            assert !OccursAt(s[1..], sub, i - 1);
          }
        }
      }
    }
  }

  lemma ContainsPrefix(p: string, rest: string)
    ensures Contains(p + rest, p)
  {
    assert (p + rest)[..|p|] == p;
  }

  // ---------------------------------------------------------------------
  // Splitting and joining on a separator character
  // ---------------------------------------------------------------------

  /** `s.split(sep)` for a one-character separator: never empty, and no
      piece contains the separator. */
  function Split(s: string, sep: char): (parts: seq<string>)
    ensures |parts| >= 1
    ensures forall i :: 0 <= i < |parts| ==> sep !in parts[i]
    decreases |s|
  {
    if |s| == 0 then [""]
    else
      var rest := Split(s[1..], sep);
      if s[0] == sep then [""] + rest
      else [[s[0]] + rest[0]] + rest[1..]
  }

  /** `parts.join(sep)`. */
  function Join(parts: seq<string>, sep: char): string
    decreases |parts|
  {
    if |parts| == 0 then ""
    else if |parts| == 1 then parts[0]
    else parts[0] + [sep] + Join(parts[1..], sep)
  }

  /** Joining the pieces of a split gives back the original string. */
  lemma {:induction false} JoinSplit(s: string, sep: char)
    ensures Join(Split(s, sep), sep) == s
    decreases |s|
  {
    if |s| > 0 {
      var rest := Split(s[1..], sep);
      JoinSplit(s[1..], sep);
      if s[0] == sep {
        assert Split(s, sep) == [""] + rest;
        assert Join([""] + rest, sep) == "" + [sep] + Join(rest, sep);
      } else {
        var parts := [[s[0]] + rest[0]] + rest[1..];
        if |rest| == 1 {
          assert Join(parts, sep) == [s[0]] + rest[0];
        } else {
          assert parts[1..] == rest[1..];
          assert Join(rest, sep) == rest[0] + [sep] + Join(rest[1..], sep);
          assert Join(parts, sep) == [s[0]] + rest[0] + [sep] + Join(rest[1..], sep);
        }
      }
    }
  }

  /** Splitting a join of separator-free pieces gives back the pieces. */
  lemma {:induction false} SplitJoin(parts: seq<string>, sep: char)
    requires |parts| >= 1
    requires forall i :: 0 <= i < |parts| ==> sep !in parts[i]
    ensures Split(Join(parts, sep), sep) == parts
    decreases |parts|, |parts[0]|
  {
    var p := parts[0];
    if |p| == 0 {
      if |parts| == 1 {
      } else {
        SplitJoin(parts[1..], sep);
        var s := Join(parts, sep);
        assert s == [sep] + Join(parts[1..], sep);
        assert s[1..] == Join(parts[1..], sep);
        assert [""] + parts[1..] == parts;
      }
    } else {
      var tail := [p[1..]] + parts[1..];
      assert tail[1..] == parts[1..];
      assert forall i :: 0 <= i < |tail| ==> sep !in tail[i] by {
        assert forall c :: c in p[1..] ==> c in p;
      }
      SplitJoin(tail, sep);
      var s := Join(parts, sep);
      assert s == [p[0]] + Join(tail, sep) by {
        if |parts| == 1 {
          assert p == [p[0]] + p[1..];
        } else {
          assert Join(tail, sep) == p[1..] + [sep] + Join(parts[1..], sep);
          assert p == [p[0]] + p[1..];
        }
      }
      assert s[0] == p[0] && s[1..] == Join(tail, sep);
      assert p[0] != sep by { assert p[0] in p; }
      var rest := Split(s[1..], sep);
      assert rest == tail;
      assert [p[0]] + p[1..] == p;
      assert [p] + parts[1..] == parts;
    }
  }

  // ---------------------------------------------------------------------
  // Decimal numerals
  // ---------------------------------------------------------------------

  function DigitChar(d: nat): (c: char)
    requires d < 10
    ensures IsDigit(c) && c as int - '0' as int == d
  {
    ('0' as int + d) as char
  }

  function DigitValue(c: char): (d: nat)
    requires IsDigit(c)
    ensures d < 10 && DigitChar(d) == c
  {
    c as int - '0' as int
  }

  /** The value of a string of decimal digits (the empty string is 0). */
  function DigitsValue(s: string): nat
    requires AllDigits(s)
    decreases |s|
  {
    if |s| == 0 then 0
    else DigitsValue(s[..|s| - 1]) * 10 + DigitValue(s[|s| - 1])
  }

  /** A numeral without superfluous leading zeros. */
  predicate IsCanonicalDecimal(s: string) {
    |s| >= 1 && AllDigits(s) && (|s| > 1 ==> s[0] != '0')
  }

  /** How Python's f-string and JavaScript's template literal print a
      non-negative integer. */
  function Decimal(n: nat): (r: string)
    ensures IsCanonicalDecimal(r)
    decreases n
  {
    if n < 10 then [DigitChar(n)]
    else
      var r := Decimal(n / 10) + [DigitChar(n % 10)];
      assert r[0] == Decimal(n / 10)[0];
      r
  }

  lemma DivModTen(q: nat, d: nat)
    requires d < 10
    ensures (q * 10 + d) / 10 == q && (q * 10 + d) % 10 == d
  {
  }

  /** Reading back a printed number gives the number. */
  lemma {:induction false} DecimalValue(n: nat)
    ensures DigitsValue(Decimal(n)) == n
    decreases n
  {
    if n >= 10 {
      var s := Decimal(n);
      DecimalValue(n / 10);
      assert s[..|s| - 1] == Decimal(n / 10);
    }
  }

  lemma {:induction false} LeadingNonZeroPositive(s: string)
    requires IsCanonicalDecimal(s) && s[0] != '0'
    ensures DigitsValue(s) >= 1
    decreases |s|
  {
    if |s| > 1 {
      var t := s[..|s| - 1];
      assert t[0] == s[0];
      LeadingNonZeroPositive(t);
    } else {
      assert s[..0] == [];
    }
  }

  /** Printing the value of a canonical numeral gives the numeral back. */
  lemma {:induction false} ValueDecimal(s: string)
    requires IsCanonicalDecimal(s)
    ensures Decimal(DigitsValue(s)) == s
    decreases |s|
  {
    var t := s[..|s| - 1];
    var d := DigitValue(s[|s| - 1]);
    if |s| == 1 {
      assert t == [];
      assert [DigitChar(d)] == s;
    } else {
      assert t[0] == s[0];
      ValueDecimal(t);
      LeadingNonZeroPositive(t);
      var v := DigitsValue(t);
      DivModTen(v, d);
      assert DigitsValue(s) == v * 10 + d;
      assert s == t + [s[|s| - 1]];
    }
  }

  // ---------------------------------------------------------------------
  // Fixed-width lower-case hexadecimal
  // ---------------------------------------------------------------------

  predicate IsLowerHexDigit(c: char) { IsDigit(c) || 'a' <= c <= 'f' }

  function HexDigit(d: nat): (c: char)
    requires d < 16
    ensures IsLowerHexDigit(c)
  {
    if d < 10 then DigitChar(d) else ('a' as int + d - 10) as char
  }

  function HexDigitValue(c: char): (d: nat)
    requires IsLowerHexDigit(c)
    ensures d < 16 && HexDigit(d) == c
  {
    if IsDigit(c) then DigitValue(c) else c as int - 'a' as int + 10
  }

  function Pow16(w: nat): (p: nat)
    ensures p >= 1
  {
    if w == 0 then 1 else 16 * Pow16(w - 1)
  }

  /** The `width` low hex digits of `n`, most significant first,
      zero-padded: Python's `'%0{width}x' % n` for `n < 16^width`. */
  function Hex(n: nat, width: nat): (r: string)
    ensures |r| == width
    ensures forall i :: 0 <= i < |r| ==> IsLowerHexDigit(r[i])
  {
    if width == 0 then "" else Hex(n / 16, width - 1) + [HexDigit(n % 16)]
  }

  function HexValue(s: string): nat
    requires forall i :: 0 <= i < |s| ==> IsLowerHexDigit(s[i])
  {
    if |s| == 0 then 0
    else HexValue(s[..|s| - 1]) * 16 + HexDigitValue(s[|s| - 1])
  }

  lemma DivPow16(n: nat, w: nat)
    requires w > 0 && n < Pow16(w)
    ensures n / 16 < Pow16(w - 1)
    ensures (n / 16) * 16 + n % 16 == n
  {
  }

  /** Reading back the hex rendering of a number that fits gives the number. */
  lemma {:induction false} HexRoundTrip(n: nat, width: nat)
    requires n < Pow16(width)
    ensures HexValue(Hex(n, width)) == n
  {
    if width > 0 {
      DivPow16(n, width);
      HexRoundTrip(n / 16, width - 1);
      var s := Hex(n, width);
      assert s[..|s| - 1] == Hex(n / 16, width - 1);
    }
  }

  // ---------------------------------------------------------------------
  // Lexicographic order of strings by code point
  // ---------------------------------------------------------------------

  /** `a` sorts strictly before `b`. */
  predicate LexLess(a: string, b: string)
    decreases |a|
  {
    |b| > 0 && (|a| == 0 || a[0] < b[0] || (a[0] == b[0] && LexLess(a[1..], b[1..])))
  }

  lemma {:induction false} LexIrreflexive(a: string)
    ensures !LexLess(a, a)
    decreases |a|
  {
    if |a| > 0 { LexIrreflexive(a[1..]); }
  }

  lemma {:induction false} LexTransitive(a: string, b: string, c: string)
    requires LexLess(a, b) && LexLess(b, c)
    ensures LexLess(a, c)
    decreases |a|
  {
    if |a| > 0 && a[0] == b[0] && b[0] == c[0] {
      LexTransitive(a[1..], b[1..], c[1..]);
    }
  }

  lemma {:induction false} LexTotal(a: string, b: string)
    requires a != b
    ensures LexLess(a, b) || LexLess(b, a)
    decreases |a|
  {
    if |a| > 0 && |b| > 0 && a[0] == b[0] {
      assert a == [a[0]] + a[1..] && b == [b[0]] + b[1..];
      LexTotal(a[1..], b[1..]);
    }
  }
}

=== FILE: uploads.dfy ===
/** Storage paths for donor profile pictures
    (give_pulse_app/uploads.py).

    The random part of the name comes from `uuid.uuid4()` and is a
    parameter: any 128-bit number. */
module Uploads {
  import opened Wrappers
  import opened Text

  /** `s.rfind(c)`: the index of the last `c`, or -1. */
  function LastIndexOf(s: string, c: char): (r: int)
    ensures -1 <= r < |s|
    ensures r >= 0 ==> s[r] == c
    ensures forall k :: r < k < |s| ==> s[k] != c
    ensures r == -1 <==> c !in s
    decreases |s|
  {
    if |s| == 0 then -1
    else if s[|s| - 1] == c then |s| - 1
    else
      var r := LastIndexOf(s[..|s| - 1], c);
      assert c in s ==> c in s[..|s| - 1] by {
        if c in s {
          var k :| 0 <= k < |s| && s[k] == c;
          assert s[..|s| - 1][k] == c;
        }
      }
      r
  }

  /** The three facts above single out one index. */
  lemma LastIndexOfUnique(s: string, c: char, r: int)
    requires -1 <= r < |s| && (r >= 0 ==> s[r] == c)
    requires forall k :: r < k < |s| ==> s[k] != c
    ensures r == LastIndexOf(s, c)
  {
  }

  lemma LastIndexOfSuffix(s: string, c: char, start: nat)
    requires start <= |s|
    ensures LastIndexOf(s[start..], c)
            == if LastIndexOf(s, c) >= start then LastIndexOf(s, c) - start else -1
  {
    var l := LastIndexOf(s, c);
    var r := if l >= start then l - start else -1;
    assert forall k :: r < k < |s| - start ==> s[start..][k] == s[start + k];
    LastIndexOfUnique(s[start..], c, r);
  }

  /** Some character of `s[lo..hi]` is not a dot. */
  predicate HasNonDot(s: string, lo: int, hi: int)
    requires 0 <= lo && hi <= |s|
  {
    exists k :: lo <= k < hi && s[k] != '.'
  }

  /** The extension `os.path.splitext` reports: from the last dot to the
      end, provided that dot lies in the last path component and some
      character of that component before it is not a dot; otherwise
      empty. */
  function Ext(p: string): (r: string)
    ensures r == [] || (r[0] == '.' && |r| < |p|)
    ensures forall i :: 0 <= i < |r| ==> r[i] != '/'
    ensures forall i :: 0 < i < |r| ==> r[i] != '.'
    ensures |r| <= |p| && r == p[|p| - |r|..]
  {
    var sep := LastIndexOf(p, '/');
    var dot := LastIndexOf(p, '.');
    if dot > sep && HasNonDot(p, sep + 1, dot) then p[dot..] else []
  }

  /** `os.path.splitext` as the POSIX implementation computes it: find the
      last separator and the last dot, then skip leading dots of the last
      component; the extension is the suffix from the last dot if a
      non-dot character precedes it. */
  method SplitExt(p: string) returns (root: string, ext: string)
    ensures root + ext == p
    ensures ext == Ext(p)
  {
    var sepIndex := LastIndexOf(p, '/');
    var dotIndex := LastIndexOf(p, '.');
    if dotIndex > sepIndex {
      ghost var hasNonDot := HasNonDot(p, sepIndex + 1, dotIndex);
      var f := sepIndex + 1;
      while f < dotIndex
        invariant sepIndex + 1 <= f <= dotIndex
        invariant forall k :: sepIndex < k < f ==> p[k] == '.'
      {
        if p[f] != '.' {
          assert p[..dotIndex] + p[dotIndex..] == p;
          return p[..dotIndex], p[dotIndex..];
        }
        f := f + 1;
      }
    }
    return p, [];
  }

  /** `donor_avatar_path`: `donors/<user id>/profile_<32 hex digits><ext>`
      with the upload's extension lower-cased. */
  function DonorAvatarPath(userId: nat, filename: string, token: nat): (r: string)
    requires token < Pow16(32)
    ensures |r| == 48 + |Decimal(userId)| + |Ext(filename)|
  {
    "donors/" + Decimal(userId) + "/profile_" + Hex(token, 32) + Lower(Ext(filename))
  }

  /** Reads the owner, the random token and the extension back out of a
      stored avatar path. */
  function ParseAvatarPath(path: string): (r: Option<(nat, nat, string)>)
  {
    var parts := Split(path, '/');
    if |parts| != 3 || parts[0] != "donors" || !IsCanonicalDecimal(parts[1]) then None
    else
      var name := parts[2];
      if |name| < 40 || name[..8] != "profile_"
         || !(forall i :: 8 <= i < 40 ==> IsLowerHexDigit(name[i])) then None
      else Some((DigitsValue(parts[1]), HexValue(name[8..40]), name[40..]))
  }

  lemma NoSlashInDecimal(n: nat)
    ensures '/' !in Decimal(n)
  {
  }

  lemma NoSlashInLowerExt(p: string)
    ensures '/' !in Lower(Ext(p))
  {
  }

  /** The file-name part of an avatar path holds no separator. */
  lemma AvatarNameHasNoSlash(filename: string, token: nat)
    ensures '/' !in "profile_" + Hex(token, 32) + Lower(Ext(filename))
  {
    var h := Hex(token, 32);
    var e := Lower(Ext(filename));
    var name := "profile_" + h + e;
    forall k | 0 <= k < |name|
      ensures name[k] != '/'
    {
      if 8 <= k < 40 {
        assert name[k] == h[k - 8];
      } else if k >= 40 {
        assert name[k] == e[k - 40];
      }
    }
  }

  lemma JoinThree(a: string, b: string, c: string, sep: char)
    ensures Join([a, b, c], sep) == a + [sep] + b + [sep] + c
  {
    assert [a, b, c][1..] == [b, c];
    assert [b, c][1..] == [c];
    assert Join([c], sep) == c;
    assert Join([b, c], sep) == b + [sep] + c;
  }

  lemma SplitThree(a: string, b: string, c: string, sep: char)
    requires sep !in a && sep !in b && sep !in c
    ensures Split(a + [sep] + b + [sep] + c, sep) == [a, b, c]
  {
    var parts := [a, b, c];
    assert forall i :: 0 <= i < |parts| ==> sep !in parts[i];
    JoinThree(a, b, c, sep);
    SplitJoin(parts, sep);
  }

  /** The avatar path is three components joined by separators. */
  lemma AvatarPathShape(d: string, h: string, e: string)
    ensures "donors/" + d + "/profile_" + h + e == "donors" + ['/'] + d + ['/'] + ("profile_" + h + e)
  {
    assert "donors/" == "donors" + ['/'];
    assert "/profile_" == ['/'] + "profile_";
  }

  /** An avatar path has exactly three components. */
  lemma AvatarPathSplits(userId: nat, filename: string, token: nat)
    requires token < Pow16(32)
    ensures Split(DonorAvatarPath(userId, filename, token), '/')
            == ["donors", Decimal(userId), "profile_" + Hex(token, 32) + Lower(Ext(filename))]
  {
    var d := Decimal(userId);
    var name := "profile_" + Hex(token, 32) + Lower(Ext(filename));
    NoSlashInDecimal(userId);
    AvatarNameHasNoSlash(filename, token);
    AvatarPathShape(d, Hex(token, 32), Lower(Ext(filename)));
    SplitThree("donors", d, name, '/');
  }

  /** Every generated path names its owner, its token and the
      lower-cased extension, and nothing else of the uploaded file name. */
  lemma {:induction false} AvatarPathRoundTrip(userId: nat, filename: string, token: nat)
    requires token < Pow16(32)
    ensures ParseAvatarPath(DonorAvatarPath(userId, filename, token))
            == Some((userId, token, Lower(Ext(filename))))
  {
    var h := Hex(token, 32);
    var e := Lower(Ext(filename));
    var name := "profile_" + h + e;
    AvatarPathSplits(userId, filename, token);
    DecimalValue(userId);
    HexRoundTrip(token, 32);
    assert name[..8] == "profile_" && name[8..40] == h && name[40..] == e;
  }

  /** A multi-dot name keeps only its last part, lower-cased. */
  lemma MultiDotExtension()
    ensures Lower(Ext("a.tar.GZ")) == ".gz"
  {
    var p := "a.tar.GZ";
    LastIndexOfUnique(p, '/', -1);
    LastIndexOfUnique(p, '.', 5);
    assert p[0] != '.';
    assert p[5..] == ".GZ";
  }

  /** A name that is only a leading dot and a word has no extension. */
  lemma DotFileHasNoExtension()
    ensures Ext(".png") == []
    ensures Ext("..png") == []
  {
    LastIndexOfUnique(".png", '/', -1);
    LastIndexOfUnique(".png", '.', 0);
    LastIndexOfUnique("..png", '/', -1);
    LastIndexOfUnique("..png", '.', 1);
  }

  /** A dot in a directory name is not an extension. */
  lemma DirectoryDotIgnored()
    ensures Ext("dir.v2/photo") == []
  {
    var p := "dir.v2/photo";
    assert p[7] != '/' && p[8] != '/' && p[9] != '/' && p[10] != '/' && p[11] != '/';
    LastIndexOfUnique(p, '/', 6);
    assert p[4] != '.' && p[5] != '.' && p[6] != '.' && p[7] != '.';
    assert p[8] != '.' && p[9] != '.' && p[10] != '.' && p[11] != '.';
    LastIndexOfUnique(p, '.', 3);
  }

  /** Leading dots of the last component are skipped, later ones count. */
  lemma LeadingDotsSkipped()
    ensures Ext("..hidden.JPG") == ".JPG"
  {
    var p := "..hidden.JPG";
    LastIndexOfUnique(p, '/', -1);
    LastIndexOfUnique(p, '.', 8);
    assert p[2] != '.';
    assert p[8..] == ".JPG";
  }
}

=== FILE: validators.dfy ===
/** Field validators for account input (give_pulse_app/validators.py).

    Each regular expression of the source is given two readings: a
    declarative predicate that says what the pattern accepts, and a
    single-pass scanning method, the executable validator, proved to accept
    exactly the strings the predicate describes. */
module Validators {
  import opened Text
  import opened Wrappers

  datatype ValidationError =
    | InvalidName
    | InvalidPhone
    | WeakPassword
    | ImageTooLarge(maxMb: int)
    | DisallowedContentType
    | ImageTooSmall(minPx: int)
    | ImageDimensionsTooLarge(maxPx: int)
    | InvalidImageFile

  // ---------------------------------------------------------------------
  // Person names: ^[A-Za-z][A-Za-z\s'\-]{1,149}$ on the stripped value
  // ---------------------------------------------------------------------

  /** A character allowed after the first one of a name. */
  predicate NameChar(c: char) {
    IsAsciiLetter(c) || IsPySpace(c) || c == '\'' || c == '-'
  }

  /** What the name pattern accepts: a letter followed by 1 to 149 name
      characters. */
  predicate NameShape(s: string) {
    && 2 <= |s| <= 150
    && IsAsciiLetter(s[0])
    && forall i :: 1 <= i < |s| ==> NameChar(s[i])
  }

  /** `validate_person_name`: an empty value is rejected; otherwise the
      stripped value must match the name pattern. */
  method ValidatePersonName(value: string) returns (r: Outcome<ValidationError>)
    ensures r.Pass? <==> value != [] && NameShape(PyStrip(value))
    ensures r.Fail? ==> r.error == InvalidName
    ensures r.Pass? ==> var t := PyStrip(value);
                        && 2 <= |t| <= 150 && IsAsciiLetter(t[0])
                        && forall i :: 0 <= i < |t| ==> NameChar(t[i])
  {
    if value == [] {
      return Fail(InvalidName);
    }
    var s := PyStrip(value);
    if |s| < 2 || |s| > 150 || !IsAsciiLetter(s[0]) {
      return Fail(InvalidName);
    }
    var i := 1;
    while i < |s|
      invariant 1 <= i <= |s|
      invariant forall k :: 1 <= k < i ==> NameChar(s[k])
    {
      if !NameChar(s[i]) {
        return Fail(InvalidName);
      }
      i := i + 1;
    }
    return Pass;
  }

  // ---------------------------------------------------------------------
  // Phone numbers: ^\+?[0-9]{7,15}$ on the stripped value
  // ---------------------------------------------------------------------

  /** What the phone pattern accepts: an optional plus sign and then 7 to
      15 digits. */
  predicate PhoneShape(s: string) {
    var digits := if |s| > 0 && s[0] == '+' then s[1..] else s;
    7 <= |digits| <= 15 && AllDigits(digits)
  }

  /** `validate_phone`: an empty value passes (the field is optional);
      otherwise the stripped value must match the phone pattern, so a value
      of blanks only is rejected. */
  method ValidatePhone(value: string) returns (r: Outcome<ValidationError>)
    ensures r.Pass? <==> value == [] || PhoneShape(PyStrip(value))
    ensures r.Fail? ==> r.error == InvalidPhone
    ensures value != [] && PyStrip(value) == [] ==> r.Fail?
  {
    if value == [] {
      return Pass;
    }
    var s := PyStrip(value);
    var start := if |s| > 0 && s[0] == '+' then 1 else 0;
    var n := |s| - start;
    if n < 7 || n > 15 {
      return Fail(InvalidPhone);
    }
    var i := start;
    while i < |s|
      invariant start <= i <= |s|
      invariant forall k :: start <= k < i ==> IsDigit(s[k])
    {
      if !IsDigit(s[i]) {
        assert !IsDigit(s[start..][i - start]);
        return Fail(InvalidPhone);
      }
      i := i + 1;
    }
    assert forall k :: 0 <= k < |s[start..]| ==> s[start..][k] == s[start + k];
    return Pass;
  }

  // ---------------------------------------------------------------------
  // Password strength:
  //   ^(?=.*[a-z])(?=.*[A-Z])(?=.*\d)(?=.*[^\w\s]).{8,128}$ on the raw value
  // ---------------------------------------------------------------------

  /** The class `[^\w\s]`: neither a word character nor whitespace. */
  predicate IsSpecial(c: char) { !IsWordChar(c) && !IsPySpace(c) }

  /** What the password pattern accepts. `.` does not match a line feed,
      so the whole password must be free of them; the look-aheads then
      demand one character of each class somewhere. The value is not
      stripped: surrounding blanks count toward the length. */
  predicate StrongPassword(p: string) {
    && 8 <= |p| <= 128
    && (forall i :: 0 <= i < |p| ==> p[i] != '\n')
    && (exists i :: 0 <= i < |p| && IsAsciiLower(p[i]))
    && (exists i :: 0 <= i < |p| && IsAsciiUpper(p[i]))
    && (exists i :: 0 <= i < |p| && IsDigit(p[i]))
    && (exists i :: 0 <= i < |p| && IsSpecial(p[i]))
  }

  /** The strength check as the rest of the model uses it. */
  function PasswordCheck(p: string): (r: Outcome<ValidationError>)
    ensures r.Fail? ==> r.error == WeakPassword
    ensures r.Pass? ==> p != [] && 8 <= |p| <= 128 && '\n' !in p
  {
    if p != [] && StrongPassword(p) then Pass else Fail(WeakPassword)
  }

  /** `validate_password_strength` as one scan of the password that tracks
      which character classes it has seen. */
  method ValidatePasswordStrength(p: string) returns (r: Outcome<ValidationError>)
    ensures r.Pass? <==> StrongPassword(p)
    ensures r == PasswordCheck(p)
    ensures '\n' in p ==> r.Fail?
  {
    if p == [] || |p| < 8 || |p| > 128 {
      return Fail(WeakPassword);
    }
    var lower, upper, digit, special := false, false, false, false;
    var i := 0;
    while i < |p|
      invariant 0 <= i <= |p|
      invariant forall k :: 0 <= k < i ==> p[k] != '\n'
      invariant lower <==> exists k :: 0 <= k < i && IsAsciiLower(p[k])
      invariant upper <==> exists k :: 0 <= k < i && IsAsciiUpper(p[k])
      invariant digit <==> exists k :: 0 <= k < i && IsDigit(p[k])
      invariant special <==> exists k :: 0 <= k < i && IsSpecial(p[k])
    {
      var c := p[i];
      if c == '\n' {
        return Fail(WeakPassword);
      }
      lower := lower || IsAsciiLower(c);
      upper := upper || IsAsciiUpper(c);
      digit := digit || IsDigit(c);
      special := special || IsSpecial(c);
      i := i + 1;
    }
    if lower && upper && digit && special {
      return Pass;
    }
    return Fail(WeakPassword);
  }

  /** Blanks around a password are part of it: a seven-character password
      is too short, and the same password after one leading blank is
      accepted. */
  lemma PasswordBlanksCount()
    ensures !StrongPassword("Ab1!xyz")
    ensures StrongPassword(" Ab1!xyz")
  {
    var p := " Ab1!xyz";
    assert IsAsciiLower(p[5]);
    assert IsAsciiUpper(p[1]);
    assert IsDigit(p[3]);
    assert IsSpecial(p[4]);
  }

  // ---------------------------------------------------------------------
  // Profile images
  // ---------------------------------------------------------------------

  /** What the upload gates look at: the declared size in bytes and the
      content type the browser sent (absent when the object has none). */
  datatype ImageUpload = ImageUpload(size: int, contentType: Option<string>)

  /** The decoder's verdict, standing in for PIL: `None` when opening or
      verifying the file raises, otherwise the pixel width and height. */
  type Decoded = Option<(int, int)>

  const DefaultMaxMb: int := 2
  const DefaultMinPx: int := 128
  const DefaultMaxPx: int := 3000

  predicate AllowedContentType(ct: string) {
    ct == "image/jpeg" || ct == "image/png" || ct == "image/webp"
  }

  /** The two gates applied before any decoding. */
  function PreDecodeGates(f: ImageUpload, maxMb: int): (r: Outcome<ValidationError>)
    ensures r.Pass? <==> (f.size <= maxMb * 1024 * 1024
                          && (f.contentType.None? || f.contentType.value == []
                              || AllowedContentType(f.contentType.value)))
    ensures f.size > maxMb * 1024 * 1024 ==> r == Fail(ImageTooLarge(maxMb))
    ensures f.size <= maxMb * 1024 * 1024 && r.Fail? ==> r == Fail(DisallowedContentType)
    ensures r == Fail(DisallowedContentType) <==>
              (f.size <= maxMb * 1024 * 1024 && f.contentType.Some? && f.contentType.value != []
               && !AllowedContentType(f.contentType.value))
    ensures r.Fail? ==> r.error == ImageTooLarge(maxMb) || r.error == DisallowedContentType
  {
    if f.size > maxMb * 1024 * 1024 then Fail(ImageTooLarge(maxMb))
    else if f.contentType.Some? && f.contentType.value != []
            && !AllowedContentType(f.contentType.value) then Fail(DisallowedContentType)
    else Pass
  }

  /** `validate_profile_image` as written: the dimension errors are raised
      inside the `try` whose `except Exception` replaces every error with
      "Invalid image file.". */
  function ValidateProfileImageAsWritten(f: ImageUpload, decoded: Decoded,
                                         maxMb: int, minPx: int, maxPx: int): (r: Outcome<ValidationError>)
    ensures PreDecodeGates(f, maxMb).Fail? ==> r == PreDecodeGates(f, maxMb)
    ensures PreDecodeGates(f, maxMb).Pass? && r.Fail? ==> r.error == InvalidImageFile
    ensures r.Pass? <==> (PreDecodeGates(f, maxMb).Pass? && decoded.Some?
                          && minPx <= decoded.value.0 <= maxPx && minPx <= decoded.value.1 <= maxPx)
    ensures r.Fail? ==> r.error !in {ImageTooSmall(minPx), ImageDimensionsTooLarge(maxPx)}
  {
    var gates := PreDecodeGates(f, maxMb);
    if gates.Fail? then gates
    else match decoded
      case None => Fail(InvalidImageFile)
      case Some((w, h)) =>
        if w < minPx || h < minPx then Fail(InvalidImageFile)
        else if w > maxPx || h > maxPx then Fail(InvalidImageFile)
        else Pass
  }

  /** `validate_profile_image` as its messages say it is meant to behave:
      a decodable image of the wrong dimensions reports which bound it
      broke. */
  function ValidateProfileImage(f: ImageUpload, decoded: Decoded,
                                maxMb: int, minPx: int, maxPx: int): (r: Outcome<ValidationError>)
    ensures PreDecodeGates(f, maxMb).Fail? ==> r == PreDecodeGates(f, maxMb)
    ensures r == Fail(InvalidImageFile) <==> PreDecodeGates(f, maxMb).Pass? && decoded.None?
    ensures r == Fail(ImageTooSmall(minPx)) <==>
              (PreDecodeGates(f, maxMb).Pass? && decoded.Some?
               && (decoded.value.0 < minPx || decoded.value.1 < minPx))
    ensures r == Fail(ImageDimensionsTooLarge(maxPx)) <==>
              (PreDecodeGates(f, maxMb).Pass? && decoded.Some?
               && minPx <= decoded.value.0 && minPx <= decoded.value.1
               && (decoded.value.0 > maxPx || decoded.value.1 > maxPx))
    ensures r.Pass? <==> (PreDecodeGates(f, maxMb).Pass? && decoded.Some?
                          && minPx <= decoded.value.0 <= maxPx && minPx <= decoded.value.1 <= maxPx)
  {
    var gates := PreDecodeGates(f, maxMb);
    if gates.Fail? then gates
    else match decoded
      case None => Fail(InvalidImageFile)
      case Some((w, h)) =>
        if w < minPx || h < minPx then Fail(ImageTooSmall(minPx))
        else if w > maxPx || h > maxPx then Fail(ImageDimensionsTooLarge(maxPx))
        else Pass
  }

  /** The two readings accept exactly the same uploads; they differ only in
      the message attached to a rejection. */
  lemma ImageVerdictsAgree(f: ImageUpload, decoded: Decoded, maxMb: int, minPx: int, maxPx: int)
    ensures ValidateProfileImageAsWritten(f, decoded, maxMb, minPx, maxPx).Pass?
        <==> ValidateProfileImage(f, decoded, maxMb, minPx, maxPx).Pass?
  {
  }

  /** A 100x100 PNG within the size limit is reported as an invalid file,
      not as too small. */
  lemma SmallImageMessageLost()
    ensures ValidateProfileImageAsWritten(ImageUpload(50000, Some("image/png")), Some((100, 100)),
                                          DefaultMaxMb, DefaultMinPx, DefaultMaxPx)
            == Fail(InvalidImageFile)
    ensures ValidateProfileImage(ImageUpload(50000, Some("image/png")), Some((100, 100)),
                                 DefaultMaxMb, DefaultMinPx, DefaultMaxPx)
            == Fail(ImageTooSmall(128))
  {
  }
}

=== FILE: verify_entities.dfy ===
/** The `verify_entities` management command
    (give_pulse_app/management/commands/verify_entities.py): set or clear
    the verified flag of hospitals and staff members.

    The answer typed at the confirmation prompt is a parameter, one per
    pass; `Run` also lets the prompt raise instead of answering. The lines
    written to stdout are left out. */
module VerifyEntities {
  import opened Wrappers
  import opened Text
  import opened Schema

  datatype Action = Verify | Unverify

  datatype EntityType = Hospitals | StaffMembers | All

  /** How one pass ended: an id that names nothing, a declined prompt, or
      the number of rows it updated. */
  datatype PassReport = IdNotFound | HospitalIdNotFound | Cancelled | Updated(count: nat)

  /** The flag an action writes: any action other than "verify" clears it. */
  function Flag(a: Action): bool { a == Verify }

  /** An optional integer option as Python's `if entity_id:` reads it:
      absent and zero are both false. */
  predicate Truthy(id: Option<int>) { id.Some? && id.value != 0 }

  /** The prompt accepts `y` in either case and nothing else. */
  predicate Confirmed(answer: string) { Lower(answer) == "y" }

  lemma ConfirmedIff(answer: string)
    ensures Confirmed(answer) <==> answer == "y" || answer == "Y"
  {
    if Confirmed(answer) {
      assert |answer| == 1;
      assert LowerChar(answer[0]) == 'y';
      assert answer == [answer[0]];
    }
  }

  // ---------------------------------------------------------------------
  // The hospital pass
  // ---------------------------------------------------------------------

  /** The hospitals a pass works on: the one with the given id, or all of
      them. */
  predicate HospitalSelected(entityId: Option<int>, h: int) {
    !Truthy(entityId) || h == entityId.value
  }

  function MarkHospitals(hospitals: map<int, Hospital>, entityId: Option<int>, flag: bool): (r: map<int, Hospital>)
    ensures r.Keys == hospitals.Keys
    ensures forall h :: h in hospitals ==>
              r[h] == if HospitalSelected(entityId, h) then hospitals[h].(isVerified := flag) else hospitals[h]
  {
    map h | h in hospitals :: if HospitalSelected(entityId, h) then hospitals[h].(isVerified := flag) else hospitals[h]
  }

  /** The number of rows a pass touches when it selects every key or the
      single key `id`. */
  lemma SelectionSize<V>(m: map<int, V>, entityId: Option<int>)
    requires Truthy(entityId) ==> entityId.value in m
    ensures |set h | h in m && HospitalSelected(entityId, h)| == if Truthy(entityId) then 1 else |m.Keys|
  {
    var sel := set h | h in m && HospitalSelected(entityId, h);
    if Truthy(entityId) {
      assert sel == {entityId.value};
    } else {
      assert sel == m.Keys;
    }
  }

  /** `handle_hospitals`. An id that names no hospital ends the pass; the
      prompt is shown only without `--force` and without an id; otherwise
      every selected hospital gets the action's flag. */
  function HandleHospitals(db: Db, action: Action, entityId: Option<int>, force: bool, answer: string)
    : (r: (Db, PassReport))
    ensures r.0 == db.(hospitals := r.0.hospitals)
    ensures r.1 == IdNotFound <==> Truthy(entityId) && entityId.value !in db.hospitals
    ensures r.1 == Cancelled <==> !force && !Truthy(entityId) && !Confirmed(answer)
    ensures r.1 in {IdNotFound, Cancelled} || r.1.Updated?
    ensures !r.1.Updated? ==> r.0 == db
    ensures r.1.Updated? ==> r.0.hospitals.Keys == db.hospitals.Keys
    ensures r.1.Updated? ==> forall h :: h in db.hospitals ==>
              r.0.hospitals[h] == if HospitalSelected(entityId, h) then db.hospitals[h].(isVerified := Flag(action))
                                  else db.hospitals[h]
    ensures r.1.Updated? ==> r.1.count == |set h | h in db.hospitals && HospitalSelected(entityId, h)|
  {
    if Truthy(entityId) && entityId.value !in db.hospitals then (db, IdNotFound)
    else if !force && !Truthy(entityId) && !Confirmed(answer) then (db, Cancelled)
    else
      SelectionSize(db.hospitals, entityId);
      var count := if Truthy(entityId) then 1 else |db.hospitals.Keys|;
      (db.(hospitals := MarkHospitals(db.hospitals, entityId, Flag(action))), Updated(count))
  }

  // ---------------------------------------------------------------------
  // The staff pass
  // ---------------------------------------------------------------------

  /** The staff members a pass works on: the one with the given id; else,
      with a hospital id, that hospital's staff; else all of them. */
  predicate StaffSelected(staff: map<int, Staff>, entityId: Option<int>, hospitalId: Option<int>, s: int)
    requires s in staff
  {
    if Truthy(entityId) then s == entityId.value
    else if Truthy(hospitalId) then staff[s].hospitalId == hospitalId.value
    else true
  }

  function MarkStaff(staff: map<int, Staff>, entityId: Option<int>, hospitalId: Option<int>, flag: bool)
    : (r: map<int, Staff>)
    ensures r.Keys == staff.Keys
    ensures forall s :: s in staff ==>
              r[s] == if StaffSelected(staff, entityId, hospitalId, s) then staff[s].(isVerified := flag) else staff[s]
  {
    map s | s in staff :: if StaffSelected(staff, entityId, hospitalId, s) then staff[s].(isVerified := flag) else staff[s]
  }

  /** `handle_staff`. A staff id that names nobody, or (without a staff id)
      a hospital id that names no hospital, ends the pass; the prompt is
      shown only without `--force` and without a staff id. */
  function HandleStaff(db: Db, action: Action, entityId: Option<int>, hospitalId: Option<int>,
                       force: bool, answer: string): (r: (Db, PassReport))
    ensures r.0 == db.(staff := r.0.staff)
    ensures r.1 == IdNotFound <==> Truthy(entityId) && entityId.value !in db.staff
    ensures r.1 == HospitalIdNotFound <==>
              !Truthy(entityId) && Truthy(hospitalId) && hospitalId.value !in db.hospitals
    ensures r.1 == Cancelled ==> !force && !Truthy(entityId) && !Confirmed(answer)
    ensures !force && !Truthy(entityId) && !Confirmed(answer) ==> !r.1.Updated?
    ensures !r.1.Updated? ==> r.0 == db
    ensures r.1.Updated? ==> r.0.staff.Keys == db.staff.Keys
    ensures r.1.Updated? ==> forall s :: s in db.staff ==>
              r.0.staff[s] == if StaffSelected(db.staff, entityId, hospitalId, s)
                              then db.staff[s].(isVerified := Flag(action)) else db.staff[s]
    ensures r.1.Updated? ==>
              r.1.count == |set s | s in db.staff && StaffSelected(db.staff, entityId, hospitalId, s)|
  {
    if Truthy(entityId) && entityId.value !in db.staff then (db, IdNotFound)
    else if !Truthy(entityId) && Truthy(hospitalId) && hospitalId.value !in db.hospitals then (db, HospitalIdNotFound)
    else if !force && !Truthy(entityId) && !Confirmed(answer) then (db, Cancelled)
    else
      var selected := set s | s in db.staff && StaffSelected(db.staff, entityId, hospitalId, s);
      (db.(staff := MarkStaff(db.staff, entityId, hospitalId, Flag(action))), Updated(|selected|))
  }

  // ---------------------------------------------------------------------
  // The command
  // ---------------------------------------------------------------------

  /** The staff pass reads only the hospital keys, so a hospital pass run
      before it (which keeps the keys) changes neither its report nor the
      staff it writes. */
  lemma StaffPassIgnoresHospitalFlags(db: Db, hospitals: map<int, Hospital>, action: Action, entityId: Option<int>,
                                      hospitalId: Option<int>, force: bool, answer: string)
    requires hospitals.Keys == db.hospitals.Keys
    ensures var alone := HandleStaff(db, action, entityId, hospitalId, force, answer);
            HandleStaff(db.(hospitals := hospitals), action, entityId, hospitalId, force, answer)
              == (alone.0.(hospitals := hospitals), alone.1)
  {
  }

  /** `handle`: one pass, or for "all" the hospital pass and then the staff
      pass with the same id, each with its own prompt. */
  function Handle(db: Db, action: Action, entityType: EntityType, entityId: Option<int>, hospitalId: Option<int>,
                  force: bool, hospitalAnswer: string, staffAnswer: string): (r: (Db, seq<PassReport>))
    ensures r.0 == db.(hospitals := r.0.hospitals, staff := r.0.staff)
    ensures |r.1| == if entityType == All then 2 else 1
    ensures entityType == Hospitals ==> r.0.staff == db.staff
    ensures entityType == StaffMembers ==> r.0.hospitals == db.hospitals
    ensures entityType == Hospitals ==>
              var h := HandleHospitals(db, action, entityId, force, hospitalAnswer);
              r == (h.0, [h.1])
    ensures entityType == StaffMembers ==>
              var s := HandleStaff(db, action, entityId, hospitalId, force, staffAnswer);
              r == (s.0, [s.1])
    ensures entityType == All ==>
              var h := HandleHospitals(db, action, entityId, force, hospitalAnswer);
              var s := HandleStaff(db, action, entityId, hospitalId, force, staffAnswer);
              r == (db.(hospitals := h.0.hospitals, staff := s.0.staff), [h.1, s.1])
  {
    match entityType
    case Hospitals =>
      var (db', report) := HandleHospitals(db, action, entityId, force, hospitalAnswer);
      (db', [report])
    case StaffMembers =>
      var (db', report) := HandleStaff(db, action, entityId, hospitalId, force, staffAnswer);
      (db', [report])
    case All =>
      var (db1, first) := HandleHospitals(db, action, entityId, force, hospitalAnswer);
      StaffPassIgnoresHospitalFlags(db, db1.hospitals, action, entityId, hospitalId, force, staffAnswer);
      var (db2, second) := HandleStaff(db1, action, entityId, hospitalId, force, staffAnswer);
      (db2, [first, second])
  }

  /** The hospital pass reaches its prompt: without `--force` and without
      an id (an id skips the prompt, and only an id can fail the lookup). */
  predicate HospitalPrompted(entityId: Option<int>, force: bool) {
    !force && !Truthy(entityId)
  }

  /** The staff pass reaches its prompt: without `--force`, without an id,
      and past the hospital-id lookup. */
  predicate StaffPrompted(db: Db, entityId: Option<int>, hospitalId: Option<int>, force: bool) {
    !force && !Truthy(entityId) && !(Truthy(hospitalId) && hospitalId.value !in db.hospitals)
  }

  /** `handle` as the console runs it. `input()` may raise (end of input,
      Ctrl-C) instead of returning an answer; an answer of `None` stands for
      that. The exception leaves the `transaction.atomic()` block, which
      rolls back every write of the command, so the database is unchanged
      and the command ends without its reports (`None`). */
  function Run(db: Db, action: Action, entityType: EntityType, entityId: Option<int>, hospitalId: Option<int>,
               force: bool, hospitalAnswer: Option<string>, staffAnswer: Option<string>)
    : (r: (Db, Option<seq<PassReport>>))
    ensures r.1.None? <==>
              || (entityType != StaffMembers && HospitalPrompted(entityId, force) && hospitalAnswer.None?)
              || (entityType != Hospitals && StaffPrompted(db, entityId, hospitalId, force) && staffAnswer.None?)
    ensures r.1.None? ==> r.0 == db
    ensures r.1.Some? ==>
              (r.0, r.1.value) == Handle(db, action, entityType, entityId, hospitalId, force,
                                         hospitalAnswer.GetOr(""), staffAnswer.GetOr(""))
  {
    var hospitalInterrupted := HospitalPrompted(entityId, force) && hospitalAnswer.None?;
    match entityType
    case Hospitals =>
      if hospitalInterrupted then (db, None)
      else
        var (db1, report) := HandleHospitals(db, action, entityId, force, hospitalAnswer.GetOr(""));
        (db1, Some([report]))
    case StaffMembers =>
      if StaffPrompted(db, entityId, hospitalId, force) && staffAnswer.None? then (db, None)
      else
        var (db2, report) := HandleStaff(db, action, entityId, hospitalId, force, staffAnswer.GetOr(""));
        (db2, Some([report]))
    case All =>
      if hospitalInterrupted then (db, None)
      else
        var (db1, first) := HandleHospitals(db, action, entityId, force, hospitalAnswer.GetOr(""));
        assert db1.hospitals.Keys == db.hospitals.Keys;
        if StaffPrompted(db1, entityId, hospitalId, force) && staffAnswer.None? then (db, None)
        else
          var (db2, second) := HandleStaff(db1, action, entityId, hospitalId, force, staffAnswer.GetOr(""));
          (db2, Some([first, second]))
  }

  // ---------------------------------------------------------------------
  // Properties
  // ---------------------------------------------------------------------

  /** Only the verified flag changes, so every database constraint still
      holds after the hospital pass. */
  lemma HospitalPassKeepsValid(db: Db, action: Action, entityId: Option<int>, force: bool, answer: string)
    requires Valid(db)
    ensures Valid(HandleHospitals(db, action, entityId, force, answer).0)
  {
    var h := HandleHospitals(db, action, entityId, force, answer).0;
    assert h.hospitals.Keys == db.hospitals.Keys;
    assert forall x :: x in h.hospitals ==> h.hospitals[x].name == db.hospitals[x].name
                                            && h.hospitals[x].cityId == db.hospitals[x].cityId;
    assert HospitalsValid(h.hospitals);
    assert ProfilesValid(h);
    assert RequestsValid(h);
  }

  /** Only the verified flag changes, so every database constraint still
      holds after the staff pass. */
  lemma StaffPassKeepsValid(db: Db, action: Action, entityId: Option<int>, hospitalId: Option<int>,
                            force: bool, answer: string)
    requires Valid(db)
    ensures Valid(HandleStaff(db, action, entityId, hospitalId, force, answer).0)
  {
    var s := HandleStaff(db, action, entityId, hospitalId, force, answer).0;
    assert s.staff.Keys == db.staff.Keys;
    assert forall x :: x in s.staff ==> s.staff[x].userId == db.staff[x].userId
                                        && s.staff[x].hospitalId == db.staff[x].hospitalId;
    assert ProfilesValid(s);
  }

  /** Running the hospital pass a second time with the same options
      changes nothing more. */
  lemma HospitalPassIdempotent(db: Db, action: Action, entityId: Option<int>, force: bool, answer: string)
    ensures var once := HandleHospitals(db, action, entityId, force, answer).0;
            HandleHospitals(once, action, entityId, force, answer).0 == once
  {
    var (once, report) := HandleHospitals(db, action, entityId, force, answer);
    if report.Updated? {
      var twice := HandleHospitals(once, action, entityId, force, answer).0;
      assert twice.hospitals == once.hospitals by {
        forall h | h in once.hospitals
          ensures twice.hospitals[h] == once.hospitals[h]
        {
        }
      }
    }
  }

  /** Running the staff pass a second time with the same options changes
      nothing more: the selection does not depend on the flag. */
  lemma StaffPassIdempotent(db: Db, action: Action, entityId: Option<int>, hospitalId: Option<int>,
                            force: bool, answer: string)
    ensures var once := HandleStaff(db, action, entityId, hospitalId, force, answer).0;
            HandleStaff(once, action, entityId, hospitalId, force, answer).0 == once
  {
    var (once, report) := HandleStaff(db, action, entityId, hospitalId, force, answer);
    if report.Updated? {
      var twice := HandleStaff(once, action, entityId, hospitalId, force, answer).0;
      assert forall s :: s in db.staff ==>
        StaffSelected(once.staff, entityId, hospitalId, s) == StaffSelected(db.staff, entityId, hospitalId, s);
      assert twice.staff == once.staff by {
        forall s | s in once.staff
          ensures twice.staff[s] == once.staff[s]
        {
        }
      }
    }
  }

  /** Verifying one hospital by id asks nothing and touches exactly that
      hospital. */
  lemma VerifyOneHospital(db: Db, id: int, force: bool, answer: string)
    requires id != 0 && id in db.hospitals
    ensures var (db', report) := HandleHospitals(db, Verify, Some(id), force, answer);
            && report == Updated(1)
            && db'.hospitals == db.hospitals[id := db.hospitals[id].(isVerified := true)]
  {
    var (db', report) := HandleHospitals(db, Verify, Some(id), force, answer);
    assert db'.hospitals == db.hospitals[id := db.hospitals[id].(isVerified := true)];
  }

  /** With "all" and no id, declining the hospital prompt still leads to
      the staff prompt, and accepting that one updates every staff
      member. */
  lemma DeclinedHospitalsStillRunStaff(db: Db, action: Action, hospitalId: Option<int>,
                                       hospitalAnswer: string, staffAnswer: string)
    requires !Confirmed(hospitalAnswer) && Confirmed(staffAnswer) && !Truthy(hospitalId)
    ensures var (db', reports) := Handle(db, action, All, None, hospitalId, false, hospitalAnswer, staffAnswer);
            && reports == [Cancelled, Updated(|db.staff.Keys|)]
            && db'.hospitals == db.hospitals
            && db'.staff.Keys == db.staff.Keys
            && forall s :: s in db'.staff ==> db'.staff[s].isVerified == Flag(action)
  {
    var selected := set s | s in db.staff && StaffSelected(db.staff, None, hospitalId, s);
    assert selected == db.staff.Keys;
  }

  /** For "all", a confirmed hospital pass that already flagged every
      hospital is undone when the staff prompt is interrupted. */
  lemma InterruptedStaffPromptUndoesHospitals(db: Db, action: Action, hospitalId: Option<int>, hospitalAnswer: string)
    requires Confirmed(hospitalAnswer) && !Truthy(hospitalId)
    ensures HandleHospitals(db, action, None, false, hospitalAnswer).1 == Updated(|db.hospitals.Keys|)
    ensures Run(db, action, All, None, hospitalId, false, Some(hospitalAnswer), None) == (db, None)
  {
  }
}

=== FILE: wrappers.dfy ===
/** Failure-carrying results used by every module that models a Python
    `raise` or a JavaScript `throw` as a returned value. */
module Wrappers {

  /** A value that may be absent: Python's `None`, a missing form field or
      a DOM lookup that found nothing. */
  datatype Option<+T> = None | Some(value: T) {

    function GetOr(default: T): T {
      match this
      case Some(v) => v
      case None => default
    }
  }

  /** The outcome of an operation that either produces a value or raises
      an error of kind `E`. */
  datatype Result<+T, +E> = Ok(value: T) | Err(error: E) {

    predicate IsFailure() {
      Err?
    }

    function PropagateFailure<U>(): Result<U, E>
      requires Err?
    {
      Err(error)
    }

    function Extract(): T
      requires Ok?
    {
      value
    }
  }

  /** The outcome of a check that either passes or raises an error of
      kind `E` (a Django validator, a form's `clean`). */
  datatype Outcome<+E> = Pass | Fail(error: E)
}
